=== FILE: README.md ===
# Feast online feature retrieval, modelled in Dafny

This project models the online-retrieval path of Feast's `FeatureStore`
(`sdk/python/feast/feature_store.py`), starting after the registry lookups.
It covers every step from the caller's entity rows and feature references to
the `GetOnlineFeaturesResponse` that is returned:

- **Feature references** (`feature_refs.dfy`, `grouping.dfy`):
  - `"view:feature"` strings are parsed and checked for name collisions (`_validate_feature_refs`).
  - They are grouped by view: standard views first, then on-demand views, then request views. An on-demand view also pulls in the features of its source views (`_group_feature_refs`).
  - The set of output names the caller asked for is computed (`requested_result_row_names`).
- **Registry name checks** (`registry_checks.dfy`):
  - feature-view names must be unique ignoring case, or `_validate_feature_views` raises;
  - data-source names should be unique, or `_validate_data_sources` warns.
- **The entity batch** (`columns.dfy`, `routing.dfy`):
  - rows are turned into columns, either by the conversion in `get_online_features` or by `_get_columnar_entity_values`;
  - all columns must have the same length (`_validate_entity_values`);
  - each input column goes either to request data or to a join key, and an entity name is translated to its join key;
  - `get_needed_request_data` and `ensure_request_data_values_exist` check the request data;
  - the placeholder entity is added for views keyed by no entity.
- **Deduplication and scatter** (`dedup.dfy`, `indexing.dfy`, `scatter.dfy`):
  - `_get_table_entity_values` renames and selects a view's join-key columns;
  - `_get_unique_entities` sorts the rows by key and groups equal keys into index lists;
  - `apply_list_mapping` writes per-key results back to every row.
- **Reading** (`online_read.dfy`): `_read_from_online_store` turns the backend's `(timestamp, features-or-None)` rows into timestamp, status and value lists aligned with the requested features.
- **The response** (`responses.dfy`, `selection.dfy`):
  - a class `OnlineFeaturesResponse` holds the output names and the feature vectors;
  - its methods append the echo columns (`_populate_result_rows_from_columnar`) and the feature columns (`_populate_response_from_feature_data`);
  - it deletes unrequested entries in place, last position first (`_drop_unneeded_columns`).

Modelling conventions:

- **Dicts.** A Python dict is an insertion-ordered sequence of `(key, value)` pairs (`Dicts.Dict`). `d[k] = v` overwrites in place or appends, which is what makes column order, key-tuple order and echo-column order agree with the source.
- **Exceptions.** Each one becomes a constructor of `Base.Error`, returned through `Result`.
- **Protobuf types.** Values, statuses and timestamps are small datatypes.
- **Loops.** The loops of the source are methods whose contracts tie them to specification functions or predicates, and the properties are proved about those.

## Model

| member | source | states |
|---|---|---|
| Strings.Split | sdk/python/feast/feature_store.py:2483 | `str.split(sep)` yields at least one part, and no part holds the separator |
| Strings.JoinSplit | sdk/python/feast/feature_store.py:2483 | joining the parts of a split with the separator gives back the string |
| Strings.SplitPair | sdk/python/feast/feature_store.py:2483 | `view + ":" + feature` with no colon in either part splits into exactly `[view, feature]` |
| Strings.LastDoubleUnderscore | sdk/python/feast/feature_store.py:1652 | the position found is a `"__"`, and no later position starts one; `None` means there is none |
| Strings.AfterLastDoubleUnderscore | sdk/python/feast/feature_store.py:1652 | `rpartition("__")[-1]` is a suffix of the string |
| Strings.LowerNormalises | sdk/python/feast/feature_store.py:2542 | `lower()` leaves no upper-case ASCII letter, keeps every other character, and is idempotent |
| Ordering.KeyLessIrreflexive | sdk/python/feast/feature_store.py:1910-1912 | no key tuple sorts before itself |
| Ordering.KeyLessTransitive | sdk/python/feast/feature_store.py:1910-1912 | the tuple order used as sort key is transitive |
| Ordering.KeyLessTotal | sdk/python/feast/feature_store.py:1910-1912 | any two distinct key tuples are ordered one way or the other |
| FeatureRefs.ParseRef | sdk/python/feast/feature_store.py:2483 | unpacking `ref.split(":")` into two names succeeds exactly when there are two parts, and otherwise fails naming the reference |
| FeatureRefs.ParseRefParts | sdk/python/feast/feature_store.py:2483 | a parsed reference is `view + ":" + feature`, with no colon in either part |
| FeatureRefs.ParseRefBuilt | sdk/python/feast/feature_store.py:2483 | parsing `view:feature` gives back `(view, feature)` |
| FeatureRefs.BareName | sdk/python/feast/feature_store.py:2432 | `ref.split(":")[1]` exists exactly when the reference holds a colon, and holds no colon itself |
| FeatureRefs.BareNames | sdk/python/feast/feature_store.py:2432 | the list of bare names succeeds exactly when every reference holds a colon; otherwise it fails at the first one that does not |
| FeatureRefs.Repeated | sdk/python/feast/feature_store.py:2428-2430 | the `Counter` keys with count above one, each listed once |
| FeatureRefs.TwiceIffTwoPositions | sdk/python/feast/feature_store.py:2429 | a count above one means two distinct positions hold the element |
| FeatureRefs.RepeatedNonEmpty | sdk/python/feast/feature_store.py:2444 | some element is repeated exactly when two positions hold equal elements |
| FeatureRefs.EndingWith | sdk/python/feast/feature_store.py:2441 | the references kept are exactly those ending in `":" + name` |
| FeatureRefs.EndingWithAny | sdk/python/feast/feature_store.py:2439-2442 | the reported references are exactly those ending in `":"` plus some collided name |
| FeatureRefs.ValidateFeatureRefs | sdk/python/feast/feature_store.py:2412-2445 | the only errors are a collision that reports a non-empty list in the right mode, or a malformed reference in bare mode |
| FeatureRefs.ValidateFullNames | sdk/python/feast/feature_store.py:2427-2430 | with full names, it raises exactly when some reference occurs twice, and reports each repeated reference once |
| FeatureRefs.ValidateBareMalformed | sdk/python/feast/feature_store.py:2432 | in bare mode, the first reference without a colon makes `split(":")[1]` fail |
| FeatureRefs.EndsWithOwnName | sdk/python/feast/feature_store.py:2441 | a well-formed reference ends in `":"` plus its own feature name |
| FeatureRefs.ValidateBareNames | sdk/python/feast/feature_store.py:2431-2445 | in bare mode, it raises exactly when two references share the text after the colon |
| FeatureRefs.EndingWithRepeated | sdk/python/feast/feature_store.py:2439-2442 | the references gathered for the collided names are those ending in `":"` plus a colliding name |
| FeatureRefs.ValidateBareReport | sdk/python/feast/feature_store.py:2439-2445 | the bare-mode report holds exactly the references ending in `":"` plus a colliding name |
| FeatureRefs.RequestedResultNames | sdk/python/feast/feature_store.py:1647-1653 | every requested name is a suffix of some reference with `:` replaced by `__` |
| FeatureRefs.ReplaceColon | sdk/python/feast/feature_store.py:1648 | `"view:feature".replace(":", "__")` is `view + "__" + feature` |
| FeatureRefs.FullNamesRequested | sdk/python/feast/feature_store.py:1647-1650 | with full names, the output name `view__feature` of every requested reference is among the requested names |
| FeatureRefs.BareNameRecovered | sdk/python/feast/feature_store.py:1651-1653 | a feature name without a leading `_` and without `"__"` survives `rpartition("__")[-1]` |
| FeatureRefs.IntendedNamesRequested | sdk/python/feast/feature_store.py:1647-1653 | the corrected requested names contain the output name of every requested feature, in both modes |
| FeatureRefs.IntendedAgreesWhenPlain | sdk/python/feast/feature_store.py:1651-1653 | when no feature name starts with `_` or holds `"__"`, the code as written and the correction agree |
| FeatureRefs.LeadingUnderscoreNotRequested | sdk/python/feast/feature_store.py:1651-1653 | for `fv:_x` in bare mode the code requests `x`, not the output name `_x` |
| FeatureRefs.LeadingUnderscoreRequestedWhenCorrected | sdk/python/feast/feature_store.py:1651-1653 | under the corrected rule, `fv:_x` in bare mode requests its output name `_x` |
| RegistryChecks.ValidateFeatureViews | sdk/python/feast/feature_store.py:2538-2550 | it succeeds exactly when names are unique ignoring case, and otherwise reports the first repeat, lower-cased |
| RegistryChecks.ValidateDataSources | sdk/python/feast/feature_store.py:2553-2568 | it warns, in order, at exactly the positions whose lower-cased name repeats an earlier one and is not blank |
| RegistryChecks.SeparatorNameIsBlank | sdk/python/feast/feature_store.py:2557-2559 | a repeated name made only of the separator U+001C strips to nothing and draws no warning |
| Grouping.IndexByName | sdk/python/feast/feature_store.py:2462-2472 | the dict comprehension over views holds exactly the names their projections use |
| Grouping.IndexByNameSpec | sdk/python/feast/feature_store.py:2462-2472 | the index holds exactly the names used; each maps to the last view with that name |
| Grouping.IndexesNamed | sdk/python/feast/feature_store.py:2462-2472 | each index maps a name to a view whose projection uses it, and holds every view's name |
| Grouping.Resolve | sdk/python/feast/feature_store.py:2483-2505 | a resolved reference parses to its view and feature, and the feature is in that view's projection |
| Grouping.LookupPriority | sdk/python/feast/feature_store.py:2484-2505 | lookup order is standard, then on-demand, then request; a view in none of the indexes raises `FeatureViewNotFound` |
| Grouping.AddSpec | sdk/python/feast/feature_store.py:2486 | `d[k].add(f)` adds `f` under `k` only, creates at most key `k`, and keeps the dict valid |
| Grouping.AddFeaturesSpec | sdk/python/feast/feature_store.py:2496-2497 | adding a list of features under one key adds exactly that set |
| Grouping.AddSourcesSpec | sdk/python/feast/feature_store.py:2493-2497 | an on-demand reference adds every feature of every source projection, under that source's name |
| Grouping.ApplyViews | sdk/python/feast/feature_store.py:2484-2497 | one reference adds to `views_features` exactly its contribution |
| Grouping.ApplyOnDemand | sdk/python/feast/feature_store.py:2487-2491 | one reference adds to `on_demand_view_features` exactly itself, when it is on-demand |
| Grouping.ApplyRequest | sdk/python/feast/feature_store.py:2498-2503 | one reference adds to `request_views_features` and `request_view_refs` exactly itself, when it is a request view |
| Grouping.ResolutionsOk | sdk/python/feast/feature_store.py:2482-2505 | on success, the resolutions are those of the references, one by one |
| Grouping.ResolutionsErr | sdk/python/feast/feature_store.py:2482-2505 | the loop fails exactly when some reference does not resolve, and raises the first such reference's error |
| Grouping.ResolutionsFailAt | sdk/python/feast/feature_store.py:2482-2505 | once a reference fails after a clean prefix, the whole loop raises that error |
| Grouping.FoldViewFeatures | sdk/python/feast/feature_store.py:2482-2497 | `views_features[k]` holds exactly the features the references contribute to `k`, with no empty entry |
| Grouping.FoldOnDemandFeatures | sdk/python/feast/feature_store.py:2487-2491 | `on_demand_view_features[k]` holds exactly the features referenced on on-demand view `k` |
| Grouping.FoldRequestFeatures | sdk/python/feast/feature_store.py:2498-2502 | `request_views_features[k]` holds exactly the features referenced on request view `k` |
| Grouping.FoldRequestRefs | sdk/python/feast/feature_store.py:2503 | `request_view_refs` is exactly the set of references resolved to request views |
| Grouping.PairKeys | sdk/python/feast/feature_store.py:2511-2516 | pairing succeeds exactly when every key is indexed, keeps key order, and otherwise fails at the first unindexed key |
| Grouping.AddSourceFeatures | sdk/python/feast/feature_store.py:2493-2497 | the nested loop over source projections computes the source specification |
| Grouping.AccumulateRef | sdk/python/feast/feature_store.py:2483-2505 | one loop turn raises the reference's resolution error, or applies its resolution |
| Grouping.AccumulateStep | sdk/python/feast/feature_store.py:2482-2505 | one more resolved reference extends the resolutions by one and the fold by one application |
| Grouping.AccumulateRefs | sdk/python/feast/feature_store.py:2482-2505 | the loop over references computes the accumulator specification, including its first error |
| Grouping.PairItems | sdk/python/feast/feature_store.py:2511-2516 | the loop over `d.items()` computes the pairing specification |
| Grouping.GroupFeatureRefs | sdk/python/feast/feature_store.py:2448-2517 | `_group_feature_refs` computes the grouping specification over the three indexes |
| Grouping.GroupSucceeds | sdk/python/feast/feature_store.py:2482-2517 | grouping succeeds exactly when every reference resolves and every view that collected features is a standard view |
| Grouping.ViewsListedIndexed | sdk/python/feast/feature_store.py:2511-2512 | the keys of `views_features` are all indexed exactly when every contributed-to view is |
| Grouping.OnDemandListedIndexed | sdk/python/feast/feature_store.py:2515-2516 | every key of `on_demand_view_features` is an indexed on-demand view |
| Grouping.RequestListedIndexed | sdk/python/feast/feature_store.py:2513-2514 | every key of `request_views_features` is an indexed request view |
| Grouping.FeatureViewsListed | sdk/python/feast/feature_store.py:2511-2512 | `fvs_result` lists the keys of `views_features` in insertion order, each with its view and its features |
| Grouping.GroupFeatureViewsSound | sdk/python/feast/feature_store.py:2482-2512 | each listed standard view carries exactly the features the references contribute to it |
| Grouping.GroupFeatureViewsComplete | sdk/python/feast/feature_store.py:2482-2512 | every contributed feature appears under its view in the result |
| Grouping.GroupFeatureViewsUnique | sdk/python/feast/feature_store.py:2507-2512 | no standard view is listed twice |
| Grouping.GroupOnDemandViews | sdk/python/feast/feature_store.py:2487-2516 | on success each on-demand view is listed with exactly the features referenced on it |
| Grouping.GroupRequestViews | sdk/python/feast/feature_store.py:2498-2514 | on success each request view is listed with exactly the features referenced on it |
| Grouping.GroupRequestRefs | sdk/python/feast/feature_store.py:2503-2517 | on success `request_view_refs` holds exactly the references resolved to request views |
| Columns.CellGet | sdk/python/feast/feature_store.py:1527-1528 | the cells a row contributes to a column are its value under that key, if any |
| Columns.ColumnOfFull | sdk/python/feast/feature_store.py:1525-1531 | a column is as long as the batch exactly when every row has the key |
| Columns.ColumnOfValues | sdk/python/feast/feature_store.py:1525-1531 | when every row has the key, entry `i` of the column is row `i`'s value |
| Columns.ColumnsOfRowsSpec | sdk/python/feast/feature_store.py:1525-1531 | the conversion fails on an empty batch, or on a row with a key the first row lacks; otherwise it gives the first row's keys with their columns |
| Columns.AppendRow | sdk/python/feast/feature_store.py:1526-1531 | the inner loop succeeds exactly when every key of the row is known, appending each value to its column |
| Columns.RowsToColumns | sdk/python/feast/feature_store.py:1525-1531 | the loops compute the conversion specification, including its errors |
| Columns.OpenColumnsMembers | sdk/python/feast/feature_store.py:1770-1773 | `defaultdict(list)` opens a column for exactly the keys seen |
| Columns.FirstAppearanceMembers | sdk/python/feast/feature_store.py:1770-1773 | the columns of the rowise conversion are exactly the keys of some row |
| Columns.FirstAppearanceNoDuplicates | sdk/python/feast/feature_store.py:1770-1773 | each key gets one column |
| Columns.ColumnOfUnlisted | sdk/python/feast/feature_store.py:1770-1773 | a key no row carries has an empty column |
| Columns.AppendRowGrowing | sdk/python/feast/feature_store.py:1771-1773 | one row appends its values and opens columns in first-appearance order |
| Columns.ColumnarEntityValues | sdk/python/feast/feature_store.py:1758-1775 | it fails unless exactly one input is given; columnar input is returned, and rowise input is converted with columns in first-appearance order |
| Columns.ValidateEntityValuesSpec | sdk/python/feast/feature_store.py:2405-2409 | it succeeds exactly when there is a column and all have one length, which it returns; no columns and mixed lengths are distinct errors |
| Columns.UniformRowsFullColumns | sdk/python/feast/feature_store.py:1525-1531 | rows with equal key sets convert and validate to the batch size |
| Columns.MissingKeyCaughtByLengthCheck | sdk/python/feast/feature_store.py:2405-2409 | a row lacking one of the first row's keys passes the conversion but fails the length check |
| Indexing.FlattenSize | sdk/python/feast/feature_store.py:2574 | `sum(len(item) for item in mapping)` is the length of the concatenated index lists |
| Indexing.PartitionFacts | sdk/python/feast/feature_store.py:2574-2578 | index lists that partition `0..n-1` have total size `n`, hold only indices below `n`, cover every index, and never share one |
| Scatter.ApplyListMapping | sdk/python/feast/feature_store.py:2571-2580 | the output has total-size slots, and each slot holds the last value written to it; an index at or past the total size raises |
| Scatter.WrittenIsLastWriter | sdk/python/feast/feature_store.py:2576-2578 | a slot holds the value of the last list naming it |
| Scatter.WrittenUnderPartition | sdk/python/feast/feature_store.py:2571-2580 | on a partition of `0..n-1`, the output has `n` slots, no slot stays `None`, and slot `idx` of `mapping[i]` holds `lst[i]` |
| Scatter.ScatterPartition | sdk/python/feast/feature_store.py:2571-2580 | on a partition, the scattered list has `n` entries, with `lst[i]` at every index of `mapping[i]` |
| Dedup.InvertAliases | sdk/python/feast/feature_store.py:1823 | the inverse `join_key_map` maps each alias back to a join key it came from |
| Dedup.TableJoinKeys | sdk/python/feast/feature_store.py:1818-1820 | the table's join keys succeed exactly when every entity is mapped, in entity order; otherwise it names an unmapped entity |
| Dedup.SelectColumnsWellFormed | sdk/python/feast/feature_store.py:1827-1831 | the dict comprehension holds each key once |
| Dedup.SelectColumnsSound | sdk/python/feast/feature_store.py:1827-1831 | each selected column is a table join key, renamed from some input column with the same values |
| Dedup.SelectColumnsComplete | sdk/python/feast/feature_store.py:1827-1831 | every input column renaming to a table join key is selected; the last such column wins |
| Dedup.TableEntityValuesSpec | sdk/python/feast/feature_store.py:1812-1832 | it fails exactly on an unmapped entity; otherwise it keeps only the table's join keys, each traceable to an input column |
| Dedup.RowCount | sdk/python/feast/feature_store.py:1909 | `zip(*columns)` yields no more rows than any column holds, and as many as the batch size when columns agree |
| Dedup.RowCountReached | sdk/python/feast/feature_store.py:1909 | with at least one column, the row count is some column's length: together with `RowCount`, the length of the shortest column |
| Dedup.RowLessAsymmetric | sdk/python/feast/feature_store.py:1910-1912 | the stable sort order on `(key, index)` is asymmetric |
| Dedup.RowLessTotal | sdk/python/feast/feature_store.py:1910-1912 | the stable sort order on `(key, index)` is total |
| Dedup.EnumerateIndices | sdk/python/feast/feature_store.py:1909 | `enumerate(zip(*columns))` numbers the rows `0..n-1` in order, where `n` is the row count |
| Dedup.SortRows | sdk/python/feast/feature_store.py:1910-1912 | sorting keeps the rows, and their number |
| Dedup.InsertIndices | sdk/python/feast/feature_store.py:1910-1912 | inserting one row adds exactly its index |
| Dedup.InsertAscending | sdk/python/feast/feature_store.py:1910-1912 | inserting into a sorted list keeps it sorted |
| Dedup.SortRowsSpec | sdk/python/feast/feature_store.py:1910-1912 | the sorted rows are ascending by `(key, index)` and a permutation of the row indices |
| Dedup.GroupRuns | sdk/python/feast/feature_store.py:1921 | `groupby` yields non-empty runs, adjacent runs have different keys, and the first run starts at the first row |
| Dedup.GroupRunsFlatten | sdk/python/feast/feature_store.py:1917-1924 | the runs' index lists, concatenated, are the sorted indices |
| Dedup.GroupRunsKeys | sdk/python/feast/feature_store.py:1917-1924 | every row index in a run has that run's key |
| Dedup.GroupRunsAscending | sdk/python/feast/feature_store.py:1917-1924 | runs of a sorted list have strictly ascending keys, and ascending indices within each run |
| Dedup.AscendingKeysDistinct | sdk/python/feast/feature_store.py:1917-1924 | keys ascending step by step are pairwise ordered, so pairwise distinct |
| Dedup.GetUniqueEntities | sdk/python/feast/feature_store.py:1886-1925 | it raises on an unmapped entity, on an empty batch, or (TypeError from the sort key) when some row holds an entity value with no field set; otherwise the index lists partition `0..N-1`, every row in a group has the group's key, keys are distinct and sorted, and indices ascend within a group |
| Dedup.UniqueFromColumns | sdk/python/feast/feature_store.py:1906-1925 | on the selected columns: fails exactly on no rows or a null key cell, with the matching error, and otherwise groups as above |
| Dedup.NullEntityRaises | sdk/python/feast/feature_store.py:1910-1911 | a one-row batch whose entity value is unset raises TypeError rather than being sorted |
| Dedup.UniqueEntitiesSpec | sdk/python/feast/feature_store.py:1909-1924 | sort-then-groupby yields index lists that partition the rows, with each group's rows sharing its key, and groups in strictly ascending key order |
| Routing.AddedMembers | sdk/python/feast/feature_store.py:1664-1692 | the loop adds to the requested names exactly the join keys routed to, and the request-view features supplied |
| Routing.RouteOutcome | sdk/python/feast/feature_store.py:1664-1692 | routing succeeds exactly when every column has a destination, and then yields the join keys and request columns in first-routed order, plus the added names |
| Routing.RouteFailsAt | sdk/python/feast/feature_store.py:1677-1685 | the first column that is neither needed request data, nor a join key, nor a known entity name raises `EntityNotFound` naming it |
| Routing.RouteEntityColumns | sdk/python/feast/feature_store.py:1664-1692 | the loop computes the routing specification |
| Routing.RouteOneRequestData | sdk/python/feast/feature_store.py:1666-1675 | one turn writes request data only for a needed name |
| Routing.RouteOneJoinKey | sdk/python/feast/feature_store.py:1676-1692 | one turn writes `join_key_values[jk]` only for the join key it resolves to |
| Routing.RequestDataValues | sdk/python/feast/feature_store.py:1664-1675 | after routing, `request_data_features[k]` is the input column `k` when `k` is needed, and absent otherwise |
| Routing.JoinKeyValuesLast | sdk/python/feast/feature_store.py:1676-1692 | `join_key_values[jk]` holds the column of the last input routed to `jk` |
| Routing.JoinKeyAbsent | sdk/python/feast/feature_store.py:1676-1692 | a join key no column routes to is absent |
| Routing.JoinKeysRoutedMembers | sdk/python/feast/feature_store.py:1676-1692 | the routed join keys are exactly the destinations of some column |
| Routing.RequestNamesMembers | sdk/python/feast/feature_store.py:1666-1675 | the request columns are exactly the needed names that are supplied |
| Routing.ExactlyOneDestination | sdk/python/feast/feature_store.py:1664-1692 | each column goes to request data exactly when needed, and otherwise to a join key present in the result |
| Routing.GetNeededRequestData | sdk/python/feast/feature_store.py:1852-1864 | the needed request data are exactly the on-demand views' request-schema fields, and the needed request features are exactly the request views' features |
| Routing.EnsureRequestDataSpec | sdk/python/feast/feature_store.py:1866-1883 | the corrected check passes exactly when every needed name is supplied, and otherwise reports exactly the missing names |
| Routing.AsWrittenCatchesMissing | sdk/python/feast/feature_store.py:1872-1883 | whenever a needed name is missing, the count check as written raises with the same report |
| Routing.AsWrittenAgreesWhenDisjoint | sdk/python/feast/feature_store.py:1872-1883 | when the two needed sets are disjoint, the check as written and the corrected check agree |
| Routing.OverlapRejected | sdk/python/feast/feature_store.py:1872-1883 | a name needed both ways and supplied makes the check as written raise with an empty report, while the corrected check passes |
| Routing.RoutedRequestDataNeeded | sdk/python/feast/feature_store.py:1664-1675 | routed request data hold only needed names |
| Routing.AddDummyEntitySpec | sdk/python/feast/feature_store.py:1705-1715 | in the entityless case, the placeholder join key gets `num_rows` placeholder values; otherwise nothing changes, and other keys never change |
| OnlineRead.NormalisesUnique | sdk/python/feast/feature_store.py:1959-1982 | the per-row promise fixes the processed row completely |
| OnlineRead.MissIsAllNotFound | sdk/python/feast/feature_store.py:1968-1970 | a miss gives all `NOT_FOUND` with null values |
| OnlineRead.ProcessRow | sdk/python/feast/feature_store.py:1961-1982 | one processed row has one timestamp per feature (the row's, or the epoch); position `j` is `PRESENT` with the value read, or `NOT_FOUND` with a null value |
| OnlineRead.ReadFromOnlineStore | sdk/python/feast/feature_store.py:1957-1983 | one processed row per backend row, in backend order, each meeting the per-row promise |
| Selection.PositionsSpec | sdk/python/feast/feature_store.py:2127-2133 | the collected positions are strictly ascending, in range, and exactly the flagged ones |
| Selection.SelectAtPositions | sdk/python/feast/feature_store.py:2135-2137 | what survives deletion is the entries at the kept positions, in their original order |
| Selection.DeleteStep | sdk/python/feast/feature_store.py:2135-2137 | deleting positions last first keeps every pending position valid; each `del` removes one more position |
| Responses.MergeEchoSpec | sdk/python/feast/feature_store.py:1702 | `dict(**join_key_values, **request_data_features)` raises on a shared key; otherwise it gives join keys then request data, each value kept, with keys unique |
| Responses.OutputNameInjective | sdk/python/feast/feature_store.py:2016-2021 | distinct features of a view get distinct output names, in both naming modes |
| Responses.OnlineFeaturesResponse.constructor | sdk/python/feast/feature_store.py:1698 | the response starts with no names and no vectors |
| Responses.OnlineFeaturesResponse.PopulateFromColumnar | sdk/python/feast/feature_store.py:1835-1849 | one name and one vector per column, appended in column order; each vector holds the column's values, all `PRESENT`, all at the epoch |
| Responses.OnlineFeaturesResponse.PopulateFromFeatureData | sdk/python/feast/feature_store.py:1986-2041 | the output names of the requested features are appended first; with no rows it then raises; otherwise one vector per feature of exactly `n` rows, carrying at every row of each unique key that key's timestamp, status and value |
| Responses.OnlineFeaturesResponse.DropUnneededColumns | sdk/python/feast/feature_store.py:2114-2138 | names and vectors become their entries whose name was requested, in original order, still aligned |
| Responses.DropSpec | sdk/python/feast/feature_store.py:2127-2138 | every surviving name was requested; names and vectors come from the same ascending original positions; no requested entry is lost |

## Left out

- The embedded Go feature server (`_lazy_init_go_server` and the branch that calls it) is a separate process with its own implementation.
- Registry access is not modelled: `_get_feature_views_to_use`, `_get_entity_maps` and the `list_*`/`get_*` wrappers. Their results (feature views, the entity-name-to-join-key map, the join-key set) are inputs to the model.
- `provider.online_read` and the `EntityKeyProto` construction are not modelled. The backend's rows are an input to `OnlineRead.ReadFromOnlineStore`, assumed aligned with the unique entities, as the source's docstring assumes.
- `_augment_response_with_on_demand_transforms` is not modelled. It runs user transformations over pandas DataFrames with floating-point arithmetic.
- Protobuf conversion (`python_values_to_proto_values`, `Timestamp.FromDatetime`) is not modelled. Values are `Base.Value` (null, integer or string) and timestamps are opaque pairs. A column mixing integers and strings would make the Python sort raise `TypeError`; the model orders values by kind instead. An unset entity value raises `TypeError` in the model too (`Base.Error.NullEntityValue`).
- `warnings.warn` and `set_usage_attribute` are telemetry. `RegistryChecks.ValidateDataSources` returns the positions that would warn instead of emitting warnings.
- `str.lower` and `str.strip` are modelled on ASCII only: `lower` maps `A`-`Z`, and `strip` removes the ASCII characters Python counts as whitespace (space, `\t`, `\n`, `\r`, `\v`, `\f` and the separators U+001C..U+001F). Unicode case mapping and non-ASCII whitespace are not modelled.
- The order of `list(feature_names)` over a Python set is unspecified, so grouped feature names are sets. Likewise, `RequestDataNotFound` reports its missing names as a set rather than the list built by iterating two sets.
- The top-level `_get_online_features` is not composed into one method. Each of its steps is modelled and specified on its own: rows to columns, the entity and reference checks, grouping, requested names, routing, the request-data check, echo columns, the placeholder entity, dedup, read, populate and drop.
- Routing.RequestDataValues: requires the input columns to have unique names, which every Python dict has.
- Responses.OnlineFeaturesResponse.PopulateFromFeatureData: requires two things the source assumes without checking. Every processed row holds one entry per requested feature, which `OnlineRead.ReadFromOnlineStore` guarantees. The index lists partition the `n` response rows, which `Dedup.GetUniqueEntities` guarantees. The truncation `zip` would apply to ragged rows is not modelled.
- Scatter.ApplyListMapping: indices are `nat`, so Python's negative list indices (which write a slot counted from the end) are outside the model; the lists passed in come from `enumerate` and are never negative.
- Scatter.ScatterPartition: states the scatter only for index lists that partition the rows. `Scatter.ApplyListMapping` models the general case, including unfilled `None` slots and `IndexError`.
- Routing.EnsureRequestDataAsWritten: counts dict keys as the size of their key set, which is exact for Python dicts.

## Findings

| source | as written | input that shows it | evidently intended | confidence | as-written member | corrected member |
|---|---|---|---|---|---|---|
| sdk/python/feast/feature_store.py:1651-1653 | In bare mode, the requested name of `view:feature` is the text after the last `"__"` of `view__feature`. | Reference `fv:_x` without full names. The output column is named `_x`, but the requested set holds `x`, so `_drop_unneeded_columns` deletes the feature the caller asked for. A feature name containing `"__"` loses its column the same way. | The requested name in bare mode is the feature name after the `:`. | not executed; high for the inputs shown | FeatureRefs.LeadingUnderscoreNotRequested | FeatureRefs.IntendedNamesRequested |
| sdk/python/feast/feature_store.py:1872-1883 | `ensure_request_data_values_exist` raises when `len(needed_request_data) + len(needed_request_fv_features)` differs from the number of request columns. | A name `x` needed both by an on-demand view's request schema and as a request-view feature, with `x` supplied. 2 ≠ 1, so it raises `RequestDataNotFoundInEntityRowsException` with an empty list of missing names. | Raise exactly when some needed name is not supplied. | not executed; medium (needs a name shared by the two kinds of view) | Routing.OverlapRejected | Routing.EnsureRequestDataSpec |

=== FILE: base.dfy ===
/**
 * Values, statuses, timestamps, feature vectors and the exceptions shared by
 * every stage of online feature retrieval.
 */
module Base {

  datatype Option<T> = None | Some(value: T)

  /**
   * One constructor per exception the retrieval path raises.  The Python code
   * raises built-in errors (ValueError, KeyError, IndexError, TypeError) for
   * several of these; the constructor names say which condition fired.
   */
  datatype Error =
    | EmptyEntityRows                            // entity_rows[0] on an empty list
    | InconsistentEntityRowKeys                  // a row carries a key the first row lacks
    | AmbiguousEntityValues                      // both or neither of rowise / columnar given
    | NoEntityColumns                            // pop() from the empty set of column lengths
    | MismatchedColumnLengths                    // columns of different lengths
    | MalformedReference(ref: string)            // a reference not shaped "view:feature"
    | FeatureNameCollision(refs: seq<string>, fullFeatureNames: bool)
    | FeatureViewNotFound(name: string)
    | FeatureNotInProjection(view: string, feature: string)
    | SourceViewNotIndexed(name: string)         // view_index[name] on an absent source view
    | EntityNotFound(name: string)
    | RequestDataNotFound(missing: set<string>)
    | EntityNotMapped(entity: string)            // entity_name_to_join_key_map[entity] is absent
    | DuplicateEchoColumn(name: string)          // dict(**a, **b) with a key in both
    | NoUniqueEntities                           // unpacking the groups of an empty batch
    | NullEntityValue                            // getattr(x, None) on an entity value with no field set
    | NoFeatureData                              // unpacking zip(*feature_data) of no rows
    | DuplicateFeatureViewName(name: string)
    | IndexOutOfRange(idx: nat)

  /** The outcome of an operation that may raise; supports `:-`. */
  datatype Result<T> = Ok(value: T) | Err(error: Error) {
    predicate IsFailure() { Err? }
    function PropagateFailure<U>(): Result<U>
      requires Err?
    {
      Err(error)
    }
    function Extract(): T
      requires Ok?
    {
      value
    }
  }

  /**
   * A protobuf `Value`.  `Null` is the empty message `Value()` used for
   * missing features; entity keys and feature values are integers or strings.
   */
  datatype Value = Null | Int(i: int) | Str(s: string)

  /** The two `FieldStatus` values this path produces. */
  datatype Status = Present | NotFound

  /** A protobuf `Timestamp`; `Timestamp()` is the epoch. */
  datatype Timestamp = Timestamp(seconds: int, nanos: int)

  const Epoch: Timestamp := Timestamp(0, 0)

  /** A composite entity key: one value per join key, in column order. */
  type Key = seq<Value>

  /** `GetOnlineFeaturesResponse.FeatureVector`: three parallel lists. */
  datatype FeatureVector = FeatureVector(values: seq<Value>, statuses: seq<Status>, eventTimestamps: seq<Timestamp>)
  {
    /** All three lists hold exactly one entry per response row. */
    predicate HasRows(n: nat) {
      |values| == n && |statuses| == n && |eventTimestamps| == n
    }
  }

  /** The placeholder entity of feature views keyed by no entity (defined in feast.feature_view). */
  const DummyEntityName: string := "__dummy"
  const DummyEntityId: string := "__dummy_id"
  const DummyEntityVal: Value := Str("")

  /** The smaller of two lengths. */
  function Min(a: nat, b: nat): nat { if a <= b then a else b }

  /** Strictly increasing positions. */
  predicate StrictlyAscending(ps: seq<nat>) {
    forall a, b :: 0 <= a < b < |ps| ==> ps[a] < ps[b]
  }
}

=== FILE: columns.dfy ===
/**
 * Entity values as the caller supplies them (a list of rows, or columns
 * keyed by join key, entity name or request field) and the conversions and
 * checks that bring them to one column per name, all of the same length.
 */
module Columns {
  import opened Base
  import opened Dicts

  /** One entity row: a name to the value it takes in that row. */
  type EntityRow = Dict<Value>

  /** Entity values by column, in the dict's key order. */
  type Columnar = Dict<seq<Value>>

  /** The values a row holds under `k`, in entry order: at most one in a well-formed row. */
  function Cell(row: EntityRow, k: string): seq<Value>
  {
    if row == [] then [] else (if row[0].0 == k then [row[0].1] else []) + Cell(row[1..], k)
  }

  lemma {:induction false} CellConcat(a: EntityRow, b: EntityRow, k: string)
    ensures Cell(a + b, k) == Cell(a, k) + Cell(b, k)
  {
    if a != [] {
      assert (a + b)[0] == a[0];
      assert (a + b)[1..] == a[1..] + b;
      CellConcat(a[1..], b, k);
      var h := if a[0].0 == k then [a[0].1] else [];
      assert Cell(a + b, k) == h + (Cell(a[1..], k) + Cell(b, k));
      assert Cell(a, k) == h + Cell(a[1..], k);
    } else {
      assert a + b == b;
    }
  }

  lemma {:induction false} CellAbsent(row: EntityRow, k: string)
    requires k !in Keys(row)
    ensures Cell(row, k) == []
  {
    if row != [] {
      assert Keys(row)[0] == row[0].0;
      assert Keys(row[1..]) == Keys(row)[1..];
      CellAbsent(row[1..], k);
    }
  }

  /** In a well-formed row the cell under `k` is what `row.get(k)` gives. */
  lemma {:induction false} CellGet(row: EntityRow, k: string)
    requires WellFormed(row)
    ensures Cell(row, k) == if k in Keys(row) then [Get(row, k).value] else []
  {
    if row != [] {
      assert Keys(row[1..]) == Keys(row)[1..];
      if row[0].0 == k {
        assert k !in Keys(row[1..]) by {
          forall j | 0 <= j < |row| - 1 ensures Keys(row[1..])[j] != k {
            assert Keys(row)[0] != Keys(row)[j + 1];
          }
        }
        CellAbsent(row[1..], k);
      } else {
        CellGet(row[1..], k);
      }
    } else {
      CellAbsent(row, k);
    }
  }

  /** The values under `k` of the rows that carry `k`, in row order. */
  function ColumnOf(rows: seq<EntityRow>, k: string): seq<Value>
  {
    if rows == [] then [] else ColumnOf(rows[..|rows| - 1], k) + Cell(rows[|rows| - 1], k)
  }

  /** A column is as long as the batch exactly when every row carries its key. */
  lemma {:induction false} ColumnOfFull(rows: seq<EntityRow>, k: string)
    requires forall i :: 0 <= i < |rows| ==> WellFormed(rows[i])
    ensures |ColumnOf(rows, k)| <= |rows|
    ensures |ColumnOf(rows, k)| == |rows| <==> forall i :: 0 <= i < |rows| ==> k in Keys(rows[i])
  {
    if rows != [] {
      var init, last := rows[..|rows| - 1], rows[|rows| - 1];
      assert ColumnOf(rows, k) == ColumnOf(init, k) + Cell(last, k);
      CellGet(last, k);
      ColumnOfFull(init, k);
      CarriedBySnoc(init, last, rows, k);
    }
  }

  /** Every row carries `k` exactly when every row but the last does and the last does too. */
  lemma CarriedBySnoc(init: seq<EntityRow>, last: EntityRow, rows: seq<EntityRow>, k: string)
    requires rows == init + [last]
    ensures (forall i :: 0 <= i < |rows| ==> k in Keys(rows[i])) <==>
            (forall i :: 0 <= i < |init| ==> k in Keys(init[i])) && k in Keys(last)
  {
    assert rows[|rows| - 1] == last;
    forall i | 0 <= i < |init| ensures rows[i] == init[i] {
    }
  }

  /** When every row carries `k`, position `i` of its column is row `i`'s value. */
  lemma {:induction false} ColumnOfValues(rows: seq<EntityRow>, k: string)
    requires forall i :: 0 <= i < |rows| ==> WellFormed(rows[i])
    requires forall i :: 0 <= i < |rows| ==> k in Keys(rows[i])
    ensures |ColumnOf(rows, k)| == |rows|
    ensures forall i :: 0 <= i < |rows| ==> Get(rows[i], k) == Some(ColumnOf(rows, k)[i])
  {
    if rows != [] {
      var init, last := rows[..|rows| - 1], rows[|rows| - 1];
      CarriedBySnoc(init, last, rows, k);
      forall i | 0 <= i < |init| ensures WellFormed(init[i]) {
        assert init[i] == rows[i];
      }
      ColumnOfValues(init, k);
      CellGet(last, k);
      ValuesSnoc(init, last, rows, k, ColumnOf(init, k), Get(last, k).value);
    }
  }

  /** The step of `ColumnOfValues`: one more row, one more value at the end of the column. */
  lemma ValuesSnoc(init: seq<EntityRow>, last: EntityRow, rows: seq<EntityRow>, k: string, c: seq<Value>, v: Value)
    requires rows == init + [last] && |c| == |init|
    requires forall i :: 0 <= i < |init| ==> Get(init[i], k) == Some(c[i])
    requires Get(last, k) == Some(v)
    ensures forall i :: 0 <= i < |rows| ==> Get(rows[i], k) == Some((c + [v])[i])
  {
    forall i | 0 <= i < |rows| ensures Get(rows[i], k) == Some((c + [v])[i]) {
      if i < |init| {
        assert rows[i] == init[i];
      }
    }
  }

  /** Dropping the last row of a prefix. */
  lemma ColumnOfSnoc(rows: seq<EntityRow>, i: nat, k: string)
    requires i < |rows|
    ensures ColumnOf(rows[..i + 1], k) == ColumnOf(rows[..i], k) + Cell(rows[i], k)
  {
    assert rows[..i + 1][..i] == rows[..i];
  }

  /** Reading one more entry of a row extends only that entry's cell. */
  lemma CellSnoc(row: EntityRow, e: nat, k: string)
    requires e < |row|
    ensures Cell(row[..e + 1], k) == Cell(row[..e], k) + (if k == row[e].0 then [row[e].1] else [])
  {
    assert row[..e + 1] == row[..e] + [row[e]];
    CellConcat(row[..e], [row[e]], k);
  }

  /** Every key of `row` is one of `allowed`. */
  predicate KeysWithin(row: EntityRow, allowed: seq<string>) {
    forall j :: 0 <= j < |row| ==> row[j].0 in allowed
  }

  /** The dict `{order[i]: cols[order[i]]}` in the order of `order`. */
  function Tabulate(order: seq<string>, cols: map<string, seq<Value>>): (d: Columnar)
    requires forall k :: k in order ==> k in cols
    ensures |d| == |order|
    ensures Keys(d) == order
    ensures forall i :: 0 <= i < |order| ==> d[i] == (order[i], cols[order[i]])
  {
    var d := seq(|order|, i requires 0 <= i < |order| => (order[i], cols[order[i]]));
    assert Keys(d) == order;
    d
  }

  /**
   * The conversion `get_online_features` applies to `entity_rows`: one column
   * per key of the first row, filled row by row.  No rows fails on
   * `entity_rows[0]`; a key the first row lacks fails; a row that lacks one
   * of the first row's keys is accepted and leaves that column shorter.
   */
  function ColumnsOfRows(rows: seq<EntityRow>): Result<Columnar>
  {
    if rows == [] then Err(EmptyEntityRows)
    else if exists i :: 0 <= i < |rows| && !KeysWithin(rows[i], Keys(rows[0])) then Err(InconsistentEntityRowKeys)
    else
      var order := Keys(rows[0]);
      Ok(Tabulate(order, map k | k in order :: ColumnOf(rows, k)))
  }

  /** What the conversion promises: when it succeeds, one column per key of the first row, each that key's values in row order. */
  lemma ColumnsOfRowsSpec(rows: seq<EntityRow>)
    requires forall i :: 0 <= i < |rows| ==> WellFormed(rows[i])
    ensures ColumnsOfRows(rows).Ok? <==> rows != [] && forall i :: 0 <= i < |rows| ==> KeysWithin(rows[i], Keys(rows[0]))
    ensures rows == [] ==> ColumnsOfRows(rows) == Err(EmptyEntityRows)
    ensures ColumnsOfRows(rows).Err? && rows != [] ==> ColumnsOfRows(rows) == Err(InconsistentEntityRowKeys)
    ensures ColumnsOfRows(rows).Ok? ==>
              var cols := ColumnsOfRows(rows).value;
              WellFormed(cols) && Keys(cols) == Keys(rows[0]) &&
              forall j :: 0 <= j < |cols| ==> cols[j].1 == ColumnOf(rows, cols[j].0)
  {
    if rows != [] && ColumnsOfRows(rows).Ok? {
      assert WellFormed(rows[0]);
    }
  }

  /** Every key of `row` names one of the `cols`. */
  predicate KeysIn(row: EntityRow, cols: map<string, seq<Value>>) {
    forall j :: 0 <= j < |row| ==> row[j].0 in cols
  }

  /** `cur` is `cols` with the cells of `row` appended, column by column. */
  ghost predicate Extended(cur: map<string, seq<Value>>, cols: map<string, seq<Value>>, row: EntityRow) {
    cur.Keys == cols.Keys && forall k :: k in cols ==> cur[k] == cols[k] + Cell(row, k)
  }

  /** One more entry read: its value is appended to its own column. */
  lemma ExtendedStep(cur: map<string, seq<Value>>, cols: map<string, seq<Value>>, row: EntityRow, e: nat)
    requires e < |row| && row[e].0 in cur
    requires Extended(cur, cols, row[..e])
    ensures Extended(cur[row[e].0 := cur[row[e].0] + [row[e].1]], cols, row[..e + 1])
  {
    forall k | k in cols {
      CellSnoc(row, e, k);
    }
  }

  /** One more entry whose key names a column. */
  lemma KnownStep(row: EntityRow, cols: map<string, seq<Value>>, e: nat)
    requires e < |row| && row[e].0 in cols
    requires forall j :: 0 <= j < e ==> row[j].0 in cols
    ensures forall j :: 0 <= j < e + 1 ==> row[j].0 in cols
  {
  }

  /** The columns `order` hold exactly the values of `rows` under their names. */
  ghost predicate HoldsColumns(cols: map<string, seq<Value>>, order: seq<string>, rows: seq<EntityRow>) {
    (forall k :: k in cols <==> k in order) && forall k :: k in order ==> cols[k] == ColumnOf(rows, k)
  }

  /** The inner loop of the conversion: `columnar[key].append(value)` for each entry of one row. */
  method AppendRow(cols: map<string, seq<Value>>, row: EntityRow) returns (r: Result<map<string, seq<Value>>>)
    ensures r.Ok? <==> KeysIn(row, cols)
    ensures r.Err? ==> r.error == InconsistentEntityRowKeys
    ensures r.Ok? ==> Extended(r.value, cols, row)
  {
    var cur := cols;
    for e := 0 to |row|
      invariant forall j :: 0 <= j < e ==> row[j].0 in cols
      invariant Extended(cur, cols, row[..e])
    {
      var (key, value) := row[e];
      if key !in cur {
        assert !KeysIn(row, cols) by { assert row[e].0 !in cols; }
        return Err(InconsistentEntityRowKeys);
      }
      KnownStep(row, cols, e);
      ExtendedStep(cur, cols, row, e);
      cur := cur[key := cur[key] + [value]];
    }
    assert row[..|row|] == row;
    assert KeysIn(row, cols);
    return Ok(cur);
  }

  /** Appending one more row's cells keeps the columns in step with the rows read. */
  lemma HoldsColumnsStep(cols: map<string, seq<Value>>, next: map<string, seq<Value>>, order: seq<string>, rows: seq<EntityRow>, i: nat)
    requires i < |rows|
    requires HoldsColumns(cols, order, rows[..i]) && Extended(next, cols, rows[i])
    ensures HoldsColumns(next, order, rows[..i + 1])
  {
    forall k | k in order ensures next[k] == ColumnOf(rows[..i + 1], k) {
      ColumnOfSnoc(rows, i, k);
    }
  }

  /** Empty columns hold the values of no rows. */
  lemma HoldsColumnsInit(cols: map<string, seq<Value>>, order: seq<string>, rows: seq<EntityRow>)
    requires cols == map k | k in order :: []
    ensures HoldsColumns(cols, order, rows[..0])
  {
    assert rows[..0] == [];
  }

  /** One more row whose keys are known. */
  lemma WithinStep(rows: seq<EntityRow>, order: seq<string>, i: nat)
    requires i < |rows| && KeysWithin(rows[i], order)
    requires forall a :: 0 <= a < i ==> KeysWithin(rows[a], order)
    ensures forall a :: 0 <= a < i + 1 ==> KeysWithin(rows[a], order)
  {
  }

  /** Over columns named by `order`, the two ways of saying a row's keys are known agree. */
  lemma KeysInWithin(row: EntityRow, cols: map<string, seq<Value>>, order: seq<string>)
    requires forall k :: k in cols <==> k in order
    ensures KeysIn(row, cols) <==> KeysWithin(row, order)
  {
  }

  /** The conversion's result, from columns that hold every row's values. */
  lemma ColumnsOfRowsOk(rows: seq<EntityRow>, cols: map<string, seq<Value>>)
    requires rows != [] && forall i :: 0 <= i < |rows| ==> KeysWithin(rows[i], Keys(rows[0]))
    requires HoldsColumns(cols, Keys(rows[0]), rows)
    ensures ColumnsOfRows(rows) == Ok(Tabulate(Keys(rows[0]), cols))
  {
    var order := Keys(rows[0]);
    assert cols == map k | k in order :: ColumnOf(rows, k);
  }

  /** A row with a key the first row lacks makes the conversion fail. */
  lemma ColumnsOfRowsErr(rows: seq<EntityRow>, i: nat)
    requires i < |rows| && !KeysWithin(rows[i], Keys(rows[0]))
    ensures ColumnsOfRows(rows) == Err(InconsistentEntityRowKeys)
  {
  }

  /** `get_online_features`' conversion loop, from `entity_rows` to columns. */
  method RowsToColumns(rows: seq<EntityRow>) returns (r: Result<Columnar>)
    ensures r == ColumnsOfRows(rows)
  {
    if rows == [] {
      return Err(EmptyEntityRows);
    }
    var order := Keys(rows[0]);
    var cols: map<string, seq<Value>> := map k | k in order :: [];
    HoldsColumnsInit(cols, order, rows);
    for i := 0 to |rows|
      invariant HoldsColumns(cols, order, rows[..i])
      invariant forall a :: 0 <= a < i ==> KeysWithin(rows[a], order)
    {
      var next := AppendRow(cols, rows[i]);
      KeysInWithin(rows[i], cols, order);
      if next.Err? {
        ColumnsOfRowsErr(rows, i);
        return Err(InconsistentEntityRowKeys);
      }
      HoldsColumnsStep(cols, next.value, order, rows, i);
      WithinStep(rows, order, i);
      cols := next.value;
    }
    assert rows[..|rows|] == rows;
    ColumnsOfRowsOk(rows, cols);
    return Ok(Tabulate(order, cols));
  }

  /** The column names after reading `row` into a `defaultdict` whose columns so far are `order`: new keys are appended. */
  function OpenColumns(order: seq<string>, row: EntityRow): seq<string>
    decreases row
  {
    if row == [] then order
    else OpenColumns(if row[0].0 in order then order else order + [row[0].0], row[1..])
  }

  /** The column names of the `defaultdict` built from `rows`: every key, in order of first appearance. */
  function FirstAppearance(rows: seq<EntityRow>): seq<string>
  {
    if rows == [] then [] else OpenColumns(FirstAppearance(rows[..|rows| - 1]), rows[|rows| - 1])
  }

  /** A name is a column after reading a row exactly when it was one before or is a key of the row. */
  lemma {:induction false} OpenColumnsMembers(order: seq<string>, row: EntityRow, k: string)
    ensures k in OpenColumns(order, row) <==> k in order || k in Keys(row)
    decreases row
  {
    if row != [] {
      assert Keys(row) == [row[0].0] + Keys(row[1..]);
      OpenColumnsMembers(if row[0].0 in order then order else order + [row[0].0], row[1..], k);
    }
  }

  /** Reading a row never lists a column twice. */
  lemma {:induction false} OpenColumnsNoDuplicates(order: seq<string>, row: EntityRow)
    requires NoDuplicates(order)
    ensures NoDuplicates(OpenColumns(order, row))
    decreases row
  {
    if row != [] {
      var next := if row[0].0 in order then order else order + [row[0].0];
      assert NoDuplicates(next);
      OpenColumnsNoDuplicates(next, row[1..]);
    }
  }

  /** A name is a column of the regrouped rows exactly when some row carries it. */
  lemma {:induction false} FirstAppearanceMembers(rows: seq<EntityRow>, k: string)
    ensures k in FirstAppearance(rows) <==> exists i :: 0 <= i < |rows| && k in Keys(rows[i])
  {
    if rows != [] {
      var init := rows[..|rows| - 1];
      FirstAppearanceMembers(init, k);
      OpenColumnsMembers(FirstAppearance(init), rows[|rows| - 1], k);
      if exists i :: 0 <= i < |init| && k in Keys(init[i]) {
        var i :| 0 <= i < |init| && k in Keys(init[i]);
        assert rows[i] == init[i];
      }
      if exists i :: 0 <= i < |rows| && k in Keys(rows[i]) {
        var i :| 0 <= i < |rows| && k in Keys(rows[i]);
        if i < |init| {
          assert init[i] == rows[i];
        }
      }
    }
  }

  /** The regrouped rows list each column once. */
  lemma {:induction false} FirstAppearanceNoDuplicates(rows: seq<EntityRow>)
    ensures NoDuplicates(FirstAppearance(rows))
  {
    if rows != [] {
      FirstAppearanceNoDuplicates(rows[..|rows| - 1]);
      OpenColumnsNoDuplicates(FirstAppearance(rows[..|rows| - 1]), rows[|rows| - 1]);
    }
  }

  /** A name no row carries has an empty column. */
  lemma {:induction false} ColumnOfUnlisted(rows: seq<EntityRow>, k: string)
    requires k !in FirstAppearance(rows)
    ensures ColumnOf(rows, k) == []
  {
    if rows != [] {
      var init := rows[..|rows| - 1];
      OpenColumnsMembers(FirstAppearance(init), rows[|rows| - 1], k);
      CellAbsent(rows[|rows| - 1], k);
      ColumnOfUnlisted(init, k);
    }
  }

  /**
   * The `defaultdict(list)` built from rows by `_get_columnar_entity_values`:
   * columns in order of first appearance of their key, each the key's values
   * in row order.
   */
  function ColumnsByFirstAppearance(rows: seq<EntityRow>): Columnar
  {
    var order := FirstAppearance(rows);
    Tabulate(order, map k | k in order :: ColumnOf(rows, k))
  }

  /** `d[k]` on a `defaultdict(list)`: the empty list for a missing key. */
  function Lookup(d: map<string, seq<Value>>, k: string): seq<Value> {
    if k in d then d[k] else []
  }

  /** `cur` is `cols` with the cells of `row` appended, opening columns as needed. */
  ghost predicate Grown(cur: map<string, seq<Value>>, cols: map<string, seq<Value>>, row: EntityRow) {
    forall k :: Lookup(cur, k) == Lookup(cols, k) + Cell(row, k)
  }

  /** One more entry read, seen from one column. */
  lemma GrownAt(cur: map<string, seq<Value>>, cols: map<string, seq<Value>>, row: EntityRow, e: nat, k: string)
    requires e < |row|
    requires Lookup(cur, k) == Lookup(cols, k) + Cell(row[..e], k)
    ensures var next := cur[row[e].0 := Lookup(cur, row[e].0) + [row[e].1]];
      Lookup(next, k) == Lookup(cols, k) + Cell(row[..e + 1], k)
  {
    CellSnoc(row, e, k);
  }

  /** One more entry read: its value is appended to its column, which is opened if new. */
  lemma GrownStep(cur: map<string, seq<Value>>, cols: map<string, seq<Value>>, row: EntityRow, e: nat)
    requires e < |row|
    requires Grown(cur, cols, row[..e])
    ensures Grown(cur[row[e].0 := Lookup(cur, row[e].0) + [row[e].1]], cols, row[..e + 1])
  {
    forall k {
      GrownAt(cur, cols, row, e, k);
    }
  }

  /** The columns are exactly the names in `order`. */
  ghost predicate Named(cols: map<string, seq<Value>>, order: seq<string>) {
    forall k :: k in cols <==> k in order
  }

  /** One more entry read: the columns still to open are those of the rest of the row. */
  lemma OpenStep(order: seq<string>, cols: map<string, seq<Value>>, row: EntityRow, e: nat, v: seq<Value>)
    requires e < |row| && Named(cols, order)
    ensures var order' := if row[e].0 in cols then order else order + [row[e].0];
      Named(cols[row[e].0 := v], order') && OpenColumns(order', row[e + 1..]) == OpenColumns(order, row[e..])
  {
    assert row[e..][1..] == row[e + 1..];
  }

  /** The inner loop of the `defaultdict(list)` regrouping: appends one row, opening a column for each new key. */
  method AppendRowGrowing(order: seq<string>, cols: map<string, seq<Value>>, row: EntityRow)
      returns (order': seq<string>, cols': map<string, seq<Value>>)
    requires Named(cols, order)
    ensures order' == OpenColumns(order, row)
    ensures Named(cols', order')
    ensures Grown(cols', cols, row)
  {
    order', cols' := order, cols;
    assert row[..0] == [] && row[0..] == row;
    for e := 0 to |row|
      invariant OpenColumns(order', row[e..]) == OpenColumns(order, row)
      invariant Named(cols', order')
      invariant Grown(cols', cols, row[..e])
    {
      var (key, value) := row[e];
      OpenStep(order', cols', row, e, Lookup(cols', key) + [value]);
      GrownStep(cols', cols, row, e);
      if key !in cols' {
        order' := order' + [key];
      }
      cols' := cols'[key := Lookup(cols', key) + [value]];
    }
    assert row[..|row|] == row && row[|row|..] == [];
  }

  /** One more row regrouped, seen from one column. */
  lemma GrownRowsAt(cols: map<string, seq<Value>>, cols': map<string, seq<Value>>, rows: seq<EntityRow>, i: nat, k: string)
    requires i < |rows| && k in cols'
    requires k in cols ==> cols[k] == ColumnOf(rows[..i], k)
    requires k !in cols ==> k !in FirstAppearance(rows[..i])
    requires Lookup(cols', k) == Lookup(cols, k) + Cell(rows[i], k)
    ensures cols'[k] == ColumnOf(rows[..i + 1], k)
  {
    ColumnOfSnoc(rows, i, k);
    if k !in cols {
      ColumnOfUnlisted(rows[..i], k);
    }
  }

  /** The column names after one more row. */
  lemma FirstAppearanceSnoc(rows: seq<EntityRow>, i: nat)
    requires i < |rows|
    ensures FirstAppearance(rows[..i + 1]) == OpenColumns(FirstAppearance(rows[..i]), rows[i])
  {
    assert rows[..i + 1][..i] == rows[..i];
  }

  /** One more row regrouped: the columns hold the values of one more row. */
  lemma GrownRowsStep(order: seq<string>, cols: map<string, seq<Value>>, order': seq<string>, cols': map<string, seq<Value>>, rows: seq<EntityRow>, i: nat)
    requires i < |rows|
    requires order == FirstAppearance(rows[..i]) && HoldsColumns(cols, order, rows[..i])
    requires Named(cols', order') && Grown(cols', cols, rows[i])
    ensures HoldsColumns(cols', order', rows[..i + 1])
  {
    forall k | k in order' ensures cols'[k] == ColumnOf(rows[..i + 1], k) {
      GrownRowsAt(cols, cols', rows, i, k);
    }
  }

  /** The regrouping's result, from columns that hold every row's values. */
  lemma ByFirstAppearanceOk(rows: seq<EntityRow>, order: seq<string>, cols: map<string, seq<Value>>)
    requires order == FirstAppearance(rows) && HoldsColumns(cols, order, rows)
    ensures ColumnsByFirstAppearance(rows) == Tabulate(order, cols)
  {
    assert cols == map k | k in order :: ColumnOf(rows, k);
  }

  /** `_get_columnar_entity_values`: exactly one of the two inputs may be given; rows are regrouped by key. */
  method ColumnarEntityValues(rowise: Option<seq<EntityRow>>, columnar: Option<Columnar>) returns (r: Result<Columnar>)
    ensures r.Err? <==> (rowise.Some? <==> columnar.Some?)
    ensures r.Err? ==> r.error == AmbiguousEntityValues
    ensures columnar.Some? && rowise.None? ==> r == Ok(columnar.value)
    ensures rowise.Some? && columnar.None? ==> r == Ok(ColumnsByFirstAppearance(rowise.value))
  {
    if rowise.Some? == columnar.Some? {
      return Err(AmbiguousEntityValues);
    }
    if columnar.Some? {
      return Ok(columnar.value);
    }
    var rows := rowise.value;
    var order: seq<string> := [];
    var cols: map<string, seq<Value>> := map[];
    for i := 0 to |rows|
      invariant order == FirstAppearance(rows[..i])
      invariant HoldsColumns(cols, order, rows[..i])
    {
      var order', cols' := AppendRowGrowing(order, cols, rows[i]);
      FirstAppearanceSnoc(rows, i);
      GrownRowsStep(order, cols, order', cols', rows, i);
      order, cols := order', cols';
    }
    assert rows[..|rows|] == rows;
    ByFirstAppearanceOk(rows, order, cols);
    return Ok(Tabulate(order, cols));
  }

  /**
   * `_validate_entity_values`: the set of column lengths must hold exactly
   * one length, which is the number of rows.  Two lengths fail; no columns
   * fail on `pop()` from the empty set.
   */
  function ValidateEntityValues(cols: Columnar): Result<nat>
  {
    var lengths := set i | 0 <= i < |cols| :: |cols[i].1|;
    if |lengths| > 1 then Err(MismatchedColumnLengths)
    else if lengths == {} then Err(NoEntityColumns)
    else Ok(|cols[0].1|)
  }

  /** The length check succeeds exactly when there are columns and all have one length, which it returns. */
  lemma ValidateEntityValuesSpec(cols: Columnar)
    ensures ValidateEntityValues(cols).Ok? <==> cols != [] && forall i :: 0 <= i < |cols| ==> |cols[i].1| == |cols[0].1|
    ensures ValidateEntityValues(cols).Ok? ==> forall i :: 0 <= i < |cols| ==> |cols[i].1| == ValidateEntityValues(cols).value
    ensures cols == [] ==> ValidateEntityValues(cols) == Err(NoEntityColumns)
    ensures cols != [] && ValidateEntityValues(cols).Err? ==> ValidateEntityValues(cols) == Err(MismatchedColumnLengths)
  {
    var lengths := set i | 0 <= i < |cols| :: |cols[i].1|;
    if cols != [] {
      assert |cols[0].1| in lengths;
      if forall i :: 0 <= i < |cols| ==> |cols[i].1| == |cols[0].1| {
        assert lengths == {|cols[0].1|};
      } else {
        var i :| 0 <= i < |cols| && |cols[i].1| != |cols[0].1|;
        assert {|cols[0].1|, |cols[i].1|} <= lengths;
        assert |{|cols[0].1|, |cols[i].1|}| == 2;
        SubsetCardinality({|cols[0].1|, |cols[i].1|}, lengths);
      }
    } else {
      assert lengths == {};
    }
  }

  lemma SubsetCardinality(a: set<nat>, b: set<nat>)
    requires a <= b
    ensures |a| <= |b|
  {
    assert b == a + (b - a);
  }

  /** Rows that all carry exactly the first row's (non-empty) keys pass the length check with the number of rows. */
  lemma UniformRowsFullColumns(rows: seq<EntityRow>)
    requires forall i :: 0 <= i < |rows| ==> WellFormed(rows[i])
    requires rows != [] && rows[0] != []
    requires forall i, k :: 0 <= i < |rows| ==> (k in Keys(rows[i]) <==> k in Keys(rows[0]))
    ensures ColumnsOfRows(rows).Ok?
    ensures ValidateEntityValues(ColumnsOfRows(rows).value) == Ok(|rows|)
  {
    var order := Keys(rows[0]);
    forall i | 0 <= i < |rows| ensures KeysWithin(rows[i], order) {
      forall e | 0 <= e < |rows[i]| ensures rows[i][e].0 in order {
        assert Keys(rows[i])[e] == rows[i][e].0;
      }
    }
    var cols := ColumnsOfRows(rows).value;
    forall j | 0 <= j < |cols| ensures |cols[j].1| == |rows| {
      ColumnOfFull(rows, order[j]);
    }
    ValidateEntityValuesSpec(cols);
  }

  /**
   * A row lacking one of the first row's keys passes the conversion; the
   * length check after it fails as soon as some other key is in every row.
   */
  lemma MissingKeyCaughtByLengthCheck(rows: seq<EntityRow>, i: nat, k: string, k': string)
    requires forall a :: 0 <= a < |rows| ==> WellFormed(rows[a])
    requires ColumnsOfRows(rows).Ok?
    requires i < |rows| && k in Keys(rows[0]) && k !in Keys(rows[i])
    requires k' in Keys(rows[0]) && forall a :: 0 <= a < |rows| ==> k' in Keys(rows[a])
    ensures ValidateEntityValues(ColumnsOfRows(rows).value) == Err(MismatchedColumnLengths)
  {
    var cols := ColumnsOfRows(rows).value;
    var p := ColumnAt(rows, k);
    var q := ColumnAt(rows, k');
    ColumnOfFull(rows, k);
    ColumnOfFull(rows, k');
    MismatchedLengths(cols, p, q);
  }

  /** The column of a key of the first row sits at some position of a successful conversion. */
  lemma ColumnAt(rows: seq<EntityRow>, k: string) returns (p: nat)
    requires forall i :: 0 <= i < |rows| ==> WellFormed(rows[i])
    requires ColumnsOfRows(rows).Ok? && k in Keys(rows[0])
    ensures p < |ColumnsOfRows(rows).value| && ColumnsOfRows(rows).value[p] == (k, ColumnOf(rows, k))
  {
    ColumnsOfRowsSpec(rows);
    var cols := ColumnsOfRows(rows).value;
    p :| 0 <= p < |cols| && cols[p].0 == k;
  }

  /** Two columns of different lengths fail the length check. */
  lemma MismatchedLengths(cols: Columnar, p: nat, q: nat)
    requires p < |cols| && q < |cols| && |cols[p].1| != |cols[q].1|
    ensures ValidateEntityValues(cols) == Err(MismatchedColumnLengths)
  {
    ValidateEntityValuesSpec(cols);
  }
}

=== FILE: dedup.dfy ===
/**
 * The deduplicator: `_get_table_entity_values` picks out and renames the
 * join-key columns one feature view needs, and `_get_unique_entities` sorts
 * the enumerated rows by their key tuple and groups equal neighbours, giving
 * the distinct composite keys to read and, for each, the rows it came from.
 */
module Dedup {
  import opened Base
  import opened Dicts
  import opened Ordering
  import opened Indexing
  import opened Views

  // ---------------------------------------------------------------------
  // _get_table_entity_values
  // ---------------------------------------------------------------------

  /** `{v: k for k, v in join_key_map.items()}`: alias to canonical join key; a later pair wins. */
  function InvertAliases(joinKeyMap: Dict<string>): (inv: map<string, string>)
    ensures forall i :: 0 <= i < |joinKeyMap| ==> joinKeyMap[i].1 in inv
    ensures forall a :: a in inv ==> exists i :: 0 <= i < |joinKeyMap| && joinKeyMap[i].1 == a && inv[a] == joinKeyMap[i].0
  {
    if joinKeyMap == [] then map[]
    else
      var last := joinKeyMap[|joinKeyMap| - 1];
      InvertAliases(joinKeyMap[..|joinKeyMap| - 1])[last.1 := last.0]
  }

  /** `alias_to_join_key_map.get(k, k)`. */
  function Canonical(aliases: map<string, string>, k: string): string {
    if k in aliases then aliases[k] else k
  }

  /** `[entity_name_to_join_key_map[e] for e in table.entities]`; KeyError on an unknown entity. */
  function TableJoinKeys(entities: seq<string>, entityMap: map<string, string>): (r: Result<seq<string>>)
    ensures r.Ok? <==> forall e :: e in entities ==> e in entityMap
    ensures r.Ok? ==> |r.value| == |entities| && forall i :: 0 <= i < |entities| ==> r.value[i] == entityMap[entities[i]]
    ensures r.Err? ==> r.error.EntityNotMapped? && r.error.entity in entities && r.error.entity !in entityMap
  {
    if entities == [] then Ok([])
    else if entities[0] !in entityMap then Err(EntityNotMapped(entities[0]))
    else
      var rest :- TableJoinKeys(entities[1..], entityMap);
      Ok([entityMap[entities[0]]] + rest)
  }

  /**
   * The dict comprehension of `_get_table_entity_values`: each column whose
   * canonical name is one of the view's join keys, under that name; when two
   * columns share a canonical name the later one's values win.
   */
  function SelectColumns(columns: Dict<seq<Value>>, aliases: map<string, string>, joinKeys: seq<string>): Dict<seq<Value>>
  {
    if columns == [] then []
    else
      var acc := SelectColumns(columns[..|columns| - 1], aliases, joinKeys);
      var (k, v) := columns[|columns| - 1];
      if Canonical(aliases, k) in joinKeys then Put(acc, Canonical(aliases, k), v) else acc
  }

  /** The selected columns form a dict: each join key at most once. */
  lemma {:induction false} SelectColumnsWellFormed(columns: Dict<seq<Value>>, aliases: map<string, string>, joinKeys: seq<string>)
    ensures WellFormed(SelectColumns(columns, aliases, joinKeys))
  {
    if columns != [] {
      var init := columns[..|columns| - 1];
      SelectColumnsWellFormed(init, aliases, joinKeys);
      var (k, v) := columns[|columns| - 1];
      if Canonical(aliases, k) in joinKeys {
        PutWellFormed(SelectColumns(init, aliases, joinKeys), Canonical(aliases, k), v);
      }
    }
  }

  /** Every selected column is one of the view's join keys, holding the values of a column renamed to it. */
  lemma {:induction false} SelectColumnsSound(columns: Dict<seq<Value>>, aliases: map<string, string>, joinKeys: seq<string>)
    ensures forall i :: 0 <= i < |SelectColumns(columns, aliases, joinKeys)| ==>
              SelectColumns(columns, aliases, joinKeys)[i].0 in joinKeys
              && Traceable(SelectColumns(columns, aliases, joinKeys)[i], columns, aliases)
  {
    if columns != [] {
      var init := columns[..|columns| - 1];
      SelectColumnsSound(init, aliases, joinKeys);
      SelectColumnsWellFormed(init, aliases, joinKeys);
      var acc := SelectColumns(init, aliases, joinKeys);
      var (k, v) := columns[|columns| - 1];
      var jk := Canonical(aliases, k);
      var r := SelectColumns(columns, aliases, joinKeys);
      forall i | 0 <= i < |acc| ensures Traceable(acc[i], columns, aliases) {
        assert Traceable(acc[i], init, aliases);
        var j :| 0 <= j < |init| && Canonical(aliases, init[j].0) == acc[i].0 && init[j].1 == acc[i].1;
        assert columns[j] == init[j];
      }
      if jk in joinKeys {
        forall i | 0 <= i < |r| ensures r[i].0 in joinKeys && Traceable(r[i], columns, aliases) {
          PutEntry(acc, jk, v, i);
          if r[i].0 == jk {
            assert Canonical(aliases, columns[|columns| - 1].0) == r[i].0 && columns[|columns| - 1].1 == r[i].1;
          }
        }
      }
    }
  }

  /** Every column renamed to a join key is selected, and the last such column's values are the ones kept. */
  lemma {:induction false} SelectColumnsComplete(columns: Dict<seq<Value>>, aliases: map<string, string>, joinKeys: seq<string>, j: nat)
    requires j < |columns| && Canonical(aliases, columns[j].0) in joinKeys
    ensures Canonical(aliases, columns[j].0) in Keys(SelectColumns(columns, aliases, joinKeys))
    ensures LastFor(columns, aliases, j) ==> Get(SelectColumns(columns, aliases, joinKeys), Canonical(aliases, columns[j].0)) == Some(columns[j].1)
  {
    var init := columns[..|columns| - 1];
    if j < |init| {
      assert columns[j] == init[j];
      SelectColumnsComplete(init, aliases, joinKeys, j);
      if LastFor(columns, aliases, j) {
        assert LastFor(init, aliases, j) by {
          forall j' | j < j' < |init| ensures Canonical(aliases, init[j'].0) != Canonical(aliases, init[j].0) {
            assert columns[j'] == init[j'];
          }
        }
      }
    }
  }

  /** The entry came from some column renamed to its name, with that column's values. */
  ghost predicate Traceable(entry: (string, seq<Value>), columns: Dict<seq<Value>>, aliases: map<string, string>) {
    exists j :: 0 <= j < |columns| && Canonical(aliases, columns[j].0) == entry.0 && columns[j].1 == entry.1
  }

  /** No later column is renamed to the same join key as column `j`. */
  ghost predicate LastFor(columns: Dict<seq<Value>>, aliases: map<string, string>, j: nat)
    requires j < |columns|
  {
    forall j' :: j < j' < |columns| ==> Canonical(aliases, columns[j'].0) != Canonical(aliases, columns[j].0)
  }

  /** An entry of `Put(d, k, v)` is `(k, v)` or the entry of `d` at the same position. */
  lemma {:induction false} PutEntry<V>(d: Dict<V>, k: string, v: V, i: nat)
    requires WellFormed(d) && i < |Put(d, k, v)|
    ensures Put(d, k, v)[i].0 == k ==> Put(d, k, v)[i] == (k, v)
    ensures Put(d, k, v)[i].0 != k ==> i < |d| && Put(d, k, v)[i] == d[i]
  {
    if d != [] && d[0].0 == k && i > 0 {
      assert Keys(d)[0] != Keys(d)[i];
    }
    if d != [] && d[0].0 != k && i > 0 {
      assert WellFormed(d[1..]) by {
        forall a, b | 0 <= a < b < |d| - 1 ensures Keys(d[1..])[a] != Keys(d[1..])[b] {
          assert Keys(d)[a + 1] != Keys(d)[b + 1];
        }
      }
      PutEntry(d[1..], k, v, i - 1);
    }
  }

  /** `_get_table_entity_values(table, entity_name_to_join_key_map, join_key_values)`. */
  function GetTableEntityValues(table: FeatureView, entityMap: map<string, string>, joinKeyValues: Dict<seq<Value>>): Result<Dict<seq<Value>>>
  {
    var joinKeys :- TableJoinKeys(table.entities, entityMap);
    Ok(SelectColumns(joinKeyValues, InvertAliases(table.projection.joinKeyMap), joinKeys))
  }

  /**
   * The table's columns: an error exactly when one of its entities has no
   * join key; otherwise a dict holding only the table's own join keys, each
   * with the values of a request column that is that key or an alias of it.
   */
  lemma TableEntityValuesSpec(table: FeatureView, entityMap: map<string, string>, joinKeyValues: Dict<seq<Value>>)
    ensures var r := GetTableEntityValues(table, entityMap, joinKeyValues);
            && (r.Err? <==> exists e :: e in table.entities && e !in entityMap)
            && (r.Ok? ==> WellFormed(r.value)
                          && forall i :: 0 <= i < |r.value| ==>
                               && (exists e :: e in table.entities && r.value[i].0 == entityMap[e])
                               && Traceable(r.value[i], joinKeyValues, InvertAliases(table.projection.joinKeyMap)))
  {
    var r := GetTableEntityValues(table, entityMap, joinKeyValues);
    var jk := TableJoinKeys(table.entities, entityMap);
    if jk.Ok? {
      var aliases := InvertAliases(table.projection.joinKeyMap);
      SelectColumnsWellFormed(joinKeyValues, aliases, jk.value);
      SelectColumnsSound(joinKeyValues, aliases, jk.value);
      assert r.value == SelectColumns(joinKeyValues, aliases, jk.value);
      forall i | 0 <= i < |r.value| ensures exists e :: e in table.entities && r.value[i].0 == entityMap[e] {
        assert r.value[i].0 in jk.value;
        var p :| 0 <= p < |jk.value| && jk.value[p] == r.value[i].0;
        assert table.entities[p] in table.entities;
      }
    }
  }

  // ---------------------------------------------------------------------
  // Rows of composite keys: list(enumerate(zip(*table_entity_values.values())))
  // ---------------------------------------------------------------------

  /** The length of `zip(*columns)`: the shortest column, or 0 with no columns. */
  function RowCount(cols: Dict<seq<Value>>): (n: nat)
    ensures forall c :: 0 <= c < |cols| ==> n <= |cols[c].1|
    ensures (forall c :: 0 <= c < |cols| ==> |cols[c].1| == |cols[0].1|) && cols != [] ==> n == |cols[0].1|
    ensures cols == [] ==> n == 0
  {
    if |cols| == 0 then 0
    else if |cols| == 1 then |cols[0].1|
    else Min(|cols[0].1|, RowCount(cols[1..]))
  }

  /** The row count is reached: it is the length of some column, the shortest. */
  lemma {:induction false} RowCountReached(cols: Dict<seq<Value>>)
    requires cols != []
    ensures exists c :: 0 <= c < |cols| && RowCount(cols) == |cols[c].1|
  {
    if |cols| == 1 {
      assert RowCount(cols) == |cols[0].1|;
    } else if |cols[0].1| <= RowCount(cols[1..]) {
      assert RowCount(cols) == |cols[0].1|;
    } else {
      RowCountReached(cols[1..]);
      var c :| 0 <= c < |cols[1..]| && RowCount(cols[1..]) == |cols[1..][c].1|;
      assert RowCount(cols) == |cols[c + 1].1|;
    }
  }

  /** The key tuple of row `i`: the row's value in each column, in column order. */
  function KeyAt(cols: Dict<seq<Value>>, i: nat): (k: Key)
    requires i < RowCount(cols)
    ensures |k| == |cols| && forall c :: 0 <= c < |cols| ==> k[c] == cols[c].1[i]
  {
    seq(|cols|, c requires 0 <= c < |cols| => cols[c].1[i])
  }

  /** A row of the batch: its original position and its key tuple. */
  datatype Row = Row(index: nat, key: Key)

  /**
   * The order the rows end up in: `list.sort` is stable, so sorting the
   * enumerated rows by key leaves equal keys in index order; that is the
   * order by key, then index.
   */
  predicate RowLess(a: Row, b: Row) {
    KeyLess(a.key, b.key) || (a.key == b.key && a.index < b.index)
  }

  lemma RowLessAsymmetric(a: Row, b: Row)
    requires RowLess(a, b)
    ensures !RowLess(b, a)
  {
    if KeyLess(a.key, b.key) && KeyLess(b.key, a.key) {
      KeyLessTransitive(a.key, b.key, a.key);
      KeyLessIrreflexive(a.key);
    }
    KeyLessIrreflexive(a.key);
  }

  lemma RowLessTotal(a: Row, b: Row)
    requires a != b
    ensures RowLess(a, b) || RowLess(b, a)
  {
    if a.key != b.key { KeyLessTotal(a.key, b.key); }
  }

  function Enumerate(cols: Dict<seq<Value>>): (rows: seq<Row>)
    ensures |rows| == RowCount(cols)
    ensures forall i :: 0 <= i < |rows| ==> rows[i] == Row(i, KeyAt(cols, i))
  {
    seq(RowCount(cols), i requires 0 <= i < RowCount(cols) => Row(i, KeyAt(cols, i)))
  }

  function Indices(rows: seq<Row>): (r: seq<nat>)
    ensures |r| == |rows| && forall i :: 0 <= i < |rows| ==> r[i] == rows[i].index
  {
    if rows == [] then [] else [rows[0].index] + Indices(rows[1..])
  }

  /** The enumerated rows are numbered `0..n-1` in order: `enumerate` counts from zero. */
  lemma EnumerateIndices(cols: Dict<seq<Value>>)
    ensures Indices(Enumerate(cols)) == Range(RowCount(cols))
  {
  }

  predicate Ascending(rows: seq<Row>) {
    forall i :: 0 < i < |rows| ==> RowLess(rows[i - 1], rows[i])
  }

  // ---------------------------------------------------------------------
  // rowise.sort(key=...)
  // ---------------------------------------------------------------------

  function Insert(r: Row, s: seq<Row>): (t: seq<Row>)
    ensures |t| == |s| + 1
    ensures forall x :: x in t <==> x == r || x in s
    ensures t[0] == r || (s != [] && t[0] == s[0])
  {
    if s == [] then [r]
    else if RowLess(s[0], r) then [s[0]] + Insert(r, s[1..])
    else [r] + s
  }

  function SortRows(s: seq<Row>): (t: seq<Row>)
    ensures |t| == |s|
    ensures forall x :: x in t <==> x in s
  {
    if s == [] then [] else Insert(s[0], SortRows(s[1..]))
  }

  lemma {:induction false} InsertIndices(r: Row, s: seq<Row>)
    ensures multiset(Indices(Insert(r, s))) == multiset(Indices(s)) + multiset{r.index}
  {
    if s != [] && RowLess(s[0], r) {
      InsertIndices(r, s[1..]);
      assert Indices(Insert(r, s)) == [s[0].index] + Indices(Insert(r, s[1..]));
      assert Indices(s) == [s[0].index] + Indices(s[1..]);
    }
  }

  lemma {:induction false} InsertAscending(r: Row, s: seq<Row>)
    requires Ascending(s) && r !in s && forall x :: x in s ==> x.index != r.index
    ensures Ascending(Insert(r, s))
  {
    if s != [] {
      if RowLess(s[0], r) {
        InsertAscending(r, s[1..]);
        var t := Insert(r, s[1..]);
        if t[0] != r {
          assert RowLess(s[0], s[1]);
        }
        assert Insert(r, s) == [s[0]] + t;
      } else {
        assert s[0].index != r.index;
        RowLessTotal(r, s[0]);
      }
    }
  }

  /** The sorted rows are a permutation of the input rows, strictly ascending by (key, index). */
  lemma {:induction false} SortRowsSpec(s: seq<Row>)
    requires forall i, j :: 0 <= i < j < |s| ==> s[i].index != s[j].index
    ensures Ascending(SortRows(s))
    ensures multiset(Indices(SortRows(s))) == multiset(Indices(s))
  {
    if s != [] {
      var tail := SortRows(s[1..]);
      SortRowsSpec(s[1..]);
      forall x | x in tail ensures x.index != s[0].index {
        var j :| 0 <= j < |s[1..]| && s[1..][j] == x;
        assert s[j + 1] == x;
      }
      InsertAscending(s[0], tail);
      InsertIndices(s[0], tail);
      assert Indices(s) == [s[0].index] + Indices(s[1..]);
    }
  }

  // ---------------------------------------------------------------------
  // itertools.groupby(rowise, key=lambda x: x[1])
  // ---------------------------------------------------------------------

  /** One maximal run of equal keys: the key and the original positions of its rows. */
  datatype Group = Group(key: Key, indices: seq<nat>)

  /** Maximal runs of consecutive rows with equal keys, in order. */
  function GroupRuns(s: seq<Row>): (gs: seq<Group>)
    ensures s == [] <==> gs == []
    ensures s != [] ==> gs[0].key == s[0].key && gs[0].indices != [] && gs[0].indices[0] == s[0].index
    ensures forall g :: 0 <= g < |gs| ==> gs[g].indices != []
    ensures forall g :: 0 < g < |gs| ==> gs[g - 1].key != gs[g].key
  {
    if s == [] then []
    else
      var rest := GroupRuns(s[1..]);
      if rest != [] && rest[0].key == s[0].key then
        [Group(s[0].key, [s[0].index] + rest[0].indices)] + rest[1..]
      else
        [Group(s[0].key, [s[0].index])] + rest
  }

  function IndexLists(gs: seq<Group>): (r: seq<seq<nat>>)
    ensures |r| == |gs| && forall g :: 0 <= g < |gs| ==> r[g] == gs[g].indices
  {
    seq(|gs|, g requires 0 <= g < |gs| => gs[g].indices)
  }

  function GroupKeys(gs: seq<Group>): (r: seq<Key>)
    ensures |r| == |gs| && forall g :: 0 <= g < |gs| ==> r[g] == gs[g].key
  {
    seq(|gs|, g requires 0 <= g < |gs| => gs[g].key)
  }

  lemma FlattenCons(a: seq<nat>, t: seq<seq<nat>>)
    ensures Flatten([a] + t) == a + Flatten(t)
  {
    assert ([a] + t)[1..] == t;
  }

  lemma IndexListsCons(g: Group, gs: seq<Group>)
    ensures IndexLists([g] + gs) == [g.indices] + IndexLists(gs)
  {
  }

  /** Grouping only cuts the sequence of rows: the groups' positions laid end to end are the rows' positions. */
  lemma {:induction false} GroupRunsFlatten(s: seq<Row>)
    ensures Flatten(IndexLists(GroupRuns(s))) == Indices(s)
  {
    if s != [] {
      GroupRunsFlatten(s[1..]);
      var rest := GroupRuns(s[1..]);
      if rest != [] && rest[0].key == s[0].key {
        var g := Group(s[0].key, [s[0].index] + rest[0].indices);
        assert GroupRuns(s) == [g] + rest[1..];
        assert rest == [rest[0]] + rest[1..];
        IndexListsCons(rest[0], rest[1..]);
        FlattenCons(rest[0].indices, IndexLists(rest[1..]));
        IndexListsCons(g, rest[1..]);
        FlattenCons(g.indices, IndexLists(rest[1..]));
      } else {
        var g := Group(s[0].key, [s[0].index]);
        assert GroupRuns(s) == [g] + rest;
        IndexListsCons(g, rest);
        FlattenCons(g.indices, IndexLists(rest));
      }
    }
  }

  /** Every row put in a group carries that group's key. */
  lemma {:induction false} GroupRunsKeys(s: seq<Row>, cols: Dict<seq<Value>>)
    requires forall x :: x in s ==> x.index < RowCount(cols) && KeyAt(cols, x.index) == x.key
    ensures forall g, k :: 0 <= g < |GroupRuns(s)| && 0 <= k < |GroupRuns(s)[g].indices| ==>
              GroupRuns(s)[g].indices[k] < RowCount(cols) && KeyAt(cols, GroupRuns(s)[g].indices[k]) == GroupRuns(s)[g].key
  {
    if s != [] {
      GroupRunsKeys(s[1..], cols);
    }
  }

  /** On ascending rows the group keys strictly ascend and each group lists its rows in request order. */
  lemma {:induction false} GroupRunsAscending(s: seq<Row>)
    requires Ascending(s)
    ensures forall g :: 0 < g < |GroupRuns(s)| ==> KeyLess(GroupRuns(s)[g - 1].key, GroupRuns(s)[g].key)
    ensures forall g, k :: 0 <= g < |GroupRuns(s)| && 0 < k < |GroupRuns(s)[g].indices| ==>
              GroupRuns(s)[g].indices[k - 1] < GroupRuns(s)[g].indices[k]
  {
    if s != [] {
      GroupRunsAscending(s[1..]);
      var rest := GroupRuns(s[1..]);
      var gs := GroupRuns(s);
      if rest != [] {
        assert RowLess(s[0], s[1]);
        if rest[0].key == s[0].key {
          assert gs == [Group(s[0].key, [s[0].index] + rest[0].indices)] + rest[1..];
          KeyLessIrreflexive(s[0].key);
          assert s[0].index < rest[0].indices[0];
          forall g, k | 0 <= g < |gs| && 0 < k < |gs[g].indices| ensures gs[g].indices[k - 1] < gs[g].indices[k] {
            if g > 0 { assert gs[g] == rest[g]; }
            else if k > 1 { assert gs[0].indices[k - 1] == rest[0].indices[k - 2]; }
          }
          forall g | 0 < g < |gs| ensures KeyLess(gs[g - 1].key, gs[g].key) {
            assert gs[g] == rest[g];
            if g > 1 { assert gs[g - 1] == rest[g - 1]; }
          }
        } else {
          assert gs == [Group(s[0].key, [s[0].index])] + rest;
          KeyLessTotal(s[0].key, s[1].key);
          if KeyLess(s[1].key, s[0].key) {
            KeyLessTransitive(s[0].key, s[1].key, s[0].key);
            KeyLessIrreflexive(s[0].key);
          }
          forall g, k | 0 <= g < |gs| && 0 < k < |gs[g].indices| ensures gs[g].indices[k - 1] < gs[g].indices[k] {
            assert gs[g] == rest[g - 1];
          }
          forall g | 0 < g < |gs| ensures KeyLess(gs[g - 1].key, gs[g].key) {
            assert gs[g] == rest[g - 1];
          }
        }
      }
    }
  }

  lemma {:induction false} AscendingKeysDistinct(keys: seq<Key>)
    requires forall g :: 0 < g < |keys| ==> KeyLess(keys[g - 1], keys[g])
    ensures forall g, h :: 0 <= g < h < |keys| ==> KeyLess(keys[g], keys[h])
  {
    if |keys| > 1 {
      AscendingKeysDistinct(keys[1..]);
      forall h | 1 < h < |keys| ensures KeyLess(keys[0], keys[h]) {
        assert KeyLess(keys[1..][0], keys[1..][h - 1]);
        KeyLessTransitive(keys[0], keys[1], keys[h]);
      }
    }
  }

  // ---------------------------------------------------------------------
  // _get_unique_entities
  // ---------------------------------------------------------------------

  /** The join-key names, the distinct composite keys, and the rows each key occurs at. */
  datatype UniqueEntities = UniqueEntities(joinKeys: seq<string>, keys: seq<Key>, indexes: seq<seq<nat>>)

  /**
   * `_get_unique_entities(table, join_key_values, entity_name_to_join_key_map)`.
   * With no rows the final `unique_entities, indexes = ...` unpacks an empty
   * tuple and raises.  The sort computes every row's key before comparing
   * any: an entity value with no field set (`WhichOneof` gives None) makes
   * `getattr` raise TypeError, even in a batch of one row.
   */
  function GetUniqueEntities(table: FeatureView, joinKeyValues: Dict<seq<Value>>, entityMap: map<string, string>): (r: Result<UniqueEntities>)
    ensures GetTableEntityValues(table, entityMap, joinKeyValues).Err? ==> r.Err? && r.error.EntityNotMapped?
    ensures GetTableEntityValues(table, entityMap, joinKeyValues).Ok? ==>
              var cols := GetTableEntityValues(table, entityMap, joinKeyValues).value;
              var n := RowCount(cols);
              && (r.Err? <==> n == 0 || exists i :: 0 <= i < n && Null in KeyAt(cols, i))
              && (r.Err? ==> r.error == (if n == 0 then NoUniqueEntities else NullEntityValue))
              && (r.Ok? ==> UniquelyGrouped(cols, r.value))
  {
    var cols :- GetTableEntityValues(table, entityMap, joinKeyValues);
    UniqueFromColumns(cols)
  }

  /**
   * What the groups promise about the columns: they list the join keys, give
   * one composite key per index list, partition the rows, hold only rows
   * carrying their key, come in strictly ascending key order, and list each
   * group's rows in ascending order.
   */
  ghost predicate UniquelyGrouped(cols: Dict<seq<Value>>, u: UniqueEntities) {
    var n := RowCount(cols);
    && u.joinKeys == Keys(cols)
    && |u.keys| == |u.indexes|
    && Partitions(u.indexes, n)
    && (forall g, k :: 0 <= g < |u.indexes| && 0 <= k < |u.indexes[g]| ==>
          u.indexes[g][k] < n && KeyAt(cols, u.indexes[g][k]) == u.keys[g])
    && (forall g, h :: 0 <= g < h < |u.keys| ==> KeyLess(u.keys[g], u.keys[h]))
    && (forall g, k :: 0 <= g < |u.indexes| && 0 < k < |u.indexes[g]| ==>
          u.indexes[g][k - 1] < u.indexes[g][k])
  }

  /** The part of `_get_unique_entities` after the columns are selected: sort, group, unpack. */
  function UniqueFromColumns(cols: Dict<seq<Value>>): (r: Result<UniqueEntities>)
    ensures var n := RowCount(cols);
      && (r.Err? <==> n == 0 || exists i :: 0 <= i < n && Null in KeyAt(cols, i))
      && (r.Err? ==> r.error == (if n == 0 then NoUniqueEntities else NullEntityValue))
      && (r.Ok? ==> UniquelyGrouped(cols, r.value))
  {
    var rows := Enumerate(cols);
    if |rows| == 0 then Err(NoUniqueEntities)
    else if exists i :: 0 <= i < |rows| && Null in rows[i].key then Err(NullEntityValue)
    else
      var sorted := SortRows(rows);
      var groups := GroupRuns(sorted);
      UniqueEntitiesSpec(cols, rows, sorted, groups);
      Ok(UniqueEntities(Keys(cols), GroupKeys(groups), IndexLists(groups)))
  }

  /** A single row whose entity value is unset already raises: the sort key is computed even for one row. */
  lemma NullEntityRaises()
    ensures UniqueFromColumns([("driver_id", [Null])]) == Err(NullEntityValue)
  {
    var cols: Dict<seq<Value>> := [("driver_id", [Null])];
    assert RowCount(cols) == 1;
    assert Null in KeyAt(cols, 0);
  }

  lemma UniqueEntitiesSpec(cols: Dict<seq<Value>>, rows: seq<Row>, sorted: seq<Row>, groups: seq<Group>)
    requires rows == Enumerate(cols) && sorted == SortRows(rows) && groups == GroupRuns(sorted)
    ensures Partitions(IndexLists(groups), RowCount(cols))
    ensures forall g, k :: 0 <= g < |groups| && 0 <= k < |groups[g].indices| ==>
              groups[g].indices[k] < RowCount(cols) && KeyAt(cols, groups[g].indices[k]) == groups[g].key
    ensures forall g, h :: 0 <= g < h < |groups| ==> KeyLess(groups[g].key, groups[h].key)
    ensures forall g, k :: 0 <= g < |groups| && 0 < k < |groups[g].indices| ==> groups[g].indices[k - 1] < groups[g].indices[k]
  {
    SortRowsSpec(rows);
    GroupRunsFlatten(sorted);
    assert Indices(rows) == Range(RowCount(cols));
    GroupRunsKeys(sorted, cols);
    GroupRunsAscending(sorted);
    AscendingKeysDistinct(GroupKeys(groups));
  }
}

=== FILE: dicts.dfy ===
/**
 * Python dicts as the retrieval path uses them: an association list whose keys
 * keep their insertion order and occur at most once.  Order matters here: it
 * fixes the column order of composite keys and the order of echo columns.
 */
module Dicts {
  import opened Base

  type Dict<V> = seq<(string, V)>

  function Keys<V>(d: Dict<V>): (ks: seq<string>)
    ensures |ks| == |d|
    ensures forall i :: 0 <= i < |d| ==> ks[i] == d[i].0
  {
    if d == [] then [] else [d[0].0] + Keys(d[1..])
  }

  predicate NoDuplicates<T(==)>(s: seq<T>) {
    forall i, j :: 0 <= i < j < |s| ==> s[i] != s[j]
  }

  /** Every key at most once: the invariant of a Python dict. */
  predicate WellFormed<V>(d: Dict<V>) {
    NoDuplicates(Keys(d))
  }

  /** `d.get(k)`: the value stored under `k`, if any. */
  function Get<V>(d: Dict<V>, k: string): (r: Option<V>)
    ensures r.Some? <==> k in Keys(d)
  {
    if d == [] then None
    else if d[0].0 == k then Some(d[0].1)
    else Get(d[1..], k)
  }

  /** `d[k] = v`: overwrite in place when `k` is present, append otherwise. */
  function Put<V>(d: Dict<V>, k: string, v: V): (r: Dict<V>)
    ensures Keys(r) == if k in Keys(d) then Keys(d) else Keys(d) + [k]
    ensures Get(r, k) == Some(v)
    ensures forall k' :: k' != k ==> Get(r, k') == Get(d, k')
  {
    if d == [] then [(k, v)]
    else if d[0].0 == k then [(k, v)] + d[1..]
    else [d[0]] + Put(d[1..], k, v)
  }

  lemma {:induction false} PutWellFormed<V>(d: Dict<V>, k: string, v: V)
    requires WellFormed(d)
    ensures WellFormed(Put(d, k, v))
  {
    var ks := Keys(d);
    if k !in ks {
      assert Keys(Put(d, k, v)) == ks + [k];
    }
  }

  /** In a well-formed dict the entry at position `i` is what `Get` finds. */
  lemma {:induction false} GetAt<V>(d: Dict<V>, i: nat)
    requires WellFormed(d) && i < |d|
    ensures Get(d, d[i].0) == Some(d[i].1)
  {
    if i > 0 {
      assert Keys(d)[0] != Keys(d)[i];
      assert WellFormed(d[1..]) by {
        forall a, b | 0 <= a < b < |d| - 1 ensures Keys(d[1..])[a] != Keys(d[1..])[b] {
          assert Keys(d)[a + 1] != Keys(d)[b + 1];
        }
      }
      GetAt(d[1..], i - 1);
    }
  }

  /** `d[k]` after appending one entry: the old entry when `k` was present, else the new one. */
  lemma {:induction false} GetSnoc<V>(d: Dict<V>, e: (string, V), k: string)
    ensures Get(d + [e], k) == if k in Keys(d) then Get(d, k) else if e.0 == k then Some(e.1) else None
  {
    if d != [] {
      assert (d + [e])[1..] == d[1..] + [e];
      GetSnoc(d[1..], e, k);
    }
  }

  /** The distinct elements of `s` in order of first occurrence (`dict.fromkeys(s)`). */
  function Distinct<T(==,!new)>(s: seq<T>): (r: seq<T>)
    ensures NoDuplicates(r)
    ensures forall x :: x in r <==> x in s
  {
    if s == [] then []
    else
      var d := Distinct(s[..|s| - 1]);
      assert s == s[..|s| - 1] + [s[|s| - 1]];
      if s[|s| - 1] in d then d else d + [s[|s| - 1]]
  }
}

=== FILE: feature_refs.dfy ===
/**
 * Feature references ("view:feature"): the collision check of
 * `_validate_feature_refs` and the set of output column names the caller
 * asked for (`requested_result_row_names` in `_get_online_features`).
 */
module FeatureRefs {
  import opened Base
  import opened Dicts
  import opened Strings

  // ---------------------------------------------------------------------
  // Splitting references
  // ---------------------------------------------------------------------

  /** A string splits into two or more parts exactly when it holds the separator. */
  lemma SplitHasSep(s: string, sep: char)
    ensures |Split(s, sep)| >= 2 <==> sep in s
  {
    JoinSplit(s, sep);
    var parts := Split(s, sep);
    if |parts| == 1 {
      assert s == parts[0];
    } else {
      assert s == parts[0] + [sep] + Join(parts[1..], sep);
      assert s[|parts[0]|] == sep;
    }
  }

  /** `view_name, feat_name = ref.split(":")`: ValueError unless there are exactly two parts. */
  function ParseRef(ref: string): (r: Result<(string, string)>)
    ensures r.Ok? <==> |Split(ref, ':')| == 2
    ensures r.Err? ==> r.error == MalformedReference(ref)
  {
    var parts := Split(ref, ':');
    if |parts| == 2 then Ok((parts[0], parts[1])) else Err(MalformedReference(ref))
  }

  /** A parsed reference is its view name, ':' and its feature name, neither of which holds a ':'. */
  lemma ParseRefParts(ref: string)
    requires ParseRef(ref).Ok?
    ensures var (view, feature) := ParseRef(ref).value;
      ref == view + [':'] + feature && ':' !in view && ':' !in feature
  {
    var parts := Split(ref, ':');
    JoinSplit(ref, ':');
    assert Join(parts, ':') == parts[0] + [':'] + parts[1];
  }

  /** Exactly one ':' makes a well-formed reference, and it parses back into its two halves. */
  lemma ParseRefBuilt(view: string, feature: string)
    requires ':' !in view && ':' !in feature
    ensures ParseRef(view + [':'] + feature) == Ok((view, feature))
  {
    SplitPair(view, feature, ':');
  }

  /** `ref.split(":")[1]`: the second part; IndexError when the reference holds no ':'. */
  function BareName(ref: string): (r: Result<string>)
    ensures r.Ok? <==> ':' in ref
    ensures r.Ok? ==> ':' !in r.value
    ensures r.Err? ==> r.error == MalformedReference(ref)
  {
    SplitHasSep(ref, ':');
    var parts := Split(ref, ':');
    if |parts| >= 2 then Ok(parts[1]) else Err(MalformedReference(ref))
  }

  /** `[ref.split(":")[1] for ref in feature_refs]`; the first reference without ':' raises. */
  function BareNames(refs: seq<string>): (r: Result<seq<string>>)
    ensures r.Ok? <==> forall i :: 0 <= i < |refs| ==> ':' in refs[i]
    ensures r.Ok? ==> |r.value| == |refs| && forall i :: 0 <= i < |refs| ==> Ok(r.value[i]) == BareName(refs[i])
    ensures r.Err? ==> exists i :: 0 <= i < |refs| && ':' !in refs[i] && r.error == MalformedReference(refs[i])
                        && forall i' :: 0 <= i' < i ==> ':' in refs[i']
  {
    if refs == [] then Ok([])
    else
      var first :- BareName(refs[0]);
      var rest := BareNames(refs[1..]);
      if rest.Err? then
        var i :| 0 <= i < |refs[1..]| && ':' !in refs[1..][i] && rest.error == MalformedReference(refs[1..][i])
                 && forall i' :: 0 <= i' < i ==> ':' in refs[1..][i'];
        assert forall i' :: 0 <= i' < i + 1 ==> ':' in refs[i'] by {
          forall i' | 0 <= i' < i + 1 ensures ':' in refs[i'] {
            if i' > 0 { assert refs[i'] == refs[1..][i' - 1]; }
          }
        }
        Err(rest.error)
      else
        Ok([first] + rest.value)
  }

  // ---------------------------------------------------------------------
  // Counter(...) and collisions
  // ---------------------------------------------------------------------

  /** The members of `candidates` that occur more than once in `xs`, in the candidates' order. */
  function RepeatedAmong(xs: seq<string>, candidates: seq<string>): (r: seq<string>)
    requires NoDuplicates(candidates)
    ensures NoDuplicates(r)
    ensures forall x :: x in r <==> x in candidates && multiset(xs)[x] > 1
  {
    if candidates == [] then []
    else
      var rest := RepeatedAmong(xs, candidates[1..]);
      assert candidates[0] !in candidates[1..] by {
        forall k | 0 <= k < |candidates| - 1 ensures candidates[1..][k] != candidates[0] {
          assert candidates[k + 1] != candidates[0];
        }
      }
      if multiset(xs)[candidates[0]] > 1 then [candidates[0]] + rest else rest
  }

  /**
   * `[x for x, n in Counter(xs).items() if n > 1]`: each element that occurs
   * more than once, listed once, in order of first occurrence.
   */
  function Repeated(xs: seq<string>): (r: seq<string>)
    ensures NoDuplicates(r)
    ensures forall x :: x in r <==> multiset(xs)[x] > 1
  {
    RepeatedAmong(xs, Distinct(xs))
  }

  /** An element occurs more than once exactly when it sits at two distinct positions. */
  lemma {:induction false} TwiceIffTwoPositions(xs: seq<string>, x: string)
    ensures multiset(xs)[x] > 1 <==> exists i, j :: 0 <= i < j < |xs| && xs[i] == x && xs[j] == x
  {
    if xs != [] {
      var init := xs[..|xs| - 1];
      var last := xs[|xs| - 1];
      assert xs == init + [last];
      TwiceIffTwoPositions(init, x);
      if multiset(xs)[x] > 1 && multiset(init)[x] <= 1 {
        assert last == x && multiset(init)[x] == 1;
        var i :| 0 <= i < |init| && init[i] == x;
        assert xs[i] == x && xs[|xs| - 1] == x;
      }
      if exists i, j :: 0 <= i < j < |xs| && xs[i] == x && xs[j] == x {
        var i, j :| 0 <= i < j < |xs| && xs[i] == x && xs[j] == x;
        if j < |xs| - 1 {
          assert init[i] == x && init[j] == x;
        } else {
          assert init[i] == x;
          assert multiset(init)[x] >= 1;
        }
      }
    }
  }

  /** Something is repeated exactly when two positions hold the same element. */
  lemma RepeatedNonEmpty(xs: seq<string>)
    ensures Repeated(xs) != [] <==> exists i, j :: 0 <= i < j < |xs| && xs[i] == xs[j]
  {
    if exists i, j :: 0 <= i < j < |xs| && xs[i] == xs[j] {
      var i, j :| 0 <= i < j < |xs| && xs[i] == xs[j];
      TwiceIffTwoPositions(xs, xs[i]);
      assert xs[i] in Repeated(xs);
    }
    if Repeated(xs) != [] {
      TwiceIffTwoPositions(xs, Repeated(xs)[0]);
    }
  }

  /** `[ref for ref in refs if ref.endswith(":" + name)]`. */
  function EndingWith(refs: seq<string>, name: string): (r: seq<string>)
    ensures forall x :: x in r <==> x in refs && EndsWith(x, [':'] + name)
  {
    if refs == [] then []
    else (if EndsWith(refs[0], [':'] + name) then [refs[0]] else []) + EndingWith(refs[1..], name)
  }

  /** The `collided_feature_refs.extend(...)` loop: the refs ending in ":" + name, name by name. */
  function EndingWithAny(refs: seq<string>, names: seq<string>): (r: seq<string>)
    ensures forall x :: x in r <==> x in refs && exists k :: 0 <= k < |names| && EndsWith(x, [':'] + names[k])
  {
    if names == [] then []
    else
      var rest := EndingWithAny(refs, names[1..]);
      forall x | x in rest ensures exists k :: 0 <= k < |names| && EndsWith(x, [':'] + names[k]) {
        var k :| 0 <= k < |names[1..]| && EndsWith(x, [':'] + names[1..][k]);
        assert names[k + 1] == names[1..][k];
      }
      forall x | x in refs && (exists k :: 0 <= k < |names| && EndsWith(x, [':'] + names[k])) && !EndsWith(x, [':'] + names[0])
        ensures x in rest
      {
        var k :| 0 <= k < |names| && EndsWith(x, [':'] + names[k]);
        assert k > 0 && names[1..][k - 1] == names[k];
      }
      EndingWith(refs, names[0]) + rest
  }

  // ---------------------------------------------------------------------
  // _validate_feature_refs
  // ---------------------------------------------------------------------

  /**
   * `_validate_feature_refs(feature_refs, full_feature_names)`: with full
   * names a reference string given twice collides; otherwise two references
   * with the same feature name collide and every reference ending in
   * ":" + that name is reported.
   */
  function ValidateFeatureRefs(refs: seq<string>, fullFeatureNames: bool): (r: Result<()>)
    ensures r.Err? ==> r.error.FeatureNameCollision? || r.error.MalformedReference?
    ensures r.Err? && r.error.FeatureNameCollision? ==> r.error.refs != [] && r.error.fullFeatureNames == fullFeatureNames
    ensures fullFeatureNames ==> r.Err? ==> r.error.FeatureNameCollision?
  {
    if fullFeatureNames then
      var collided := Repeated(refs);
      if |collided| > 0 then Err(FeatureNameCollision(collided, true)) else Ok(())
    else
      var names :- BareNames(refs);
      var collided := EndingWithAny(refs, Repeated(names));
      if |collided| > 0 then Err(FeatureNameCollision(collided, false)) else Ok(())
  }

  /**
   * With full names: an error exactly when some reference is given twice,
   * reporting each such reference once.
   */
  lemma ValidateFullNames(refs: seq<string>)
    ensures ValidateFeatureRefs(refs, true).Err? <==> exists i, j :: 0 <= i < j < |refs| && refs[i] == refs[j]
    ensures ValidateFeatureRefs(refs, true).Err? ==>
              var reported := ValidateFeatureRefs(refs, true).error.refs;
              NoDuplicates(reported) && forall x :: x in reported <==> multiset(refs)[x] > 1
  {
    RepeatedNonEmpty(refs);
  }

  /** Without full names a reference holding no ':' raises, the first such one being reported. */
  lemma ValidateBareMalformed(refs: seq<string>, i: nat)
    requires i < |refs| && ':' !in refs[i] && forall i' :: 0 <= i' < i ==> ':' in refs[i']
    ensures ValidateFeatureRefs(refs, false) == Err(MalformedReference(refs[i]))
  {
    var r := BareNames(refs);
    var k :| 0 <= k < |refs| && ':' !in refs[k] && r.error == MalformedReference(refs[k]) && forall i' :: 0 <= i' < k ==> ':' in refs[i'];
    assert k == i;
  }

  /** The feature names of references that all hold a ':'. */
  function FeatureNames(refs: seq<string>): (names: seq<string>)
    requires forall i :: 0 <= i < |refs| ==> ':' in refs[i]
    ensures |names| == |refs|
  {
    seq(|refs|, i requires 0 <= i < |refs| => BareName(refs[i]).value)
  }

  /** A well-formed reference ends with ':' followed by its feature name. */
  lemma EndsWithOwnName(ref: string)
    requires |Split(ref, ':')| == 2
    ensures ':' in ref && EndsWith(ref, [':'] + BareName(ref).value)
  {
    SplitHasSep(ref, ':');
    var parts := Split(ref, ':');
    var p := ParseRef(ref);
    ParseRefParts(ref);
    assert p.value == (parts[0], parts[1]);
    assert BareName(ref).value == parts[1];
    assert ref[|parts[0]|..] == [':'] + parts[1];
  }

  /**
   * Without full names, on well-formed references ("view:feature", one
   * ':'): an error exactly when two references share their feature name.
   */
  lemma ValidateBareNames(refs: seq<string>)
    requires forall i :: 0 <= i < |refs| ==> |Split(refs[i], ':')| == 2
    ensures forall i :: 0 <= i < |refs| ==> ':' in refs[i]
    ensures ValidateFeatureRefs(refs, false).Err? <==>
              exists i, j :: 0 <= i < j < |refs| && FeatureNames(refs)[i] == FeatureNames(refs)[j]
  {
    forall i | 0 <= i < |refs| ensures ':' in refs[i] {
      SplitHasSep(refs[i], ':');
    }
    var names := FeatureNames(refs);
    assert BareNames(refs).value == names;
    RepeatedNonEmpty(names);
    if exists i, j :: 0 <= i < j < |refs| && names[i] == names[j] {
      var i, j :| 0 <= i < j < |refs| && names[i] == names[j];
      CollisionReported(refs, i, j);
    }
  }

  /** Two well-formed references sharing a feature name: the first is among those reported. */
  lemma CollisionReported(refs: seq<string>, i: nat, j: nat)
    requires forall k :: 0 <= k < |refs| ==> ':' in refs[k]
    requires i < j < |refs| && |Split(refs[i], ':')| == 2
    requires FeatureNames(refs)[i] == FeatureNames(refs)[j]
    ensures refs[i] in EndingWithAny(refs, Repeated(FeatureNames(refs)))
  {
    var names := FeatureNames(refs);
    var rep := Repeated(names);
    EndsWithOwnName(refs[i]);
    TwiceIffTwoPositions(names, names[i]);
    var k :| 0 <= k < |rep| && rep[k] == names[i];
    assert EndsWith(refs[i], [':'] + rep[k]);
  }

  /** A feature name shared by two positions: the names collide on it. */
  ghost predicate Collides(names: seq<string>, name: string) {
    exists i, j :: 0 <= i < j < |names| && names[i] == name && names[j] == name
  }

  /** The refs ending in ':' + a repeated name are those ending in ':' + a colliding name. */
  lemma EndingWithRepeated(refs: seq<string>, names: seq<string>, x: string)
    ensures x in EndingWithAny(refs, Repeated(names)) <==> x in refs && exists n :: Collides(names, n) && EndsWith(x, [':'] + n)
  {
    var rep := Repeated(names);
    if x in EndingWithAny(refs, rep) {
      var k :| 0 <= k < |rep| && EndsWith(x, [':'] + rep[k]);
      TwiceIffTwoPositions(names, rep[k]);
    }
    if x in refs && exists n :: Collides(names, n) && EndsWith(x, [':'] + n) {
      var n :| Collides(names, n) && EndsWith(x, [':'] + n);
      TwiceIffTwoPositions(names, n);
      var k :| 0 <= k < |rep| && rep[k] == n;
    }
  }

  /** The collision report lists exactly the references ending in ':' + some colliding feature name. */
  lemma ValidateBareReport(refs: seq<string>)
    requires forall i :: 0 <= i < |refs| ==> ':' in refs[i]
    ensures ValidateFeatureRefs(refs, false).Err? ==>
              && ValidateFeatureRefs(refs, false).error.FeatureNameCollision?
              && forall x :: x in ValidateFeatureRefs(refs, false).error.refs <==>
                   x in refs && exists n :: Collides(FeatureNames(refs), n) && EndsWith(x, [':'] + n)
  {
    var names := FeatureNames(refs);
    assert BareNames(refs).value == names;
    forall x ensures x in EndingWithAny(refs, Repeated(names)) <==> x in refs && exists n :: Collides(names, n) && EndsWith(x, [':'] + n) {
      EndingWithRepeated(refs, names, x);
    }
  }

  // ---------------------------------------------------------------------
  // requested_result_row_names
  // ---------------------------------------------------------------------

  /** The name a feature's column gets in the response (`_populate_response_from_feature_data`). */
  function ResponseName(viewName: string, feature: string, fullFeatureNames: bool): string {
    if fullFeatureNames then viewName + "__" + feature else feature
  }

  /**
   * `requested_result_row_names` as written: ':' replaced by "__", and in
   * bare mode only the text after the last "__" kept.
   */
  function RequestedResultNames(refs: seq<string>, fullFeatureNames: bool): (names: set<string>)
    ensures forall x :: x in names ==> exists r :: r in refs && EndsWith(ReplaceChar(r, ':', "__"), x)
  {
    var qualified := set r | r in refs :: ReplaceChar(r, ':', "__");
    if fullFeatureNames then qualified
    else
      var bare := set q | q in qualified :: AfterLastDoubleUnderscore(q);
      forall x | x in bare ensures exists r :: r in refs && EndsWith(ReplaceChar(r, ':', "__"), x) {
        var q :| q in qualified && x == AfterLastDoubleUnderscore(q);
        var r :| r in refs && q == ReplaceChar(r, ':', "__");
      }
      bare
  }

  lemma {:induction false} ReplaceColon(view: string, feature: string)
    requires ':' !in view && ':' !in feature
    ensures ReplaceChar(view + [':'] + feature, ':', "__") == view + "__" + feature
  {
    if |view| == 0 {
      assert view + [':'] + feature == [':'] + feature;
      assert ([':'] + feature)[1..] == feature;
      ReplaceCharAbsent(feature, ':', "__");
    } else {
      assert (view + [':'] + feature)[1..] == view[1..] + [':'] + feature;
      ReplaceColon(view[1..], feature);
      assert [view[0]] + view[1..] == view;
    }
  }

  /** With full names every well-formed reference's response column is requested. */
  lemma FullNamesRequested(refs: seq<string>, view: string, feature: string)
    requires ':' !in view && ':' !in feature && view + [':'] + feature in refs
    ensures ResponseName(view, feature, true) in RequestedResultNames(refs, true)
  {
    ReplaceColon(view, feature);
  }

  /**
   * In bare mode the as-written rule recovers the feature name when the
   * name neither starts with '_' nor contains "__" (for a name starting
   * with '_' it does not: see `LeadingUnderscoreNotRequested`).
   */
  lemma BareNameRecovered(view: string, feature: string)
    requires ':' !in view && ':' !in feature
    requires !(|feature| > 0 && feature[0] == '_') && forall i :: !DoubleUnderscoreAt(feature, i)
    ensures AfterLastDoubleUnderscore(ReplaceChar(view + [':'] + feature, ':', "__")) == feature
  {
    ReplaceColon(view, feature);
    var q := view + "__" + feature;
    var p := |view|;
    assert DoubleUnderscoreAt(q, p);
    forall j | p < j < |q| ensures !DoubleUnderscoreAt(q, j) {
      if j == p + 1 {
      } else {
        assert !DoubleUnderscoreAt(feature, j - p - 2);
      }
    }
    assert q[p + 2..] == feature;
  }

  /**
   * The name rule the response actually needs: full names as written; in
   * bare mode the text after ':' (the name the feature's column is given).
   */
  function IntendedResultNames(refs: seq<string>, fullFeatureNames: bool): (names: set<string>)
  {
    if fullFeatureNames then set r | r in refs :: ReplaceChar(r, ':', "__")
    else set r | r in refs && ':' in r :: BareName(r).value
  }

  /** Under the intended rule every well-formed reference's response column is requested, in both modes. */
  lemma IntendedNamesRequested(refs: seq<string>, view: string, feature: string, fullFeatureNames: bool)
    requires ':' !in view && ':' !in feature && view + [':'] + feature in refs
    ensures ResponseName(view, feature, fullFeatureNames) in IntendedResultNames(refs, fullFeatureNames)
  {
    ReplaceColon(view, feature);
    SplitPair(view, feature, ':');
    SplitHasSep(view + [':'] + feature, ':');
  }

  /** The two rules agree whenever no feature name starts with '_' or contains "__". */
  lemma IntendedAgreesWhenPlain(refs: seq<string>, fullFeatureNames: bool)
    requires forall r :: r in refs ==> |Split(r, ':')| == 2
    requires forall r :: r in refs ==> var f := Split(r, ':')[1];
               !(|f| > 0 && f[0] == '_') && forall i :: !DoubleUnderscoreAt(f, i)
    ensures RequestedResultNames(refs, fullFeatureNames) == IntendedResultNames(refs, fullFeatureNames)
  {
    if !fullFeatureNames {
      forall r | r in refs
        ensures ':' in r && AfterLastDoubleUnderscore(ReplaceChar(r, ':', "__")) == BareName(r).value
      {
        var p := ParseRef(r);
        ParseRefParts(r);
        SplitHasSep(r, ':');
        BareNameRecovered(p.value.0, p.value.1);
      }
    }
  }

  /**
   * The as-written rule drops a feature whose name starts with '_': for
   * "fv:_x" it requests "x", while the response column is "_x".
   */
  lemma LeadingUnderscoreNotRequested()
    ensures RequestedResultNames(["fv:_x"], false) == {"x"}
    ensures ResponseName("fv", "_x", false) !in RequestedResultNames(["fv:_x"], false)
  {
    ReplacedExample();
    RpartitionExample();
    BareNamesOfOne("fv:_x");
  }

  /** Under the corrected rule the same reference requests its response column "_x". */
  lemma LeadingUnderscoreRequestedWhenCorrected()
    ensures ResponseName("fv", "_x", false) in IntendedResultNames(["fv:_x"], false)
  {
    ReplacedExample();
    IntendedNamesRequested(["fv:_x"], "fv", "_x", false);
  }

  /** In bare mode, a single reference requests one name: what follows the last "__" of its qualified form. */
  lemma BareNamesOfOne(ref: string)
    ensures RequestedResultNames([ref], false) == {AfterLastDoubleUnderscore(ReplaceChar(ref, ':', "__"))}
  {
    var q := ReplaceChar(ref, ':', "__");
    var qualified := set r | r in [ref] :: ReplaceChar(r, ':', "__");
    assert qualified == {q} by {
      assert q in qualified;
      forall q' | q' in qualified ensures q' == q { }
    }
  }

  /** Step of `LeadingUnderscoreNotRequested`: the `replace` on its one reference. */
  lemma ReplacedExample()
    ensures "fv" + [':'] + "_x" == "fv:_x"
    ensures ReplaceChar("fv:_x", ':', "__") == "fv___x"
  {
    assert "fv" + [':'] + "_x" == "fv:_x";
    ReplaceColon("fv", "_x");
    assert "fv" + "__" + "_x" == "fv___x";
  }

  /** Step of `LeadingUnderscoreNotRequested`: the `rpartition` on the replaced reference. */
  lemma RpartitionExample()
    ensures AfterLastDoubleUnderscore("fv___x") == "x"
  {
    var q := "fv___x";
    assert !DoubleUnderscoreAt(q, 5) && !DoubleUnderscoreAt(q, 4) && DoubleUnderscoreAt(q, 3);
    assert LastDoubleUnderscore(q, 6) == Some(3);
    assert q[5..] == "x";
  }
}

=== FILE: grouping.dfy ===
/**
 * `_group_feature_refs`: resolve each "view:feature" reference against the
 * standard, on-demand and request feature views (in that order of priority)
 * and collect, per view, the set of features to read.  A reference to an
 * on-demand view also pulls in every feature of the views it reads from.
 */
module Grouping {
  import opened Base
  import opened Dicts
  import opened Views
  import opened FeatureRefs

  // ---------------------------------------------------------------------
  // The three name indexes
  // ---------------------------------------------------------------------

  /**
   * `{view.projection.name_to_use(): view for view in views}`, given the
   * views and the names their projections use: of two views under one name
   * the later wins.
   */
  function IndexByName<V>(views: seq<V>, names: seq<string>): (index: map<string, V>)
    requires |names| == |views|
    ensures forall n :: n in index <==> n in names
  {
    if views == [] then map[]
    else
      var ni := names[..|names| - 1];
      assert names == ni + [names[|names| - 1]];
      IndexByName(views[..|views| - 1], ni)[names[|names| - 1] := views[|views| - 1]]
  }

  /** No later view in the list is indexed under the same name as view `i`. */
  ghost predicate IsLastNamed(names: seq<string>, i: nat)
    requires i < |names|
  {
    forall j :: i < j < |names| ==> names[j] != names[i]
  }

  /** A view no later view shares a name with is the one indexed under that name. */
  lemma {:induction false} IndexByNameLast<V>(views: seq<V>, names: seq<string>)
    requires |names| == |views|
    ensures forall i :: 0 <= i < |views| && IsLastNamed(names, i) ==> IndexByName(views, names)[names[i]] == views[i]
  {
    if views != [] {
      var vi := views[..|views| - 1];
      var ni := names[..|names| - 1];
      var last := |views| - 1;
      var m := IndexByName(vi, ni);
      IndexByNameLast(vi, ni);
      assert IndexByName(views, names) == m[names[last] := views[last]];
      forall i | 0 <= i < |views| && IsLastNamed(names, i) ensures IndexByName(views, names)[names[i]] == views[i] {
        if i < last {
          assert names[i] != names[last];
          assert ni[i] == names[i];
          assert IsLastNamed(ni, i) by {
            forall j | i < j < |ni| ensures ni[j] != ni[i] {
              assert names[j] != names[i];
            }
          }
        }
      }
    }
  }

  /** Each indexed view comes from the list, under its own name. */
  lemma {:induction false} IndexByNameSource<V>(views: seq<V>, names: seq<string>)
    requires |names| == |views|
    ensures forall n :: n in IndexByName(views, names) ==> exists i :: 0 <= i < |views| && names[i] == n && IndexByName(views, names)[n] == views[i]
  {
    if views != [] {
      var vi := views[..|views| - 1];
      var ni := names[..|names| - 1];
      IndexByNameSource(vi, ni);
      assert IndexByName(views, names) == IndexByName(vi, ni)[names[|names| - 1] := views[|views| - 1]];
      forall n | n in IndexByName(views, names) ensures exists i :: 0 <= i < |views| && names[i] == n && IndexByName(views, names)[n] == views[i] {
        if n != names[|names| - 1] {
          var i :| 0 <= i < |vi| && ni[i] == n && IndexByName(vi, ni)[n] == vi[i];
          assert names[i] == n && views[i] == vi[i];
        } else {
          assert names[|views| - 1] == n;
        }
      }
    }
  }

  /** Every view is indexed under its name, and each name maps to the last view carrying it. */
  lemma IndexByNameSpec<V>(views: seq<V>, names: seq<string>)
    requires |names| == |views|
    ensures forall n :: n in IndexByName(views, names) <==> n in names
    ensures forall i :: 0 <= i < |views| && IsLastNamed(names, i) ==> IndexByName(views, names)[names[i]] == views[i]
    ensures forall n :: n in IndexByName(views, names) ==> exists i :: 0 <= i < |views| && names[i] == n && IndexByName(views, names)[n] == views[i]
  {
    IndexByNameLast(views, names);
    IndexByNameSource(views, names);
  }

  /** The names the views' projections use (`projection.name_to_use()`). */
  function NamesToUse<V>(views: seq<V>, projectionOf: V -> Projection): (names: seq<string>)
    ensures |names| == |views| && forall i :: 0 <= i < |views| ==> names[i] == projectionOf(views[i]).NameToUse()
  {
    seq(|views|, i requires 0 <= i < |views| => projectionOf(views[i]).NameToUse())
  }

  /** `view_index`, `on_demand_view_index` and `request_view_index`. */
  datatype Indexes = Indexes(views: map<string, FeatureView>, onDemand: map<string, OnDemandFeatureView>, request: map<string, RequestFeatureView>)

  function BuildIndexes(views: seq<FeatureView>, requestViews: seq<RequestFeatureView>, onDemandViews: seq<OnDemandFeatureView>): Indexes {
    Indexes(
      IndexByName(views, NamesToUse(views, (v: FeatureView) => v.projection)),
      IndexByName(onDemandViews, NamesToUse(onDemandViews, (v: OnDemandFeatureView) => v.projection)),
      IndexByName(requestViews, NamesToUse(requestViews, (v: RequestFeatureView) => v.projection)))
  }

  // ---------------------------------------------------------------------
  // Resolving one reference
  // ---------------------------------------------------------------------

  /** Which kind of view a reference resolved to, with its view and feature names. */
  datatype Resolved =
    | Standard(view: string, feature: string)
    | OnDemand(view: string, feature: string)
    | Request(view: string, feature: string)

  /** The resolved view is in the index of its kind. */
  predicate Indexed(ix: Indexes, t: Resolved) {
    match t
    case Standard(view, _) => view in ix.views
    case OnDemand(view, _) => view in ix.onDemand
    case Request(view, _) => view in ix.request
  }

  /**
   * One turn of the loop over references: split on ':' (ValueError unless
   * two parts), look the view up in the standard, then on-demand, then
   * request index, and check the feature with `projection.get_feature`.
   */
  function Resolve(ix: Indexes, ref: string): (r: Result<Resolved>)
    ensures r.Ok? ==> ParseRef(ref) == Ok((r.value.view, r.value.feature)) && Indexed(ix, r.value)
    ensures r.Ok? && r.value.Standard? ==> r.value.view in ix.views && r.value.feature in ix.views[r.value.view].projection.features
    ensures r.Ok? && r.value.OnDemand? ==> r.value.view in ix.onDemand && r.value.feature in ix.onDemand[r.value.view].projection.features
    ensures r.Ok? && r.value.Request? ==> r.value.view in ix.request && r.value.feature in ix.request[r.value.view].projection.features
  {
    var parsed :- ParseRef(ref);
    var (view, feature) := parsed;
    if view in ix.views then
      if feature in ix.views[view].projection.features then Ok(Standard(view, feature))
      else Err(FeatureNotInProjection(view, feature))
    else if view in ix.onDemand then
      if feature in ix.onDemand[view].projection.features then Ok(OnDemand(view, feature))
      else Err(FeatureNotInProjection(view, feature))
    else if view in ix.request then
      if feature in ix.request[view].projection.features then Ok(Request(view, feature))
      else Err(FeatureNotInProjection(view, feature))
    else Err(FeatureViewNotFound(view))
  }

  /**
   * Lookup priority: a name in the standard index is always read as a
   * standard view, a name in the on-demand index as on-demand unless it is
   * also standard, and a name in none of the three indexes raises.
   */
  lemma LookupPriority(ix: Indexes, view: string, feature: string)
    requires ':' !in view && ':' !in feature
    ensures var r := Resolve(ix, view + [':'] + feature);
      && (view in ix.views ==> r == (if feature in ix.views[view].projection.features then Ok(Standard(view, feature)) else Err(FeatureNotInProjection(view, feature))))
      && (view !in ix.views && view in ix.onDemand ==> r.Ok? ==> r.value == OnDemand(view, feature))
      && (view !in ix.views && view !in ix.onDemand && view in ix.request ==> r.Ok? ==> r.value == Request(view, feature))
      && (r == Err(FeatureViewNotFound(view)) <==> view !in ix.views && view !in ix.onDemand && view !in ix.request)
  {
    ParseRefBuilt(view, feature);
  }

  // ---------------------------------------------------------------------
  // The defaultdict(set) accumulators
  // ---------------------------------------------------------------------

  /** A `defaultdict(set)` keyed by view name: its keys in insertion order and the set held under each. */
  datatype SetDict = SetDict(order: seq<string>, sets: map<string, set<string>>)
  {
    /** Each key is listed once, and the listed keys are exactly the keys held. */
    ghost predicate Valid() {
      NoDuplicates(order) && forall k :: k in sets <==> k in order
    }

    /** What `d[k]` holds, reading a missing key as the empty set. */
    function Of(k: string): set<string> {
      if k in sets then sets[k] else {}
    }

    /** `d[k].add(f)`: creates `k`, at the end of the order, when it is missing. */
    function Add(k: string, f: string): SetDict {
      SetDict(if k in sets then order else order + [k], sets[k := Of(k) + {f}])
    }
  }

  /** `d[k].add(f)` adds `f` under `k` and nowhere else, creates the key `k` and no other, and keeps the dict valid. */
  lemma AddSpec(d: SetDict, k: string, f: string)
    ensures forall k' :: d.Add(k, f).Of(k') == d.Of(k') + (if k' == k then {f} else {})
    ensures d.Add(k, f).sets.Keys == d.sets.Keys + {k}
    ensures d.Valid() ==> d.Add(k, f).Valid()
  {
    if d.Valid() && k !in d.sets {
      assert k !in d.order;
      forall i, j | 0 <= i < j < |d.order| + 1 ensures (d.order + [k])[i] != (d.order + [k])[j] {
        if j == |d.order| { assert d.order[i] in d.order; }
      }
    }
  }

  /** `for f in fs: d[k].add(f)`; with no features `k` is never touched and not created. */
  function AddFeatures(d: SetDict, k: string, fs: seq<string>): SetDict
  {
    if fs == [] then d else AddFeatures(d, k, fs[..|fs| - 1]).Add(k, fs[|fs| - 1])
  }

  /** Every feature of every source projection, under the source's own `name`. */
  function AddSources(d: SetDict, sources: seq<Projection>): SetDict
  {
    if sources == [] then d
    else
      var p := sources[|sources| - 1];
      AddFeatures(AddSources(d, sources[..|sources| - 1]), p.name, p.features)
  }

  /** The features the sources contribute under name `k`. */
  function SourceFeatures(sources: seq<Projection>, k: string): set<string> {
    set s, f | 0 <= s < |sources| && sources[s].name == k && f in sources[s].features :: f
  }

  lemma {:induction false} AddFeaturesSpec(d: SetDict, k: string, fs: seq<string>)
    ensures forall k' :: AddFeatures(d, k, fs).Of(k') == d.Of(k') + (if k' == k then set f | f in fs else {})
    ensures AddFeatures(d, k, fs).sets.Keys == d.sets.Keys + (if fs == [] then {} else {k})
    ensures d.Valid() ==> AddFeatures(d, k, fs).Valid()
  {
    if fs != [] {
      var init := fs[..|fs| - 1];
      AddFeaturesSpec(d, k, init);
      AddSpec(AddFeatures(d, k, init), k, fs[|fs| - 1]);
      ElementsSnoc(fs, init);
    }
  }

  /** The elements of a list are those of all but its last entry, plus the last. */
  lemma ElementsSnoc(fs: seq<string>, init: seq<string>)
    requires fs != [] && init == fs[..|fs| - 1]
    ensures (set f | f in fs) == (set f | f in init) + {fs[|fs| - 1]}
  {
    assert fs == init + [fs[|fs| - 1]];
  }

  /** Adding one more source contributes its features under its own name. */
  lemma SourceFeaturesSnoc(sources: seq<Projection>, k: string)
    requires sources != []
    ensures var p := sources[|sources| - 1];
      SourceFeatures(sources, k) == SourceFeatures(sources[..|sources| - 1], k) + (if k == p.name then set f | f in p.features else {})
  {
    var init := sources[..|sources| - 1];
    var p := sources[|sources| - 1];
    forall f | f in SourceFeatures(sources, k)
      ensures f in SourceFeatures(init, k) + (if k == p.name then set f | f in p.features else {})
    {
      var s :| 0 <= s < |sources| && sources[s].name == k && f in sources[s].features;
      if s < |init| { assert init[s] == sources[s]; }
    }
    forall f | f in SourceFeatures(init, k) ensures f in SourceFeatures(sources, k) {
      var s :| 0 <= s < |init| && init[s].name == k && f in init[s].features;
      assert sources[s] == init[s];
    }
  }

  /** The sources of an on-demand view add exactly their features, under their own names, and create exactly those keys. */
  lemma {:induction false} AddSourcesSpec(d: SetDict, sources: seq<Projection>)
    ensures forall k :: AddSources(d, sources).Of(k) == d.Of(k) + SourceFeatures(sources, k)
    ensures forall k :: k in AddSources(d, sources).sets <==> k in d.sets || SourceFeatures(sources, k) != {}
    ensures d.Valid() ==> AddSources(d, sources).Valid()
  {
    if sources != [] {
      var init := sources[..|sources| - 1];
      var p := sources[|sources| - 1];
      var mid := AddSources(d, init);
      AddSourcesSpec(d, init);
      AddFeaturesSpec(mid, p.name, p.features);
      assert AddSources(d, sources) == AddFeatures(mid, p.name, p.features);
      SourcesStep(d, mid, AddSources(d, sources), sources);
      SourcesKeysStep(d, mid, AddSources(d, sources), sources);
    }
  }

  /** The inductive step of `AddSourcesSpec` for what each key holds, over the dicts before and after the last source. */
  lemma SourcesStep(d: SetDict, mid: SetDict, r: SetDict, sources: seq<Projection>)
    requires sources != []
    requires forall k :: mid.Of(k) == d.Of(k) + SourceFeatures(sources[..|sources| - 1], k)
    requires var p := sources[|sources| - 1];
      forall k :: r.Of(k) == mid.Of(k) + (if k == p.name then set f | f in p.features else {})
    ensures forall k :: r.Of(k) == d.Of(k) + SourceFeatures(sources, k)
  {
    forall k ensures r.Of(k) == d.Of(k) + SourceFeatures(sources, k) {
      SourceFeaturesSnoc(sources, k);
    }
  }

  /** The inductive step of `AddSourcesSpec` for the keys created. */
  lemma SourcesKeysStep(d: SetDict, mid: SetDict, r: SetDict, sources: seq<Projection>)
    requires sources != []
    requires forall k :: k in mid.sets <==> k in d.sets || SourceFeatures(sources[..|sources| - 1], k) != {}
    requires var p := sources[|sources| - 1];
      r.sets.Keys == mid.sets.Keys + (if p.features == [] then {} else {p.name})
    ensures forall k :: k in r.sets <==> k in d.sets || SourceFeatures(sources, k) != {}
  {
    var p := sources[|sources| - 1];
    var init := sources[..|sources| - 1];
    forall k ensures k in r.sets <==> k in d.sets || SourceFeatures(sources, k) != {} {
      SourceFeaturesSnoc(sources, k);
      if SourceFeatures(sources, k) != {} {
        var f :| f in SourceFeatures(sources, k);
        assert f in SourceFeatures(init, k) || (k == p.name && f in p.features);
      }
      if k == p.name && p.features != [] {
        assert p.features[0] in SourceFeatures(sources, k);
      }
    }
  }

  /** Every key present holds at least one feature: keys are created only by an `add`. */
  ghost predicate NoEmptyEntries(d: SetDict) {
    forall k :: k in d.sets ==> d.sets[k] != {}
  }

  /** `views_features`, `on_demand_view_features`, `request_views_features` and `request_view_refs`. */
  datatype Accumulators = Accumulators(viewFeatures: SetDict, onDemandFeatures: SetDict, requestFeatures: SetDict, requestViewRefs: set<string>)

  const NoAccumulators := Accumulators(SetDict([], map[]), SetDict([], map[]), SetDict([], map[]), {})

  /** What one resolved reference adds to the accumulators. */
  function Apply(ix: Indexes, acc: Accumulators, t: Resolved, ref: string): Accumulators
    requires Indexed(ix, t)
  {
    match t
    case Standard(view, feature) =>
      acc.(viewFeatures := acc.viewFeatures.Add(view, feature))
    case OnDemand(view, feature) =>
      acc.(onDemandFeatures := acc.onDemandFeatures.Add(view, feature),
           viewFeatures := AddSources(acc.viewFeatures, ix.onDemand[view].sources))
    case Request(view, feature) =>
      acc.(requestFeatures := acc.requestFeatures.Add(view, feature),
           requestViewRefs := acc.requestViewRefs + {ref})
  }

  /** Every resolution names a view of the index it was found in. */
  ghost predicate InIndex(ix: Indexes, ts: seq<Resolved>) {
    forall t :: t in ts ==> Indexed(ix, t)
  }

  /** The references' resolutions, in order, or the error of the first reference that does not resolve. */
  function Resolutions(ix: Indexes, refs: seq<string>): (r: Result<seq<Resolved>>)
    ensures r.Ok? ==> |r.value| == |refs| && InIndex(ix, r.value)
  {
    if refs == [] then Ok([])
    else
      var ts :- Resolutions(ix, refs[..|refs| - 1]);
      var t :- Resolve(ix, refs[|refs| - 1]);
      Ok(ts + [t])
  }

  /** The accumulators after the loop body has run on each resolved reference in turn. */
  function Fold(ix: Indexes, ts: seq<Resolved>, refs: seq<string>): Accumulators
    requires |ts| == |refs| && InIndex(ix, ts)
  {
    if ts == [] then NoAccumulators
    else
      var n := |ts| - 1;
      Apply(ix, Fold(ix, ts[..n], refs[..n]), ts[n], refs[n])
  }

  /** The accumulators after the loop over `refs`, or the first reference's error. */
  function Accumulate(ix: Indexes, refs: seq<string>): Result<Accumulators> {
    var ts :- Resolutions(ix, refs);
    Ok(Fold(ix, ts, refs))
  }

  /** The features a resolved reference adds to `views_features[k]`: itself, or every feature its on-demand view reads from `k`. */
  ghost function Contribution(ix: Indexes, t: Resolved, k: string): set<string>
    requires Indexed(ix, t)
  {
    match t
    case Standard(view, feature) => if view == k then {feature} else {}
    case OnDemand(view, _) => SourceFeatures(ix.onDemand[view].sources, k)
    case Request(_, _) => {}
  }

  /** One resolved reference adds exactly its contribution to `views_features` and keeps it valid. */
  lemma ApplyViews(ix: Indexes, acc: Accumulators, t: Resolved, ref: string)
    requires Indexed(ix, t)
    ensures var d := Apply(ix, acc, t, ref).viewFeatures;
      && (forall k :: d.Of(k) == acc.viewFeatures.Of(k) + Contribution(ix, t, k))
      && (forall k :: k in d.sets <==> k in acc.viewFeatures.sets || Contribution(ix, t, k) != {})
      && (acc.viewFeatures.Valid() ==> d.Valid())
  {
    match t {
      case Standard(view, feature) =>
        AddSpec(acc.viewFeatures, view, feature);
      case OnDemand(view, feature) =>
        AddSourcesSpec(acc.viewFeatures, ix.onDemand[view].sources);
      case Request(_, _) =>
    }
  }

  /** One resolved reference adds its feature to `on_demand_view_features` exactly when it names an on-demand view. */
  lemma ApplyOnDemand(ix: Indexes, acc: Accumulators, t: Resolved, ref: string)
    requires Indexed(ix, t)
    ensures var d := Apply(ix, acc, t, ref).onDemandFeatures;
      && (forall k, f :: f in d.Of(k) <==> f in acc.onDemandFeatures.Of(k) || t == OnDemand(k, f))
      && (forall k :: k in d.sets <==> k in acc.onDemandFeatures.sets || t == OnDemand(k, t.feature))
      && (acc.onDemandFeatures.Valid() ==> d.Valid())
  {
    if t.OnDemand? {
      AddSpec(acc.onDemandFeatures, t.view, t.feature);
    }
  }

  /** One resolved reference adds its feature to `request_views_features`, and itself to `request_view_refs`, exactly when it names a request view. */
  lemma ApplyRequest(ix: Indexes, acc: Accumulators, t: Resolved, ref: string)
    requires Indexed(ix, t)
    ensures var next := Apply(ix, acc, t, ref);
      && (forall k, f :: f in next.requestFeatures.Of(k) <==> f in acc.requestFeatures.Of(k) || t == Request(k, f))
      && (forall k :: k in next.requestFeatures.sets <==> k in acc.requestFeatures.sets || t == Request(k, t.feature))
      && (acc.requestFeatures.Valid() ==> next.requestFeatures.Valid())
      && next.requestViewRefs == acc.requestViewRefs + (if t.Request? then {ref} else {})
  {
    if t.Request? {
      AddSpec(acc.requestFeatures, t.view, t.feature);
    }
  }

  /** Reference `i` is the first that fails to resolve. */
  ghost predicate FirstFailure(ix: Indexes, refs: seq<string>, i: nat) {
    i < |refs| && Resolve(ix, refs[i]).Err? && forall i' :: 0 <= i' < i ==> Resolve(ix, refs[i']).Ok?
  }

  /** On success the resolutions are those of the references, one by one. */
  lemma {:induction false} ResolutionsOk(ix: Indexes, refs: seq<string>)
    requires Resolutions(ix, refs).Ok?
    ensures forall i :: 0 <= i < |refs| ==> Resolve(ix, refs[i]) == Ok(Resolutions(ix, refs).value[i])
  {
    if refs != [] {
      var init := refs[..|refs| - 1];
      ResolutionsOk(ix, init);
      forall i | 0 <= i < |init| ensures refs[i] == init[i] { }
    }
  }

  /** A failing loop fails with the error of the first reference that does not resolve. */
  lemma {:induction false} ResolutionsFirstFailure(ix: Indexes, refs: seq<string>)
    requires Resolutions(ix, refs).Err?
    ensures exists i: nat :: FirstFailure(ix, refs, i) && Resolutions(ix, refs).error == Resolve(ix, refs[i]).error
  {
    var init := refs[..|refs| - 1];
    var last := |refs| - 1;
    forall i' | 0 <= i' < last ensures refs[i'] == init[i'] { }
    if Resolutions(ix, init).Err? {
      ResolutionsFirstFailure(ix, init);
      var i: nat :| FirstFailure(ix, init, i) && Resolutions(ix, init).error == Resolve(ix, init[i]).error;
      assert FirstFailure(ix, refs, i);
    } else {
      ResolutionsOk(ix, init);
      assert FirstFailure(ix, refs, last);
    }
  }

  /** The loop fails exactly when some reference fails to resolve, with the first such reference's error. */
  lemma ResolutionsErr(ix: Indexes, refs: seq<string>)
    ensures Resolutions(ix, refs).Err? <==> exists i :: 0 <= i < |refs| && Resolve(ix, refs[i]).Err?
    ensures Resolutions(ix, refs).Err? ==>
              exists i: nat :: FirstFailure(ix, refs, i) && Resolutions(ix, refs).error == Resolve(ix, refs[i]).error
  {
    if Resolutions(ix, refs).Err? {
      ResolutionsFirstFailure(ix, refs);
    } else {
      ResolutionsOk(ix, refs);
    }
  }

  /** A reference that fails after a prefix that resolved decides the outcome of the whole loop. */
  lemma {:induction false} ResolutionsFailAt(ix: Indexes, refs: seq<string>, i: nat)
    requires i < |refs| && Resolutions(ix, refs[..i]).Ok? && Resolve(ix, refs[i]).Err?
    ensures Resolutions(ix, refs) == Err(Resolve(ix, refs[i]).error)
  {
    if |refs| > i + 1 {
      var init := refs[..|refs| - 1];
      assert init[..i] == refs[..i] && init[i] == refs[i];
      ResolutionsFailAt(ix, init, i);
    } else {
      assert refs[..|refs| - 1] == refs[..i];
    }
  }

  /** `views_features[k]` holds exactly the features the resolved references contribute to `k`; keys are unique and never empty. */
  lemma {:induction false} FoldViewFeatures(ix: Indexes, ts: seq<Resolved>, refs: seq<string>)
    requires |ts| == |refs| && InIndex(ix, ts)
    ensures var d := Fold(ix, ts, refs).viewFeatures;
      && (forall k, f :: f in d.Of(k) <==> exists i :: 0 <= i < |ts| && f in Contribution(ix, ts[i], k))
      && NoEmptyEntries(d) && d.Valid()
  {
    if ts != [] {
      var n := |ts| - 1;
      var init := ts[..n];
      var prev := Fold(ix, init, refs[..n]);
      FoldViewFeatures(ix, init, refs[..n]);
      ApplyViews(ix, prev, ts[n], refs[n]);
      ViewsStep(ix, ts, prev.viewFeatures, Fold(ix, ts, refs).viewFeatures);
    }
  }

  /** The inductive step of `FoldViewFeatures`, over the dicts before and after the last reference. */
  lemma ViewsStep(ix: Indexes, ts: seq<Resolved>, d0: SetDict, d: SetDict)
    requires ts != [] && InIndex(ix, ts)
    requires var init := ts[..|ts| - 1];
      && (forall k, f :: f in d0.Of(k) <==> exists i :: 0 <= i < |init| && f in Contribution(ix, init[i], k))
      && NoEmptyEntries(d0)
    requires forall k :: d.Of(k) == d0.Of(k) + Contribution(ix, ts[|ts| - 1], k)
    requires forall k :: k in d.sets <==> k in d0.sets || Contribution(ix, ts[|ts| - 1], k) != {}
    ensures forall k, f :: f in d.Of(k) <==> exists i :: 0 <= i < |ts| && f in Contribution(ix, ts[i], k)
    ensures NoEmptyEntries(d)
  {
    var n := |ts| - 1;
    var init := ts[..n];
    forall k, f ensures f in d.Of(k) <==> exists i :: 0 <= i < |ts| && f in Contribution(ix, ts[i], k) {
      if f in d0.Of(k) {
        var i :| 0 <= i < n && f in Contribution(ix, init[i], k);
        assert init[i] == ts[i];
      }
      if exists i :: 0 <= i < |ts| && f in Contribution(ix, ts[i], k) {
        var i :| 0 <= i < |ts| && f in Contribution(ix, ts[i], k);
        if i < n {
          assert init[i] == ts[i];
        }
      }
    }
    forall k | k in d.sets ensures d.sets[k] != {} {
      assert d.sets[k] == d.Of(k);
    }
  }

  /** `on_demand_view_features[k]` holds exactly the features referenced on on-demand view `k`. */
  lemma {:induction false} FoldOnDemandFeatures(ix: Indexes, ts: seq<Resolved>, refs: seq<string>)
    requires |ts| == |refs| && InIndex(ix, ts)
    ensures var d := Fold(ix, ts, refs).onDemandFeatures;
      && (forall k, f :: f in d.Of(k) <==> OnDemand(k, f) in ts)
      && NoEmptyEntries(d) && d.Valid()
  {
    if ts != [] {
      var n := |ts| - 1;
      var init := ts[..n];
      var prev := Fold(ix, init, refs[..n]);
      FoldOnDemandFeatures(ix, init, refs[..n]);
      ApplyOnDemand(ix, prev, ts[n], refs[n]);
      TaggedStep(ts, prev.onDemandFeatures, Fold(ix, ts, refs).onDemandFeatures, (k, f) => OnDemand(k, f));
    }
  }

  /** `request_views_features[k]` holds exactly the features referenced on request view `k`. */
  lemma {:induction false} FoldRequestFeatures(ix: Indexes, ts: seq<Resolved>, refs: seq<string>)
    requires |ts| == |refs| && InIndex(ix, ts)
    ensures var d := Fold(ix, ts, refs).requestFeatures;
      && (forall k, f :: f in d.Of(k) <==> Request(k, f) in ts)
      && NoEmptyEntries(d) && d.Valid()
  {
    if ts != [] {
      var n := |ts| - 1;
      var init := ts[..n];
      var prev := Fold(ix, init, refs[..n]);
      FoldRequestFeatures(ix, init, refs[..n]);
      ApplyRequest(ix, prev, ts[n], refs[n]);
      TaggedStep(ts, prev.requestFeatures, Fold(ix, ts, refs).requestFeatures, (k, f) => Request(k, f));
    }
  }

  /**
   * The inductive step of `FoldOnDemandFeatures` and `FoldRequestFeatures`:
   * a dict that collects the features of the references of one kind
   * (`tagged` builds the resolution of that kind) after one more reference.
   */
  lemma TaggedStep(ts: seq<Resolved>, d0: SetDict, d: SetDict, tagged: (string, string) -> Resolved)
    requires ts != []
    requires forall k, f :: f in d0.Of(k) <==> tagged(k, f) in ts[..|ts| - 1]
    requires NoEmptyEntries(d0)
    requires forall k, f :: f in d.Of(k) <==> f in d0.Of(k) || ts[|ts| - 1] == tagged(k, f)
    requires forall k :: k in d.sets ==> k in d0.sets || exists f :: ts[|ts| - 1] == tagged(k, f)
    ensures forall k, f :: f in d.Of(k) <==> tagged(k, f) in ts
    ensures NoEmptyEntries(d)
  {
    var n := |ts| - 1;
    assert ts == ts[..n] + [ts[n]];
    forall k | k in d.sets ensures d.sets[k] != {} {
      assert d.sets[k] == d.Of(k);
      if k !in d0.sets {
        var f :| ts[n] == tagged(k, f);
        assert f in d.Of(k);
      }
    }
  }

  /** Reference `ref` sits at a position whose resolution is a request view. */
  ghost predicate ResolvedToRequest(ts: seq<Resolved>, refs: seq<string>, ref: string)
    requires |ts| == |refs|
  {
    exists i :: 0 <= i < |refs| && refs[i] == ref && ts[i].Request?
  }

  /** One more reference resolves to a request view exactly when it is the last one or an earlier one does. */
  lemma ResolvedToRequestSnoc(ts: seq<Resolved>, refs: seq<string>, ref: string)
    requires |ts| == |refs| && ts != []
    ensures var n := |ts| - 1;
            ResolvedToRequest(ts, refs, ref) <==> ResolvedToRequest(ts[..n], refs[..n], ref) || (ts[n].Request? && refs[n] == ref)
  {
    var n := |ts| - 1;
    var ti, ri := ts[..n], refs[..n];
    if ResolvedToRequest(ti, ri, ref) {
      var i :| 0 <= i < |ri| && ri[i] == ref && ti[i].Request?;
      assert refs[i] == ref && ts[i].Request?;
    }
    if ResolvedToRequest(ts, refs, ref) {
      var i :| 0 <= i < |refs| && refs[i] == ref && ts[i].Request?;
      if i < n {
        assert ri[i] == ref && ti[i].Request?;
      }
    }
  }

  /** `request_view_refs` is exactly the set of references resolved to request views. */
  lemma {:induction false} FoldRequestRefs(ix: Indexes, ts: seq<Resolved>, refs: seq<string>)
    requires |ts| == |refs| && InIndex(ix, ts)
    ensures forall ref :: ref in Fold(ix, ts, refs).requestViewRefs <==> ResolvedToRequest(ts, refs, ref)
  {
    if ts != [] {
      var n := |ts| - 1;
      var ti, ri := ts[..n], refs[..n];
      FoldRequestRefs(ix, ti, ri);
      ApplyRequest(ix, Fold(ix, ti, ri), ts[n], refs[n]);
      assert Fold(ix, ts, refs).requestViewRefs == Fold(ix, ti, ri).requestViewRefs + (if ts[n].Request? then {refs[n]} else {});
      forall ref ensures ref in Fold(ix, ts, refs).requestViewRefs <==> ResolvedToRequest(ts, refs, ref) {
        ResolvedToRequestSnoc(ts, refs, ref);
      }
    }
  }

  // ---------------------------------------------------------------------
  // The results
  // ---------------------------------------------------------------------

  /**
   * `for view_name, feature_names in acc.items(): result.append((index[view_name], feature_names))`
   * over the keys `keys`; a name missing from the index raises KeyError.
   */
  function PairKeys<V>(keys: seq<string>, d: SetDict, index: map<string, V>): (r: Result<seq<(V, set<string>)>>)
    ensures r.Ok? <==> forall i :: 0 <= i < |keys| ==> keys[i] in index
    ensures r.Ok? ==> |r.value| == |keys| && forall i :: 0 <= i < |keys| ==> r.value[i] == (index[keys[i]], d.Of(keys[i]))
    ensures r.Err? ==> exists i :: 0 <= i < |keys| && keys[i] !in index && r.error == SourceViewNotIndexed(keys[i])
                          && forall i' :: 0 <= i' < i ==> keys[i'] in index
  {
    if keys == [] then Ok([])
    else
      var k := keys[|keys| - 1];
      var prev :- PairKeys(keys[..|keys| - 1], d, index);
      if k in index then Ok(prev + [(index[k], d.Of(k))]) else Err(SourceViewNotIndexed(k))
  }

  /** Once the pairing has failed, later keys do not change the outcome. */
  lemma {:induction false} PairStuck<V>(keys: seq<string>, d: SetDict, index: map<string, V>, i: nat)
    requires i < |keys| && PairKeys(keys[..i + 1], d, index).Err?
    ensures PairKeys(keys, d, index) == PairKeys(keys[..i + 1], d, index)
  {
    if |keys| > i + 1 {
      var init := keys[..|keys| - 1];
      assert init[..i + 1] == keys[..i + 1];
      PairStuck(init, d, index, i);
    } else {
      assert keys[..i + 1] == keys;
    }
  }

  /** `(fvs_result, odfvs_result, request_fvs_result, request_view_refs)`. */
  datatype Grouped = Grouped(
    featureViews: seq<(FeatureView, set<string>)>,
    onDemandViews: seq<(OnDemandFeatureView, set<string>)>,
    requestViews: seq<(RequestFeatureView, set<string>)>,
    requestViewRefs: set<string>)

  /** The grouping of `refs` against the three indexes. */
  function GroupWith(ix: Indexes, refs: seq<string>): Result<Grouped>
  {
    var acc :- Accumulate(ix, refs);
    var fvs :- PairKeys(acc.viewFeatures.order, acc.viewFeatures, ix.views);
    var rfvs :- PairKeys(acc.requestFeatures.order, acc.requestFeatures, ix.request);
    var odfvs :- PairKeys(acc.onDemandFeatures.order, acc.onDemandFeatures, ix.onDemand);
    Ok(Grouped(fvs, odfvs, rfvs, acc.requestViewRefs))
  }

  /** The specification of `_group_feature_refs`: build the indexes, then group. */
  function GroupSpec(refs: seq<string>, views: seq<FeatureView>, requestViews: seq<RequestFeatureView>, onDemandViews: seq<OnDemandFeatureView>): Result<Grouped>
  {
    GroupWith(BuildIndexes(views, requestViews, onDemandViews), refs)
  }

  /** The loop over an on-demand view's sources: `views_features[p.name].add(f)` for every feature of every source `p`. */
  method AddSourceFeatures(d: SetDict, sources: seq<Projection>) returns (r: SetDict)
    ensures r == AddSources(d, sources)
  {
    r := d;
    for s := 0 to |sources|
      invariant r == AddSources(d, sources[..s])
    {
      var input := sources[s];
      ghost var mid := r;
      for k := 0 to |input.features|
        invariant r == AddFeatures(mid, input.name, input.features[..k])
      {
        assert input.features[..k + 1][..k] == input.features[..k];
        r := r.Add(input.name, input.features[k]);
      }
      assert input.features[..|input.features|] == input.features;
      assert sources[..s + 1][..s] == sources[..s];
    }
    assert sources[..|sources|] == sources;
  }

  /**
   * The body of the loop over the references: resolve `ref` and add it to
   * the accumulators, or raise the error that resolving it raises.
   */
  method AccumulateRef(ix: Indexes, acc: Accumulators, ref: string) returns (r: Result<Accumulators>)
    ensures Resolve(ix, ref).Err? ==> r == Err(Resolve(ix, ref).error)
    ensures Resolve(ix, ref).Ok? ==> r == Ok(Apply(ix, acc, Resolve(ix, ref).value, ref))
  {
    var parsed := ParseRef(ref);
    if parsed.Err? {
      return Err(parsed.error);
    }
    var (viewName, featName) := parsed.value;
    if viewName in ix.views {
      if featName !in ix.views[viewName].projection.features {
        return Err(FeatureNotInProjection(viewName, featName));
      }
      return Ok(acc.(viewFeatures := acc.viewFeatures.Add(viewName, featName)));
    } else if viewName in ix.onDemand {
      if featName !in ix.onDemand[viewName].projection.features {
        return Err(FeatureNotInProjection(viewName, featName));
      }
      var viewFeatures := AddSourceFeatures(acc.viewFeatures, ix.onDemand[viewName].sources);
      return Ok(acc.(onDemandFeatures := acc.onDemandFeatures.Add(viewName, featName), viewFeatures := viewFeatures));
    } else if viewName in ix.request {
      if featName !in ix.request[viewName].projection.features {
        return Err(FeatureNotInProjection(viewName, featName));
      }
      return Ok(acc.(requestFeatures := acc.requestFeatures.Add(viewName, featName), requestViewRefs := acc.requestViewRefs + {ref}));
    } else {
      return Err(FeatureViewNotFound(viewName));
    }
  }

  /** One more resolved reference extends the resolutions by one and the fold by one application. */
  lemma AccumulateStep(ix: Indexes, refs: seq<string>, i: nat, ts: seq<Resolved>)
    requires i < |refs| && Resolutions(ix, refs[..i]) == Ok(ts) && Resolve(ix, refs[i]).Ok?
    ensures var t := Resolve(ix, refs[i]).value;
      && Resolutions(ix, refs[..i + 1]) == Ok(ts + [t])
      && Fold(ix, ts + [t], refs[..i + 1]) == Apply(ix, Fold(ix, ts, refs[..i]), t, refs[i])
  {
    var t := Resolve(ix, refs[i]).value;
    assert refs[..i + 1][..i] == refs[..i];
    assert (ts + [t])[..i] == ts;
  }

  /** The loop over the references, filling the accumulators; the first reference that does not resolve raises. */
  method AccumulateRefs(ix: Indexes, refs: seq<string>) returns (r: Result<Accumulators>)
    ensures r == Accumulate(ix, refs)
  {
    var acc := NoAccumulators;
    ghost var ts: seq<Resolved> := [];
    for i := 0 to |refs|
      invariant Resolutions(ix, refs[..i]) == Ok(ts)
      invariant Fold(ix, ts, refs[..i]) == acc
    {
      var step := AccumulateRef(ix, acc, refs[i]);
      if step.Err? {
        ResolutionsFailAt(ix, refs, i);
        return Err(step.error);
      }
      AccumulateStep(ix, refs, i, ts);
      acc := step.value;
      ts := ts + [Resolve(ix, refs[i]).value];
    }
    assert refs[..|refs|] == refs;
    return Ok(acc);
  }

  /** `for view_name, feature_names in d.items(): result.append((index[view_name], feature_names))`. */
  method PairItems<V>(d: SetDict, index: map<string, V>) returns (r: Result<seq<(V, set<string>)>>)
    ensures r == PairKeys(d.order, d, index)
  {
    var result: seq<(V, set<string>)> := [];
    for i := 0 to |d.order|
      invariant PairKeys(d.order[..i], d, index) == Ok(result)
    {
      assert d.order[..i + 1][..i] == d.order[..i];
      var name := d.order[i];
      if name !in index {
        PairStuck(d.order, d, index, i);
        return Err(SourceViewNotIndexed(name));
      }
      result := result + [(index[name], d.Of(name))];
    }
    assert d.order[..|d.order|] == d.order;
    return Ok(result);
  }

  /**
   * `_group_feature_refs(features, all_feature_views, all_request_feature_views,
   * all_on_demand_feature_views)`.
   */
  method GroupFeatureRefs(refs: seq<string>, views: seq<FeatureView>, requestViews: seq<RequestFeatureView>, onDemandViews: seq<OnDemandFeatureView>)
    returns (r: Result<Grouped>)
    ensures r == GroupSpec(refs, views, requestViews, onDemandViews)
  {
    var ix := BuildIndexes(views, requestViews, onDemandViews);
    var acc :- AccumulateRefs(ix, refs);
    var fvs :- PairItems(acc.viewFeatures, ix.views);
    var rfvs :- PairItems(acc.requestFeatures, ix.request);
    var odfvs :- PairItems(acc.onDemandFeatures, ix.onDemand);
    return Ok(Grouped(fvs, odfvs, rfvs, acc.requestViewRefs));
  }

  /** Every index entry is keyed by the name its view's projection uses. */
  ghost predicate NamedIndexes(ix: Indexes) {
    && (forall n :: n in ix.views ==> ix.views[n].projection.NameToUse() == n)
    && (forall n :: n in ix.onDemand ==> ix.onDemand[n].projection.NameToUse() == n)
    && (forall n :: n in ix.request ==> ix.request[n].projection.NameToUse() == n)
  }

  /** Each index maps a name to a view whose projection uses that name, and holds every view's name. */
  lemma IndexesNamed(views: seq<FeatureView>, requestViews: seq<RequestFeatureView>, onDemandViews: seq<OnDemandFeatureView>)
    ensures var ix := BuildIndexes(views, requestViews, onDemandViews);
      && NamedIndexes(ix)
      && (forall n :: n in ix.views <==> exists i :: 0 <= i < |views| && views[i].projection.NameToUse() == n)
  {
    var nv := NamesToUse(views, (v: FeatureView) => v.projection);
    var no := NamesToUse(onDemandViews, (v: OnDemandFeatureView) => v.projection);
    var nr := NamesToUse(requestViews, (v: RequestFeatureView) => v.projection);
    IndexByNameSpec(views, nv);
    IndexByNameSpec(onDemandViews, no);
    IndexByNameSpec(requestViews, nr);
    forall n | n in nv ensures exists i :: 0 <= i < |views| && views[i].projection.NameToUse() == n {
      var i :| 0 <= i < |nv| && nv[i] == n;
    }
  }

  /** A listed key of a valid dict that never holds an empty set holds some feature. */
  lemma ListedKeyHolds(d: SetDict, p: nat)
    requires p < |d.order| && d.Valid() && NoEmptyEntries(d)
    ensures exists f :: f in d.Of(d.order[p])
  {
    assert d.order[p] in d.order;
    var f :| f in d.sets[d.order[p]];
    assert f in d.Of(d.order[p]);
  }

  /**
   * The grouping succeeds exactly when every reference resolves and every
   * view that collected features (a referenced view, or a source of a
   * referenced on-demand view, under the source's own name) is in the
   * standard index.
   */
  lemma GroupSucceeds(ix: Indexes, refs: seq<string>)
    ensures var rs := Resolutions(ix, refs);
      GroupWith(ix, refs).Ok? <==>
        rs.Ok? && forall i, k, f :: 0 <= i < |rs.value| && f in Contribution(ix, rs.value[i], k) ==> k in ix.views
  {
    var rs := Resolutions(ix, refs);
    if rs.Ok? {
      var ts := rs.value;
      ViewsListedIndexed(ix, ts, refs);
      OnDemandListedIndexed(ix, ts, refs);
      RequestListedIndexed(ix, ts, refs);
    }
  }

  /** The keys of `views_features` are all indexed exactly when every contributed-to view is. */
  lemma ViewsListedIndexed(ix: Indexes, ts: seq<Resolved>, refs: seq<string>)
    requires |ts| == |refs| && InIndex(ix, ts)
    ensures var o := Fold(ix, ts, refs).viewFeatures.order;
      (forall p :: 0 <= p < |o| ==> o[p] in ix.views) <==>
        forall i, k, f :: 0 <= i < |ts| && f in Contribution(ix, ts[i], k) ==> k in ix.views
  {
    var d := Fold(ix, ts, refs).viewFeatures;
    FoldViewFeatures(ix, ts, refs);
    forall p | 0 <= p < |d.order|
      ensures exists i, f :: 0 <= i < |ts| && f in Contribution(ix, ts[i], d.order[p])
    {
      ListedKeyHolds(d, p);
    }
    forall i, k, f | 0 <= i < |ts| && f in Contribution(ix, ts[i], k) ensures k in d.order {
      assert f in d.Of(k);
    }
  }

  /** Every key of `on_demand_view_features` names an indexed on-demand view. */
  lemma OnDemandListedIndexed(ix: Indexes, ts: seq<Resolved>, refs: seq<string>)
    requires |ts| == |refs| && InIndex(ix, ts)
    ensures var o := Fold(ix, ts, refs).onDemandFeatures.order;
      forall p :: 0 <= p < |o| ==> o[p] in ix.onDemand
  {
    var d := Fold(ix, ts, refs).onDemandFeatures;
    FoldOnDemandFeatures(ix, ts, refs);
    forall p | 0 <= p < |d.order| ensures d.order[p] in ix.onDemand {
      ListedKeyHolds(d, p);
      var f :| f in d.Of(d.order[p]);
      assert Indexed(ix, OnDemand(d.order[p], f));
    }
  }

  /** Every key of `request_views_features` names an indexed request view. */
  lemma RequestListedIndexed(ix: Indexes, ts: seq<Resolved>, refs: seq<string>)
    requires |ts| == |refs| && InIndex(ix, ts)
    ensures var o := Fold(ix, ts, refs).requestFeatures.order;
      forall p :: 0 <= p < |o| ==> o[p] in ix.request
  {
    var d := Fold(ix, ts, refs).requestFeatures;
    FoldRequestFeatures(ix, ts, refs);
    forall p | 0 <= p < |d.order| ensures d.order[p] in ix.request {
      ListedKeyHolds(d, p);
      var f :| f in d.Of(d.order[p]);
      assert Indexed(ix, Request(d.order[p], f));
    }
  }

  /** On success `fvs_result` lists, in insertion order, each key of `views_features` with its view and its features. */
  lemma FeatureViewsListed(ix: Indexes, refs: seq<string>)
    requires GroupWith(ix, refs).Ok?
    ensures var d := Fold(ix, Resolutions(ix, refs).value, refs).viewFeatures;
            var fvs := GroupWith(ix, refs).value.featureViews;
      && |fvs| == |d.order|
      && forall p :: 0 <= p < |fvs| ==> d.order[p] in ix.views && fvs[p] == (ix.views[d.order[p]], d.Of(d.order[p]))
  {
    var acc := Fold(ix, Resolutions(ix, refs).value, refs);
    assert Accumulate(ix, refs) == Ok(acc);
    var pk := PairKeys(acc.viewFeatures.order, acc.viewFeatures, ix.views);
    assert pk.Ok? && GroupWith(ix, refs).value.featureViews == pk.value;
  }

  /**
   * On success each standard view in the result is listed under the name
   * its projection uses, with exactly the features the resolved references
   * contribute to it.
   */
  lemma GroupFeatureViewsSound(ix: Indexes, refs: seq<string>)
    requires NamedIndexes(ix) && GroupWith(ix, refs).Ok?
    ensures var ts := Resolutions(ix, refs).value;
            var fvs := GroupWith(ix, refs).value.featureViews;
      forall p :: 0 <= p < |fvs| ==>
        var k := fvs[p].0.projection.NameToUse();
        && k in ix.views && fvs[p].0 == ix.views[k]
        && forall f :: f in fvs[p].1 <==> exists i :: 0 <= i < |ts| && f in Contribution(ix, ts[i], k)
  {
    FoldViewFeatures(ix, Resolutions(ix, refs).value, refs);
    FeatureViewsListed(ix, refs);
  }

  /** On success every contributed feature is listed under its view. */
  lemma GroupFeatureViewsComplete(ix: Indexes, refs: seq<string>)
    requires GroupWith(ix, refs).Ok?
    ensures var ts := Resolutions(ix, refs).value;
            var fvs := GroupWith(ix, refs).value.featureViews;
      forall i, k, f :: 0 <= i < |ts| && f in Contribution(ix, ts[i], k) ==>
        k in ix.views && exists p :: 0 <= p < |fvs| && fvs[p].0 == ix.views[k] && f in fvs[p].1
  {
    var ts := Resolutions(ix, refs).value;
    var d := Fold(ix, ts, refs).viewFeatures;
    FoldViewFeatures(ix, ts, refs);
    FeatureViewsListed(ix, refs);
    var fvs := GroupWith(ix, refs).value.featureViews;
    forall i, k, f | 0 <= i < |ts| && f in Contribution(ix, ts[i], k)
      ensures k in ix.views && exists p :: 0 <= p < |fvs| && fvs[p].0 == ix.views[k] && f in fvs[p].1
    {
      assert f in d.Of(k);
      var p :| 0 <= p < |d.order| && d.order[p] == k;
      assert fvs[p].0 == ix.views[k] && f in fvs[p].1;
    }
  }

  /** On success no standard view is listed twice. */
  lemma GroupFeatureViewsUnique(ix: Indexes, refs: seq<string>)
    requires NamedIndexes(ix) && GroupWith(ix, refs).Ok?
    ensures var fvs := GroupWith(ix, refs).value.featureViews;
      forall p, q :: 0 <= p < q < |fvs| ==> fvs[p].0.projection.NameToUse() != fvs[q].0.projection.NameToUse()
  {
    FoldViewFeatures(ix, Resolutions(ix, refs).value, refs);
    FeatureViewsListed(ix, refs);
  }

  /** On success each on-demand view appears with exactly the features referenced on it. */
  lemma GroupOnDemandViews(ix: Indexes, refs: seq<string>)
    requires NamedIndexes(ix) && GroupWith(ix, refs).Ok?
    ensures var ts := Resolutions(ix, refs).value;
            var odfvs := GroupWith(ix, refs).value.onDemandViews;
      forall p :: 0 <= p < |odfvs| ==>
        var k := odfvs[p].0.projection.NameToUse();
        forall f :: f in odfvs[p].1 <==> OnDemand(k, f) in ts
  {
    var ts := Resolutions(ix, refs).value;
    var acc := Fold(ix, ts, refs);
    assert Accumulate(ix, refs) == Ok(acc);
    FoldOnDemandFeatures(ix, ts, refs);
    var d := acc.onDemandFeatures;
    var pk := PairKeys(d.order, d, ix.onDemand);
    assert pk.Ok? && GroupWith(ix, refs).value.onDemandViews == pk.value;
  }

  /** On success each request view appears with exactly the features referenced on it. */
  lemma GroupRequestViews(ix: Indexes, refs: seq<string>)
    requires NamedIndexes(ix) && GroupWith(ix, refs).Ok?
    ensures var ts := Resolutions(ix, refs).value;
            var rfvs := GroupWith(ix, refs).value.requestViews;
      forall p :: 0 <= p < |rfvs| ==>
        var k := rfvs[p].0.projection.NameToUse();
        forall f :: f in rfvs[p].1 <==> Request(k, f) in ts
  {
    var ts := Resolutions(ix, refs).value;
    var acc := Fold(ix, ts, refs);
    assert Accumulate(ix, refs) == Ok(acc);
    FoldRequestFeatures(ix, ts, refs);
    var d := acc.requestFeatures;
    var pk := PairKeys(d.order, d, ix.request);
    assert pk.Ok? && GroupWith(ix, refs).value.requestViews == pk.value;
  }

  /** On success `request_view_refs` holds exactly the references resolved to request views. */
  lemma GroupRequestRefs(ix: Indexes, refs: seq<string>)
    requires GroupWith(ix, refs).Ok?
    ensures forall ref :: ref in GroupWith(ix, refs).value.requestViewRefs <==> ResolvedToRequest(Resolutions(ix, refs).value, refs, ref)
  {
    var ts := Resolutions(ix, refs).value;
    var acc := Fold(ix, ts, refs);
    assert Accumulate(ix, refs) == Ok(acc);
    FoldRequestRefs(ix, ts, refs);
    assert GroupWith(ix, refs).value.requestViewRefs == acc.requestViewRefs;
  }

}

=== FILE: indexing.dfy ===
/**
 * Index lists: the row positions a unique entity key occurs at.  A list of
 * such lists partitions the rows `0..n-1` when every row occurs in exactly
 * one list, exactly once.
 */
module Indexing {

  /** `range(n)` as a list. */
  function Range(n: nat): (r: seq<nat>)
    ensures |r| == n
    ensures forall i :: 0 <= i < n ==> r[i] == i
  {
    seq(n, i requires 0 <= i => i)
  }

  /** The index lists laid end to end. */
  function Flatten(groups: seq<seq<nat>>): seq<nat> {
    if groups == [] then [] else groups[0] + Flatten(groups[1..])
  }

  /** `sum(len(item) for item in groups)`. */
  function TotalSize(groups: seq<seq<nat>>): nat {
    if groups == [] then 0 else |groups[0]| + TotalSize(groups[1..])
  }

  /** No overlap and no gap: together the lists hold each of `0..n-1` once. */
  ghost predicate Partitions(groups: seq<seq<nat>>, n: nat) {
    multiset(Flatten(groups)) == multiset(Range(n))
  }

  lemma {:induction false} FlattenSize(groups: seq<seq<nat>>)
    ensures |Flatten(groups)| == TotalSize(groups)
  {
    if groups != [] { FlattenSize(groups[1..]); }
  }

  lemma {:induction false} FlattenAppend(a: seq<seq<nat>>, b: seq<seq<nat>>)
    ensures Flatten(a + b) == Flatten(a) + Flatten(b)
  {
    if a == [] {
      assert a + b == b;
    } else {
      assert (a + b)[1..] == a[1..] + b;
      FlattenAppend(a[1..], b);
    }
  }

  lemma {:induction false} InGroupInFlatten(groups: seq<seq<nat>>, i: nat, idx: nat)
    requires i < |groups| && idx in groups[i]
    ensures idx in Flatten(groups)
  {
    if i > 0 { InGroupInFlatten(groups[1..], i - 1, idx); }
  }

  lemma {:induction false} InFlattenInGroup(groups: seq<seq<nat>>, idx: nat) returns (i: nat)
    requires idx in Flatten(groups)
    ensures i < |groups| && idx in groups[i]
  {
    if idx in groups[0] {
      i := 0;
    } else {
      var j := InFlattenInGroup(groups[1..], idx);
      i := j + 1;
    }
  }

  /** Each of `0..n-1` occurs once in `range(n)`. */
  lemma {:induction false} RangeOnce(n: nat, idx: nat)
    ensures multiset(Range(n))[idx] == if idx < n then 1 else 0
  {
    if n > 0 {
      assert Range(n) == Range(n - 1) + [n - 1];
      RangeOnce(n - 1, idx);
    }
  }

  /** A row in two lists, or twice in one list, occurs twice in the flattening. */
  lemma {:induction false} TwoOccurrences(groups: seq<seq<nat>>, i: nat, j: nat, idx: nat)
    requires i < j < |groups| && idx in groups[i] && idx in groups[j]
    ensures multiset(Flatten(groups))[idx] >= 2
  {
    if i == 0 {
      InGroupInFlatten(groups[1..], j - 1, idx);
      assert Flatten(groups) == groups[0] + Flatten(groups[1..]);
    } else {
      TwoOccurrences(groups[1..], i - 1, j - 1, idx);
      assert Flatten(groups) == groups[0] + Flatten(groups[1..]);
    }
  }

  ghost predicate InSomeGroup(groups: seq<seq<nat>>, idx: nat) {
    exists i :: 0 <= i < |groups| && idx in groups[i]
  }

  /** The consequences of a partition that the scatter relies on. */
  lemma PartitionFacts(groups: seq<seq<nat>>, n: nat)
    requires Partitions(groups, n)
    ensures TotalSize(groups) == n
    ensures forall i, idx :: 0 <= i < |groups| && idx in groups[i] ==> idx < n
    ensures forall idx :: 0 <= idx < n ==> InSomeGroup(groups, idx)
    ensures forall i, j, idx :: 0 <= i < |groups| && 0 <= j < |groups| && idx in groups[i] && idx in groups[j] ==> i == j
  {
    FlattenSize(groups);
    assert |Flatten(groups)| == |multiset(Flatten(groups))| == |multiset(Range(n))| == n;
    forall i, idx | 0 <= i < |groups| && idx in groups[i] ensures idx < n {
      InGroupInFlatten(groups, i, idx);
      RangeOnce(n, idx);
    }
    forall idx | 0 <= idx < n ensures InSomeGroup(groups, idx) {
      RangeOnce(n, idx);
      var i := InFlattenInGroup(groups, idx);
    }
    forall i, j, idx | 0 <= i < |groups| && 0 <= j < |groups| && idx in groups[i] && idx in groups[j]
      ensures i == j
    {
      if i != j {
        RangeOnce(n, idx);
        if i < j { TwoOccurrences(groups, i, j, idx); } else { TwoOccurrences(groups, j, i, idx); }
      }
    }
  }
}

=== FILE: online_read.dfy ===
/**
 * `_read_from_online_store` after the backend call: each row the backend
 * returns (an optional event time and, on a hit, the features it found)
 * becomes three lists aligned with the requested feature names.
 */
module OnlineRead {
  import opened Base

  /** One row of `provider.online_read`: `(row_ts, feature_data)`. */
  datatype ReadRow = ReadRow(eventTime: Option<Timestamp>, featureData: Option<map<string, Value>>)

  /** One processed row: `(event_timestamps, statuses, values)`. */
  datatype RowData = RowData(timestamps: seq<Timestamp>, statuses: seq<Status>, values: seq<Value>)
  {
    /** All three lists hold one entry per requested feature. */
    predicate Aligned(n: nat) {
      |timestamps| == n && |statuses| == n && |values| == n
    }
  }

  /** The row's timestamp: its event time, or the epoch (`Timestamp()`) when the backend gave none. */
  function RowTime(row: ReadRow): Timestamp {
    if row.eventTime.Some? then row.eventTime.value else Epoch
  }

  /** The backend found feature `f` for this row. */
  predicate Hit(row: ReadRow, f: string) {
    row.featureData.Some? && f in row.featureData.value
  }

  /**
   * What the processing promises for one row: the lists follow `requested`
   * position by position; each position carries the row's timestamp and is
   * either `PRESENT` with the value read or `NOT_FOUND` with a null value.
   */
  ghost predicate Normalises(row: ReadRow, requested: seq<string>, d: RowData) {
    && d.Aligned(|requested|)
    && (forall j :: 0 <= j < |requested| ==> d.timestamps[j] == RowTime(row))
    && (forall j :: 0 <= j < |requested| && Hit(row, requested[j]) ==>
          d.statuses[j] == Present && d.values[j] == row.featureData.value[requested[j]])
    && (forall j :: 0 <= j < |requested| && !Hit(row, requested[j]) ==>
          d.statuses[j] == NotFound && d.values[j] == Null)
  }

  /** The promise leaves no freedom: two rows that both meet it are equal. */
  lemma NormalisesUnique(row: ReadRow, requested: seq<string>, d1: RowData, d2: RowData)
    requires Normalises(row, requested, d1) && Normalises(row, requested, d2)
    ensures d1 == d2
  {
    assert d1.timestamps == d2.timestamps;
    assert d1.statuses == d2.statuses by {
      forall j | 0 <= j < |requested| ensures d1.statuses[j] == d2.statuses[j] {
        if Hit(row, requested[j]) { } else { }
      }
    }
    assert d1.values == d2.values by {
      forall j | 0 <= j < |requested| ensures d1.values[j] == d2.values[j] {
        if Hit(row, requested[j]) { } else { }
      }
    }
  }

  /** A miss (`feature_data is None`) reports every feature `NOT_FOUND` with a null value. */
  lemma MissIsAllNotFound(row: ReadRow, requested: seq<string>, d: RowData)
    requires row.featureData.None? && Normalises(row, requested, d)
    ensures d.statuses == seq(|requested|, _ => NotFound)
    ensures d.values == seq(|requested|, _ => Null)
  {
    assert forall j :: 0 <= j < |requested| ==> !Hit(row, requested[j]);
  }

  /** The body of the loop over `read_rows`: one backend row. */
  method ProcessRow(row: ReadRow, requested: seq<string>) returns (d: RowData)
    ensures Normalises(row, requested, d)
  {
    var timestamp := Epoch;
    if row.eventTime.Some? {
      timestamp := row.eventTime.value;
    }
    var timestamps := seq(|requested|, _ => timestamp);
    var statuses: seq<Status>;
    var values: seq<Value>;
    if row.featureData.None? {
      statuses := seq(|requested|, _ => NotFound);
      values := seq(|requested|, _ => Null);
    } else {
      var data := row.featureData.value;
      statuses := [];
      values := [];
      for j := 0 to |requested|
        invariant |statuses| == j && |values| == j
        invariant forall a :: 0 <= a < j && requested[a] in data ==> statuses[a] == Present && values[a] == data[requested[a]]
        invariant forall a :: 0 <= a < j && requested[a] !in data ==> statuses[a] == NotFound && values[a] == Null
      {
        var name := requested[j];
        if name !in data {
          statuses := statuses + [NotFound];
          values := values + [Null];
        } else {
          statuses := statuses + [Present];
          values := values + [data[name]];
        }
      }
    }
    d := RowData(timestamps, statuses, values);
  }

  /**
   * `_read_from_online_store` from the backend's rows on: one processed row
   * per backend row, in the backend's order.
   */
  method ReadFromOnlineStore(readRows: seq<ReadRow>, requested: seq<string>) returns (out: seq<RowData>)
    ensures |out| == |readRows|
    ensures forall i :: 0 <= i < |readRows| ==> Normalises(readRows[i], requested, out[i])
  {
    out := [];
    for i := 0 to |readRows|
      invariant |out| == i
      invariant forall a :: 0 <= a < i ==> Normalises(readRows[a], requested, out[a])
    {
      var d := ProcessRow(readRows[i], requested);
      out := out + [d];
    }
  }
}

=== FILE: ordering.dfy ===
/**
 * The order `_get_unique_entities` sorts rows by: Python's comparison of the
 * raw scalar inside each entity value, extended lexicographically to the
 * tuple of a row's join-key values.  Strings compare by code point, and a
 * proper prefix sorts first, as in Python.
 */
module Ordering {
  import opened Base

  /** Python's `a < b` on strings. */
  predicate StrLess(a: string, b: string) {
    if |a| == 0 then |b| > 0
    else if |b| == 0 then false
    else a[0] < b[0] || (a[0] == b[0] && StrLess(a[1..], b[1..]))
  }

  lemma {:induction false} StrLessIrreflexive(a: string)
    ensures !StrLess(a, a)
  {
    if |a| > 0 { StrLessIrreflexive(a[1..]); }
  }

  lemma {:induction false} StrLessTransitive(a: string, b: string, c: string)
    requires StrLess(a, b) && StrLess(b, c)
    ensures StrLess(a, c)
  {
    if |a| > 0 && |b| > 0 && |c| > 0 && a[0] == b[0] == c[0] {
      StrLessTransitive(a[1..], b[1..], c[1..]);
    }
  }

  lemma {:induction false} StrLessTotal(a: string, b: string)
    requires a != b
    ensures StrLess(a, b) || StrLess(b, a)
  {
    if |a| > 0 && |b| > 0 && a[0] == b[0] {
      assert a == [a[0]] + a[1..] && b == [b[0]] + b[1..];
      StrLessTotal(a[1..], b[1..]);
    }
  }

  /**
   * Entity columns hold a single kind of value, so Python only ever compares
   * integers with integers and strings with strings; ranking the kinds first
   * extends that to a total order on all values.  A null value never reaches
   * the comparison (computing its sort key raises), so its rank is arbitrary.
   */
  function Rank(v: Value): nat {
    match v
    case Null => 0
    case Int(_) => 1
    case Str(_) => 2
  }

  predicate ValueLess(x: Value, y: Value) {
    Rank(x) < Rank(y)
    || (x.Int? && y.Int? && x.i < y.i)
    || (x.Str? && y.Str? && StrLess(x.s, y.s))
  }

  lemma ValueLessIrreflexive(x: Value)
    ensures !ValueLess(x, x)
  {
    if x.Str? { StrLessIrreflexive(x.s); }
  }

  lemma ValueLessTransitive(x: Value, y: Value, z: Value)
    requires ValueLess(x, y) && ValueLess(y, z)
    ensures ValueLess(x, z)
  {
    if x.Str? && y.Str? && z.Str? && StrLess(x.s, y.s) && StrLess(y.s, z.s) {
      StrLessTransitive(x.s, y.s, z.s);
    }
  }

  lemma ValueLessTotal(x: Value, y: Value)
    requires x != y
    ensures ValueLess(x, y) || ValueLess(y, x)
  {
    if x.Str? && y.Str? { StrLessTotal(x.s, y.s); }
  }

  /** Python's `a < b` on tuples of entity values. */
  predicate KeyLess(a: Key, b: Key) {
    if |a| == 0 then |b| > 0
    else if |b| == 0 then false
    else ValueLess(a[0], b[0]) || (a[0] == b[0] && KeyLess(a[1..], b[1..]))
  }

  lemma {:induction false} KeyLessIrreflexive(a: Key)
    ensures !KeyLess(a, a)
  {
    if |a| > 0 {
      ValueLessIrreflexive(a[0]);
      KeyLessIrreflexive(a[1..]);
    }
  }

  lemma {:induction false} KeyLessTransitive(a: Key, b: Key, c: Key)
    requires KeyLess(a, b) && KeyLess(b, c)
    ensures KeyLess(a, c)
  {
    if |a| > 0 && |b| > 0 && |c| > 0 {
      if ValueLess(a[0], b[0]) && ValueLess(b[0], c[0]) {
        ValueLessTransitive(a[0], b[0], c[0]);
      } else if a[0] == b[0] == c[0] {
        KeyLessTransitive(a[1..], b[1..], c[1..]);
      }
    }
  }

  lemma {:induction false} KeyLessTotal(a: Key, b: Key)
    requires a != b
    ensures KeyLess(a, b) || KeyLess(b, a)
  {
    if |a| > 0 && |b| > 0 {
      if a[0] == b[0] {
        assert a == [a[0]] + a[1..] && b == [b[0]] + b[1..];
        KeyLessTotal(a[1..], b[1..]);
      } else {
        ValueLessTotal(a[0], b[0]);
      }
    }
  }
}

=== FILE: registry_checks.dfy ===
/**
 * The name checks run over registry objects before they are applied:
 * feature-view names must be unique ignoring case (an error), data-source
 * names should be (a warning, except for blank names).
 */
module RegistryChecks {
  import opened Base
  import opened Strings

  /** The name at position `j` repeats, ignoring case, a name seen earlier. */
  ghost predicate RepeatsEarlier(names: seq<string>, j: nat)
    requires j < |names|
  {
    exists i :: 0 <= i < j && Lower(names[i]) == Lower(names[j])
  }

  /** `j` is the first position whose name repeats an earlier one. */
  ghost predicate FirstRepeat(names: seq<string>, j: nat) {
    j < |names| && RepeatsEarlier(names, j) && forall k :: 0 <= k < j ==> !RepeatsEarlier(names, k)
  }

  /** Feature-view names are pairwise distinct once lower-cased. */
  ghost predicate CaseInsensitivelyUnique(names: seq<string>) {
    forall i, j :: 0 <= i < j < |names| ==> Lower(names[i]) != Lower(names[j])
  }

  /**
   * `_validate_feature_views`: walks the names with a set of lower-cased names
   * seen so far and raises on the first repeat, naming it in lower case.
   */
  method ValidateFeatureViews(names: seq<string>) returns (r: Result<()>)
    ensures r.Ok? <==> CaseInsensitivelyUnique(names)
    ensures r.Err? ==> exists j: nat :: FirstRepeat(names, j) && r.error == DuplicateFeatureViewName(Lower(names[j]))
  {
    var seen: set<string> := {};
    var j := 0;
    while j < |names|
      invariant j <= |names|
      invariant seen == set i | 0 <= i < j :: Lower(names[i])
      invariant forall k :: 0 <= k < j ==> !RepeatsEarlier(names, k)
    {
      var name := Lower(names[j]);
      if name in seen {
        var i :| 0 <= i < j && Lower(names[i]) == name;
        assert RepeatsEarlier(names, j);
        assert FirstRepeat(names, j);
        return Err(DuplicateFeatureViewName(name));
      }
      seen := seen + {name};
      j := j + 1;
    }
    forall a, b | 0 <= a < b < |names| ensures Lower(names[a]) != Lower(names[b]) {
      assert !RepeatsEarlier(names, b);
    }
    return Ok(());
  }

  /** The data-source name at position `j` draws a warning: a non-blank repeat. */
  ghost predicate Warns(names: seq<string>, j: nat) {
    j < |names| && RepeatsEarlier(names, j) && !IsBlank(Lower(names[j]))
  }

  /**
   * `_validate_data_sources`: the same walk, but a repeat only warns, and
   * only when the lower-cased name is not blank after `strip()`.  The result
   * is the positions that draw a warning, in the order they are issued.
   */
  method ValidateDataSources(names: seq<string>) returns (warned: seq<nat>)
    ensures StrictlyAscending(warned)
    ensures forall j: nat :: j in warned <==> Warns(names, j)
  {
    var seen: set<string> := {};
    warned := [];
    var j := 0;
    while j < |names|
      invariant j <= |names|
      invariant seen == set i | 0 <= i < j :: Lower(names[i])
      invariant forall a :: 0 <= a < |warned| ==> warned[a] < j
      invariant StrictlyAscending(warned)
      invariant forall k: nat :: k in warned <==> k < j && Warns(names, k)
    {
      var name := Lower(names[j]);
      if name in seen {
        var i :| 0 <= i < j && Lower(names[i]) == name;
        assert RepeatsEarlier(names, j);
        if !IsBlank(name) {
          assert Warns(names, j);
          warned := warned + [j];
        }
      } else {
        assert !Warns(names, j);
        seen := seen + {name};
      }
      j := j + 1;
    }
  }

  /** A name made only of the separator U+001C strips to nothing, so repeating it draws no warning. */
  lemma SeparatorNameIsBlank()
    ensures !Warns(["\U{001C}", "\U{001C}"], 1)
  {
    assert IsBlank(Lower("\U{001C}"));
  }
}

=== FILE: responses.dfy ===
/**
 * The response `_get_online_features` builds in place: a list of output
 * names and, index-aligned with it, one feature vector per name.  Echo
 * columns (join keys and request data) are appended first, then one vector
 * per requested feature of each feature view, and finally the entries
 * nobody asked for are deleted.
 */
module Responses {
  import opened Base
  import opened Dicts
  import opened Views
  import opened Indexing
  import opened Scatter
  import opened OnlineRead
  import opened Selection
  import FeatureRefs

  // ---------------------------------------------------------------------
  // Echo columns
  // ---------------------------------------------------------------------

  /** The first key of `b` that `a` also has, in `b`'s order. */
  function SharedKey<V>(a: Dict<V>, b: Dict<V>): Option<string>
  {
    if b == [] then None
    else if b[0].0 in Keys(a) then Some(b[0].0)
    else SharedKey(a, b[1..])
  }

  /**
   * `dict(**join_key_values, **request_data_features)`: the two dicts one
   * after the other; a key in both is a repeated keyword argument, a
   * TypeError naming the first such key of the second dict.
   */
  function MergeEcho(a: Dict<seq<Value>>, b: Dict<seq<Value>>): Result<Dict<seq<Value>>>
  {
    match SharedKey(a, b)
    case Some(k) => Err(DuplicateEchoColumn(k))
    case None => Ok(a + b)
  }

  lemma {:induction false} SharedKeySpec<V>(a: Dict<V>, b: Dict<V>)
    ensures SharedKey(a, b).None? <==> forall k :: k in Keys(b) ==> k !in Keys(a)
    ensures SharedKey(a, b).Some? ==> SharedKey(a, b).value in Keys(a) && SharedKey(a, b).value in Keys(b)
  {
    if b != [] {
      SharedKeySpec(a, b[1..]);
      assert Keys(b) == [b[0].0] + Keys(b[1..]);
      if b[0].0 !in Keys(a) {
        assert (forall k :: k in Keys(b) ==> k !in Keys(a)) <==> (forall k :: k in Keys(b[1..]) ==> k !in Keys(a));
      }
    }
  }

  lemma {:induction false} GetConcat<V>(a: Dict<V>, b: Dict<V>, k: string)
    ensures Get(a + b, k) == if k in Keys(a) then Get(a, k) else Get(b, k)
  {
    if a == [] {
      assert a + b == b;
    } else {
      assert (a + b)[0] == a[0];
      assert (a + b)[1..] == a[1..] + b;
      GetConcat(a[1..], b, k);
      assert Keys(a) == [a[0].0] + Keys(a[1..]);
    }
  }

  /**
   * Merging fails exactly when the dicts share a key, naming a shared key;
   * otherwise the join keys come first, then the request data, each keeping
   * its values, and two well-formed dicts give a well-formed one.
   */
  lemma MergeEchoSpec(a: Dict<seq<Value>>, b: Dict<seq<Value>>)
    ensures var r := MergeEcho(a, b);
            && (r.Ok? <==> forall k :: k in Keys(b) ==> k !in Keys(a))
            && (r.Err? ==> r.error.DuplicateEchoColumn? && r.error.name in Keys(a) && r.error.name in Keys(b))
            && (r.Ok? ==> Keys(r.value) == Keys(a) + Keys(b))
            && (r.Ok? ==> forall k :: Get(r.value, k) == if k in Keys(a) then Get(a, k) else Get(b, k))
            && (r.Ok? && WellFormed(a) && WellFormed(b) ==> WellFormed(r.value))
  {
    SharedKeySpec(a, b);
    var r := MergeEcho(a, b);
    if r.Ok? {
      assert Keys(a + b) == Keys(a) + Keys(b);
      forall k ensures Get(a + b, k) == if k in Keys(a) then Get(a, k) else Get(b, k) {
        GetConcat(a, b, k);
      }
      if WellFormed(a) && WellFormed(b) {
        DisjointConcatWellFormed(a, b);
      }
    }
  }

  lemma DisjointConcatWellFormed<V>(a: Dict<V>, b: Dict<V>)
    requires WellFormed(a) && WellFormed(b)
    requires forall k :: k in Keys(b) ==> k !in Keys(a)
    ensures WellFormed(a + b)
  {
    var ks, ka, kb := Keys(a + b), Keys(a), Keys(b);
    forall x, y | 0 <= x < y < |ks| ensures ks[x] != ks[y] {
      if y < |a| {
        assert ks[x] == (a + b)[x].0 == ka[x];
        assert ks[y] == (a + b)[y].0 == ka[y];
      } else if x >= |a| {
        assert ks[x] == (a + b)[x].0 == kb[x - |a|];
        assert ks[y] == (a + b)[y].0 == kb[y - |a|];
      } else {
        assert ks[x] == (a + b)[x].0 == ka[x];
        assert ks[y] == (a + b)[y].0 == kb[y - |a|];
        assert ks[y] in kb;
        assert ks[y] !in ka;
      }
    }
  }

  /** The vector of an echo column: its own values, all `PRESENT`, all stamped with the epoch. */
  ghost predicate IsEcho(v: FeatureVector, values: seq<Value>) {
    && v.values == values
    && v.HasRows(|values|)
    && (forall k :: 0 <= k < |values| ==> v.statuses[k] == Present && v.eventTimestamps[k] == Epoch)
  }

  // ---------------------------------------------------------------------
  // Feature columns
  // ---------------------------------------------------------------------

  /** The output name of feature `f` of `table`: `name_to_use()__f` with full feature names, `f` otherwise. */
  function OutputName(table: FeatureView, fullFeatureNames: bool, f: string): string
  {
    FeatureRefs.ResponseName(table.projection.NameToUse(), f, fullFeatureNames)
  }

  /** Distinct features of one view get distinct output names, in either naming mode. */
  lemma OutputNameInjective(table: FeatureView, fullFeatureNames: bool, f: string, g: string)
    requires f != g
    ensures OutputName(table, fullFeatureNames, f) != OutputName(table, fullFeatureNames, g)
  {
    if fullFeatureNames {
      var prefix := table.projection.NameToUse() + "__";
      assert table.projection.NameToUse() + "__" + f == prefix + f;
      assert table.projection.NameToUse() + "__" + g == prefix + g;
      assert (prefix + f)[|prefix|..] == f;
      assert (prefix + g)[|prefix|..] == g;
    }
  }

  /**
   * The vector for feature `j` carries, at every row a unique entity key
   * occurs at, that key's timestamp, status and value for the feature.
   */
  ghost predicate Delivers(v: FeatureVector, featureData: seq<RowData>, indexes: seq<seq<nat>>, j: nat, n: nat)
    requires |featureData| == |indexes|
  {
    && v.HasRows(n)
    && forall i, idx :: 0 <= i < |indexes| && idx in indexes[i] && HasFeature(featureData[i], j) ==>
         && idx < n
         && v.values[idx] == featureData[i].values[j]
         && v.statuses[idx] == featureData[i].statuses[j]
         && v.eventTimestamps[idx] == featureData[i].timestamps[j]
  }

  /** The row holds an entry for feature `j` in all three lists. */
  predicate HasFeature(d: RowData, j: nat) {
    j < |d.timestamps| && j < |d.statuses| && j < |d.values|
  }

  /** Every vector `vs[j]` delivers feature `j`. */
  ghost predicate DeliversAll(vs: seq<FeatureVector>, featureData: seq<RowData>, indexes: seq<seq<nat>>, n: nat)
    requires |featureData| == |indexes|
  {
    forall j :: 0 <= j < |vs| ==> Delivers(vs[j], featureData, indexes, j, n)
  }

  /** The three scattered columns of feature `j` make a vector that delivers it. */
  lemma ScatteredDelivers(featureData: seq<RowData>, indexes: seq<seq<nat>>, n: nat, j: nat,
                          cv: seq<Value>, cs: seq<Status>, ct: seq<Timestamp>,
                          v: seq<Value>, s: seq<Status>, t: seq<Timestamp>)
    requires |featureData| == |indexes| == |cv| == |cs| == |ct|
    requires forall i :: 0 <= i < |featureData| ==>
               && j < |featureData[i].timestamps| && j < |featureData[i].statuses| && j < |featureData[i].values|
               && cv[i] == featureData[i].values[j] && cs[i] == featureData[i].statuses[j] && ct[i] == featureData[i].timestamps[j]
    requires |v| == n && |s| == n && |t| == n
    requires forall i, idx :: 0 <= i < |indexes| && idx in indexes[i] ==> idx < n
    requires forall i, idx :: 0 <= i < |indexes| && idx in indexes[i] ==> v[idx] == cv[i]
    requires forall i, idx :: 0 <= i < |indexes| && idx in indexes[i] ==> s[idx] == cs[i]
    requires forall i, idx :: 0 <= i < |indexes| && idx in indexes[i] ==> t[idx] == ct[i]
    ensures Delivers(FeatureVector(v, s, t), featureData, indexes, j, n)
  {
  }

  lemma DeliversSnoc(vs: seq<FeatureVector>, featureData: seq<RowData>, indexes: seq<seq<nat>>, n: nat, v: FeatureVector)
    requires |featureData| == |indexes|
    requires DeliversAll(vs, featureData, indexes, n) && Delivers(v, featureData, indexes, |vs|, n)
    ensures DeliversAll(vs + [v], featureData, indexes, n)
  {
    assert forall j :: 0 <= j < |vs| ==> (vs + [v])[j] == vs[j];
  }

  /** One column of the transposed feature data: entry `j` of every unique key's row. */
  function Column<T>(rows: seq<seq<T>>, j: nat): (c: seq<T>)
    requires forall i :: 0 <= i < |rows| ==> j < |rows[i]|
    ensures |c| == |rows| && forall i :: 0 <= i < |rows| ==> c[i] == rows[i][j]
  {
    seq(|rows|, i requires 0 <= i < |rows| => rows[i][j])
  }

  // ---------------------------------------------------------------------
  // The response
  // ---------------------------------------------------------------------

  /** `GetOnlineFeaturesResponse`: the output names and their vectors. */
  class OnlineFeaturesResponse {
    var featureNames: seq<string>
    var results: seq<FeatureVector>

    /** Names and vectors are index-aligned. */
    ghost predicate Valid()
      reads this
    {
      |featureNames| == |results|
    }

    /** `GetOnlineFeaturesResponse(results=[])`. */
    constructor ()
      ensures featureNames == [] && results == []
      ensures Valid()
    {
      featureNames := [];
      results := [];
    }

    /** `_populate_result_rows_from_columnar`: one echo vector per column, in column order. */
    method PopulateFromColumnar(data: Dict<seq<Value>>)
      modifies this
      ensures featureNames == old(featureNames) + Keys(data)
      ensures |results| == |old(results)| + |data| && results[..|old(results)|] == old(results)
      ensures forall i :: 0 <= i < |data| ==> IsEcho(results[|old(results)| + i], data[i].1)
      ensures old(Valid()) ==> Valid()
    {
      ghost var start := |results|;
      for i := 0 to |data|
        invariant featureNames == old(featureNames) + Keys(data[..i])
        invariant |results| == start + i && results[..start] == old(results)
        invariant forall a :: 0 <= a < i ==> IsEcho(results[start + a], data[a].1)
      {
        var (name, values) := data[i];
        assert Keys(data[..i + 1]) == Keys(data[..i]) + [name];
        featureNames := featureNames + [name];
        results := results + [FeatureVector(values, seq(|values|, _ => Present), seq(|values|, _ => Epoch))];
      }
      assert data[..|data|] == data;
    }

    /**
     * `_populate_response_from_feature_data`: the output names of the
     * requested features, then, per feature, the read results scattered
     * back to every row.  The names are added before the rows are
     * unpacked, so with no rows at all the names are there and the call
     * fails.
     */
    method PopulateFromFeatureData(featureData: seq<RowData>, indexes: seq<seq<nat>>, ghost n: nat,
                                   fullFeatureNames: bool, requested: seq<string>, table: FeatureView)
      returns (r: Result<()>)
      requires |featureData| == |indexes| && Partitions(indexes, n)
      requires forall i :: 0 <= i < |featureData| ==> featureData[i].Aligned(|requested|)
      modifies this
      ensures |featureNames| == |old(featureNames)| + |requested| && featureNames[..|old(featureNames)|] == old(featureNames)
      ensures forall j :: 0 <= j < |requested| ==> featureNames[|old(featureNames)| + j] == OutputName(table, fullFeatureNames, requested[j])
      ensures r.Err? <==> featureData == []
      ensures r.Err? ==> r.error == NoFeatureData && results == old(results)
      ensures r.Ok? ==> |results| == |old(results)| + |requested| && results[..|old(results)|] == old(results)
      ensures r.Ok? ==> DeliversAll(results[|old(results)|..], featureData, indexes, n)
      ensures r.Ok? && old(Valid()) ==> Valid()
    {
      var names := seq(|requested|, j requires 0 <= j < |requested| => OutputName(table, fullFeatureNames, requested[j]));
      featureNames := featureNames + names;
      if featureData == [] {
        return Err(NoFeatureData);
      }
      var timestamps := seq(|featureData|, i requires 0 <= i < |featureData| => featureData[i].timestamps);
      var statuses := seq(|featureData|, i requires 0 <= i < |featureData| => featureData[i].statuses);
      var values := seq(|featureData|, i requires 0 <= i < |featureData| => featureData[i].values);
      ghost var start := |results|;
      PartitionFacts(indexes, n);
      for j := 0 to |requested|
        invariant featureNames == old(featureNames) + names
        invariant |results| == start + j && results[..start] == old(results)
        invariant DeliversAll(results[start..], featureData, indexes, n)
      {
        var cv, cs, ct := Column(values, j), Column(statuses, j), Column(timestamps, j);
        var v := ScatterPartition(cv, indexes, n);
        var s := ScatterPartition(cs, indexes, n);
        var t := ScatterPartition(ct, indexes, n);
        ScatteredDelivers(featureData, indexes, n, j, cv, cs, ct, v, s, t);
        DeliversSnoc(results[start..], featureData, indexes, n, FeatureVector(v, s, t));
        assert (results + [FeatureVector(v, s, t)])[start..] == results[start..] + [FeatureVector(v, s, t)];
        results := results + [FeatureVector(v, s, t)];
      }
      return Ok(());
    }

    /**
     * `_drop_unneeded_columns`: collects the positions of names not
     * requested, then deletes them from both lists, last position first.
     */
    method DropUnneededColumns(requestedNames: set<string>)
      requires Valid()
      modifies this
      ensures Valid()
      ensures featureNames == Select(old(featureNames), Kept(old(featureNames), requestedNames))
      ensures results == Select(old(results), Kept(old(featureNames), requestedNames))
    {
      ghost var names0, results0 := featureNames, results;
      var unneeded := UnneededIndices(featureNames, requestedNames);
      DropStart(names0, results0, requestedNames);
      var j := |unneeded|;
      while j > 0
        invariant 0 <= j <= |unneeded|
        invariant featureNames == Select(names0, Mask(|names0|, unneeded[j..]))
        invariant results == Select(results0, Mask(|names0|, unneeded[j..]))
      {
        j := j - 1;
        var idx := unneeded[j];
        DeleteStep(names0, unneeded, j);
        DeleteStep(results0, unneeded, j);
        featureNames := featureNames[..idx] + featureNames[idx + 1..];
        results := results[..idx] + results[idx + 1..];
      }
      DropFinish(names0, results0, requestedNames);
    }
  }

  /** Before any deletion, the lists are the selection that deletes none of the unneeded positions. */
  lemma DropStart(names: seq<string>, results: seq<FeatureVector>, requestedNames: set<string>)
    requires |names| == |results|
    ensures var ps := UnneededIndices(names, requestedNames);
            && StrictlyAscending(ps)
            && (forall a :: 0 <= a < |ps| ==> ps[a] < |names|)
            && names == Select(names, Mask(|names|, ps[|ps|..]))
            && results == Select(results, Mask(|names|, ps[|ps|..]))
  {
    var ps := UnneededIndices(names, requestedNames);
    PositionsSpec(Unrequested(names, requestedNames));
    assert ps[|ps|..] == [];
    SelectAll(names, Mask(|names|, []));
    SelectAll(results, Mask(|names|, []));
  }

  /** Deleting every unneeded position keeps exactly the requested entries, and the two lists stay aligned. */
  lemma DropFinish(names: seq<string>, results: seq<FeatureVector>, requestedNames: set<string>)
    requires |names| == |results|
    ensures var ps := UnneededIndices(names, requestedNames);
            && ps[0..] == ps
            && Mask(|names|, ps) == Kept(names, requestedNames)
            && |Select(names, Kept(names, requestedNames))| == |Select(results, Kept(names, requestedNames))|
  {
    var ps := UnneededIndices(names, requestedNames);
    PositionsSpec(Unrequested(names, requestedNames));
    assert ps[0..] == ps;
    SelectAtPositions(names, Kept(names, requestedNames));
    SelectAtPositions(results, Kept(names, requestedNames));
  }

  /** Which entries `_drop_unneeded_columns` keeps: those whose name was requested. */
  function Kept(names: seq<string>, requestedNames: set<string>): (keep: seq<bool>)
    ensures |keep| == |names|
  {
    seq(|names|, i requires 0 <= i < |names| => names[i] in requestedNames)
  }

  /** Which entries it deletes. */
  function Unrequested(names: seq<string>, requestedNames: set<string>): (drop: seq<bool>)
    ensures |drop| == |names|
  {
    seq(|names|, i requires 0 <= i < |names| => names[i] !in requestedNames)
  }

  /** `[idx for idx, val in enumerate(names) if val not in requested_result_row_names]`. */
  function UnneededIndices(names: seq<string>, requestedNames: set<string>): seq<nat>
  {
    Positions(Unrequested(names, requestedNames))
  }

  /**
   * What dropping promises: every surviving name was requested; names and
   * vectors stay aligned, both taken from the same original positions in
   * their original order; and no requested entry is lost.
   */
  lemma DropSpec(names: seq<string>, results: seq<FeatureVector>, requestedNames: set<string>)
    requires |names| == |results|
    ensures var keep := Kept(names, requestedNames);
            var ps := Positions(keep);
            && |Select(names, keep)| == |ps| && |Select(results, keep)| == |ps|
            && StrictlyAscending(ps)
            && (forall a :: 0 <= a < |ps| ==> ps[a] < |names| && Select(names, keep)[a] == names[ps[a]] && Select(results, keep)[a] == results[ps[a]])
            && (forall a :: 0 <= a < |ps| ==> Select(names, keep)[a] in requestedNames)
            && (forall i: nat :: i < |names| && names[i] in requestedNames ==> i in ps)
  {
    var keep := Kept(names, requestedNames);
    var ps := Positions(keep);
    PositionsSpec(keep);
    SelectAtPositions(names, keep);
    SelectAtPositions(results, keep);
    forall a | 0 <= a < |ps| ensures Select(names, keep)[a] in requestedNames {
      assert ps[a] in ps;
    }
  }
}

=== FILE: routing.dfy ===
/**
 * Routing of the caller's entity columns (`_get_online_features`): each
 * column is request data, a join key, or an entity name standing for its
 * join key; anything else is an unknown entity.  Also the request-data
 * bookkeeping around it (`get_needed_request_data`,
 * `ensure_request_data_values_exist`) and the placeholder column of
 * entityless feature views.
 */
module Routing {
  import opened Base
  import opened Dicts
  import opened Views

  type Column = seq<Value>

  /**
   * What the routing loop consults: the request fields on-demand views need,
   * the features of requested request views, the known join keys and the map
   * from entity names to join keys.
   */
  datatype Lookups = Lookups(neededRequestData: set<string>, neededRequestFvFeatures: set<string>, joinKeys: set<string>, entityToJoinKey: map<string, string>)
  {
    /** The column is request data. */
    predicate Needed(name: string) {
      name in neededRequestData || name in neededRequestFvFeatures
    }
  }

  /** Where one input column goes. */
  datatype Destination = ToRequestData | ToJoinKey(joinKey: string)

  /** The branch the loop takes for the column `name`. */
  function DestinationOf(lk: Lookups, name: string): Result<Destination>
  {
    if lk.Needed(name) then Ok(ToRequestData)
    else if name in lk.joinKeys then Ok(ToJoinKey(name))
    else if name in lk.entityToJoinKey then Ok(ToJoinKey(lk.entityToJoinKey[name]))
    else Err(EntityNotFound(name))
  }

  /** The three things the loop fills: `join_key_values`, `request_data_features` and the requested result names. */
  datatype Routed = Routed(joinKeyValues: Dict<Column>, requestData: Dict<Column>, requested: set<string>)

  /** One iteration of the loop. */
  function RouteOne(lk: Lookups, st: Routed, name: string, values: Column): Result<Routed>
  {
    var d :- DestinationOf(lk, name);
    match d
    case ToRequestData =>
      var requested := if name in lk.neededRequestFvFeatures then st.requested + {name} else st.requested;
      Ok(Routed(st.joinKeyValues, Put(st.requestData, name, values), requested))
    case ToJoinKey(jk) =>
      Ok(Routed(Put(st.joinKeyValues, jk, values), st.requestData, st.requested + {jk}))
  }

  /** The whole loop over the input columns, in order, starting from the requested names `requested`. */
  function Route(lk: Lookups, input: Dict<Column>, requested: set<string>): Result<Routed>
  {
    if input == [] then Ok(Routed([], [], requested))
    else
      var st :- Route(lk, input[..|input| - 1], requested);
      RouteOne(lk, st, input[|input| - 1].0, input[|input| - 1].1)
  }

  // ---------------------------------------------------------------------
  // Independent descriptions of the outcome
  // ---------------------------------------------------------------------

  /** The input columns routed to request data, in input order. */
  function RequestNames(lk: Lookups, input: Dict<Column>): seq<string>
  {
    if input == [] then []
    else RequestNames(lk, input[..|input| - 1]) + (if lk.Needed(input[|input| - 1].0) then [input[|input| - 1].0] else [])
  }

  /** The join keys the input columns are routed to, in input order (with repeats). */
  function JoinKeysRouted(lk: Lookups, input: Dict<Column>): seq<string>
  {
    if input == [] then []
    else
      var d := DestinationOf(lk, input[|input| - 1].0);
      JoinKeysRouted(lk, input[..|input| - 1]) + (if d.Ok? && d.value.ToJoinKey? then [d.value.joinKey] else [])
  }

  /** The names the loop adds to the requested result names: request-view features supplied, and routed join keys. */
  function Added(lk: Lookups, input: Dict<Column>): set<string>
  {
    if input == [] then {}
    else
      var name := input[|input| - 1].0;
      var d := DestinationOf(lk, name);
      Added(lk, input[..|input| - 1]) +
        (if d.Ok? && d.value.ToJoinKey? then {d.value.joinKey}
         else if d.Ok? && name in lk.neededRequestFvFeatures then {name}
         else {})
  }

  /** The added names: every join key some column is routed to, and every request-view feature supplied. */
  lemma {:induction false} AddedMembers(lk: Lookups, input: Dict<Column>, n: string)
    ensures n in Added(lk, input) <==>
            exists i :: 0 <= i < |input| && (DestinationOf(lk, input[i].0) == Ok(ToJoinKey(n)) || (input[i].0 == n && n in lk.neededRequestFvFeatures))
  {
    if input != [] {
      var init := input[..|input| - 1];
      AddedMembers(lk, init, n);
      if exists i :: 0 <= i < |init| && (DestinationOf(lk, init[i].0) == Ok(ToJoinKey(n)) || (init[i].0 == n && n in lk.neededRequestFvFeatures)) {
        var i :| 0 <= i < |init| && (DestinationOf(lk, init[i].0) == Ok(ToJoinKey(n)) || (init[i].0 == n && n in lk.neededRequestFvFeatures));
        assert input[i] == init[i];
      }
      if exists i :: 0 <= i < |input| && (DestinationOf(lk, input[i].0) == Ok(ToJoinKey(n)) || (input[i].0 == n && n in lk.neededRequestFvFeatures)) {
        var i :| 0 <= i < |input| && (DestinationOf(lk, input[i].0) == Ok(ToJoinKey(n)) || (input[i].0 == n && n in lk.neededRequestFvFeatures));
        if i < |init| {
          assert input[i] == init[i];
        }
      }
    }
  }

  /** Every input column has a destination. */
  ghost predicate AllRoutable(lk: Lookups, input: Dict<Column>) {
    forall i :: 0 <= i < |input| ==> DestinationOf(lk, input[i].0).Ok?
  }

  /** Column `i` is the first one without a destination. */
  ghost predicate FirstUnroutable(lk: Lookups, input: Dict<Column>, i: nat) {
    i < |input| && DestinationOf(lk, input[i].0).Err? &&
    forall j :: 0 <= j < i ==> DestinationOf(lk, input[j].0).Ok?
  }

  /** The state the loop reaches when every column routes. */
  ghost predicate Describes(lk: Lookups, input: Dict<Column>, requested: set<string>, st: Routed) {
    && Keys(st.joinKeyValues) == Distinct(JoinKeysRouted(lk, input))
    && Keys(st.requestData) == Distinct(RequestNames(lk, input))
    && st.requested == requested + Added(lk, input)
  }

  lemma AllRoutableSnoc(lk: Lookups, input: Dict<Column>)
    requires input != []
    ensures AllRoutable(lk, input) <==>
            AllRoutable(lk, input[..|input| - 1]) && DestinationOf(lk, input[|input| - 1].0).Ok?
  {
    var init := input[..|input| - 1];
    assert forall j :: 0 <= j < |init| ==> init[j] == input[j];
  }

  /** The last iteration of `Route`. */
  lemma RouteLast(lk: Lookups, input: Dict<Column>, requested: set<string>)
    requires input != [] && Route(lk, input, requested).Ok?
    ensures Route(lk, input[..|input| - 1], requested).Ok?
    ensures Route(lk, input, requested) ==
            RouteOne(lk, Route(lk, input[..|input| - 1], requested).value, input[|input| - 1].0, input[|input| - 1].1)
  {
  }

  /** `Distinct` of a sequence one longer. */
  lemma DistinctSnoc(s: seq<string>, x: string)
    ensures Distinct(s + [x]) == if x in Distinct(s) then Distinct(s) else Distinct(s) + [x]
  {
    assert (s + [x])[..|s|] == s;
  }

  /** The join-key dict's keys after one iteration. */
  lemma RouteOneJoinKeys(lk: Lookups, st: Routed, name: string, values: Column)
    requires DestinationOf(lk, name).Ok?
    ensures RouteOne(lk, st, name, values).Ok?
    ensures var d := DestinationOf(lk, name).value;
            var ks := Keys(st.joinKeyValues);
            Keys(RouteOne(lk, st, name, values).value.joinKeyValues) ==
              if d.ToJoinKey? && d.joinKey !in ks then ks + [d.joinKey] else ks
  {
  }

  /** The join-key dict's keys after one more routable column. */
  lemma JoinKeysStep(lk: Lookups, input: Dict<Column>, st: Routed)
    requires input != [] && DestinationOf(lk, input[|input| - 1].0).Ok?
    requires Keys(st.joinKeyValues) == Distinct(JoinKeysRouted(lk, input[..|input| - 1]))
    ensures RouteOne(lk, st, input[|input| - 1].0, input[|input| - 1].1).Ok?
    ensures Keys(RouteOne(lk, st, input[|input| - 1].0, input[|input| - 1].1).value.joinKeyValues) == Distinct(JoinKeysRouted(lk, input))
  {
    var init, name := input[..|input| - 1], input[|input| - 1].0;
    var d := DestinationOf(lk, name).value;
    RouteOneJoinKeys(lk, st, name, input[|input| - 1].1);
    var jr := JoinKeysRouted(lk, init);
    if d.ToJoinKey? {
      assert JoinKeysRouted(lk, input) == jr + [d.joinKey];
      DistinctSnoc(jr, d.joinKey);
    } else {
      assert JoinKeysRouted(lk, input) == jr + [];
      assert jr + [] == jr;
    }
  }

  /** The request-data dict's keys after one more routable column. */
  lemma RequestKeysStep(lk: Lookups, input: Dict<Column>, st: Routed)
    requires input != [] && DestinationOf(lk, input[|input| - 1].0).Ok?
    requires Keys(st.requestData) == Distinct(RequestNames(lk, input[..|input| - 1]))
    ensures RouteOne(lk, st, input[|input| - 1].0, input[|input| - 1].1).Ok?
    ensures Keys(RouteOne(lk, st, input[|input| - 1].0, input[|input| - 1].1).value.requestData) == Distinct(RequestNames(lk, input))
  {
    var init, name := input[..|input| - 1], input[|input| - 1].0;
    if lk.Needed(name) {
      assert RequestNames(lk, input) == RequestNames(lk, init) + [name];
      DistinctSnoc(RequestNames(lk, init), name);
    } else {
      assert RequestNames(lk, input) == RequestNames(lk, init) + [];
      assert RequestNames(lk, init) + [] == RequestNames(lk, init);
    }
  }

  /** The requested names after one more routable column. */
  lemma RequestedStep(lk: Lookups, input: Dict<Column>, requested: set<string>, st: Routed)
    requires input != [] && DestinationOf(lk, input[|input| - 1].0).Ok?
    requires st.requested == requested + Added(lk, input[..|input| - 1])
    ensures RouteOne(lk, st, input[|input| - 1].0, input[|input| - 1].1).Ok?
    ensures RouteOne(lk, st, input[|input| - 1].0, input[|input| - 1].1).value.requested == requested + Added(lk, input)
  {
  }

  /**
   * The loop succeeds exactly when every column has a destination; then the
   * join-key dict holds each routed join key once, in order of first
   * routing, the request-data dict holds each request column, and the
   * requested names gain exactly the request-view features supplied and
   * every routed join key.
   */
  lemma {:induction false} RouteOutcome(lk: Lookups, input: Dict<Column>, requested: set<string>)
    ensures Route(lk, input, requested).Ok? <==> AllRoutable(lk, input)
    ensures Route(lk, input, requested).Ok? ==> Describes(lk, input, requested, Route(lk, input, requested).value)
  {
    if input != [] {
      var init := input[..|input| - 1];
      AllRoutableSnoc(lk, input);
      RouteOutcome(lk, init, requested);
      if Route(lk, init, requested).Ok? && DestinationOf(lk, input[|input| - 1].0).Ok? {
        var st := Route(lk, init, requested).value;
        JoinKeysStep(lk, input, st);
        RequestKeysStep(lk, input, st);
        RequestedStep(lk, input, requested, st);
      }
    }
  }

  /** Once a prefix fails, the whole loop fails the same way. */
  lemma {:induction false} RoutePrefixErr(lk: Lookups, input: Dict<Column>, requested: set<string>, j: nat)
    requires j <= |input| && Route(lk, input[..j], requested).Err?
    ensures Route(lk, input, requested) == Route(lk, input[..j], requested)
  {
    if j < |input| {
      var init := input[..|input| - 1];
      assert init[..j] == input[..j];
      RoutePrefixErr(lk, init, requested, j);
    } else {
      assert input[..j] == input;
    }
  }

  /** The loop stops at the first column without a destination and names it. */
  lemma RouteFailsAt(lk: Lookups, input: Dict<Column>, requested: set<string>, i: nat)
    requires FirstUnroutable(lk, input, i)
    ensures Route(lk, input, requested) == Err(EntityNotFound(input[i].0))
  {
    var prefix := input[..i];
    assert AllRoutable(lk, prefix) by {
      forall j | 0 <= j < i ensures prefix[j] == input[j] { }
    }
    RouteOutcome(lk, prefix, requested);
    assert input[..i + 1][..i] == prefix;
    RoutePrefixErr(lk, input, requested, i + 1);
  }

  // ---------------------------------------------------------------------
  // The loop itself
  // ---------------------------------------------------------------------

  /** Column `i` is the last one routed to the join key `jk`. */
  ghost predicate LastRoutedTo(lk: Lookups, input: Dict<Column>, jk: string, i: nat) {
    i < |input| && DestinationOf(lk, input[i].0) == Ok(ToJoinKey(jk)) &&
    forall j :: i < j < |input| ==> DestinationOf(lk, input[j].0) != Ok(ToJoinKey(jk))
  }

  /** A prefix that fails at its last column. */
  lemma RouteStuck(lk: Lookups, input: Dict<Column>, requested: set<string>, i: nat)
    requires i < |input| && Route(lk, input[..i], requested).Ok?
    requires DestinationOf(lk, input[i].0).Err?
    ensures Route(lk, input, requested) == Err(EntityNotFound(input[i].0))
  {
    assert input[..i + 1][..i] == input[..i];
    RoutePrefixErr(lk, input, requested, i + 1);
  }

  /** `Route` over one more column. */
  lemma RouteSnoc(lk: Lookups, input: Dict<Column>, requested: set<string>, i: nat)
    requires i < |input| && Route(lk, input[..i], requested).Ok?
    ensures Route(lk, input[..i + 1], requested) == RouteOne(lk, Route(lk, input[..i], requested).value, input[i].0, input[i].1)
  {
    assert input[..i + 1][..i] == input[..i];
  }

  /** The routing loop of `_get_online_features`, over `entity_proto_values`. */
  method RouteEntityColumns(lk: Lookups, input: Dict<Column>, requested: set<string>) returns (r: Result<Routed>)
    ensures r == Route(lk, input, requested)
  {
    var joinKeyValues: Dict<Column> := [];
    var requestData: Dict<Column> := [];
    var names := requested;
    for i := 0 to |input|
      invariant Route(lk, input[..i], requested) == Ok(Routed(joinKeyValues, requestData, names))
    {
      var (name, values) := input[i];
      RouteSnoc(lk, input, requested, i);
      if name in lk.neededRequestData || name in lk.neededRequestFvFeatures {
        if name in lk.neededRequestFvFeatures {
          names := names + {name};
        }
        requestData := Put(requestData, name, values);
      } else {
        var joinKey;
        if name in lk.joinKeys {
          joinKey := name;
        } else if name in lk.entityToJoinKey {
          joinKey := lk.entityToJoinKey[name];
        } else {
          RouteStuck(lk, input, requested, i);
          return Err(EntityNotFound(name));
        }
        names := names + {joinKey};
        joinKeyValues := Put(joinKeyValues, joinKey, values);
      }
    }
    assert input[..|input|] == input;
    return Ok(Routed(joinKeyValues, requestData, names));
  }

  // ---------------------------------------------------------------------
  // Values carried over
  // ---------------------------------------------------------------------

  /** One iteration, as seen from one request column. */
  lemma RouteOneRequestData(lk: Lookups, st: Routed, name: string, values: Column, k: string)
    requires RouteOne(lk, st, name, values).Ok?
    ensures Get(RouteOne(lk, st, name, values).value.requestData, k) ==
            if k == name && lk.Needed(name) then Some(values) else Get(st.requestData, k)
  {
    if lk.Needed(name) {
      assert RouteOne(lk, st, name, values).value.requestData == Put(st.requestData, name, values);
    } else {
      assert RouteOne(lk, st, name, values).value.requestData == st.requestData;
    }
  }

  /** One iteration, as seen from one join key. */
  lemma RouteOneJoinKey(lk: Lookups, st: Routed, name: string, values: Column, jk: string)
    requires RouteOne(lk, st, name, values).Ok?
    ensures Get(RouteOne(lk, st, name, values).value.joinKeyValues, jk) ==
            if DestinationOf(lk, name) == Ok(ToJoinKey(jk)) then Some(values) else Get(st.joinKeyValues, jk)
  {
    var d := DestinationOf(lk, name).value;
    if d.ToJoinKey? {
      assert RouteOne(lk, st, name, values).value.joinKeyValues == Put(st.joinKeyValues, d.joinKey, values);
    } else {
      assert RouteOne(lk, st, name, values).value.joinKeyValues == st.joinKeyValues;
    }
  }

  /** Values in the request-data dict: each needed column's own values, nothing else. */
  lemma {:induction false} RequestDataValues(lk: Lookups, input: Dict<Column>, requested: set<string>, k: string)
    requires WellFormed(input) && Route(lk, input, requested).Ok?
    ensures Get(Route(lk, input, requested).value.requestData, k) == if lk.Needed(k) then Get(input, k) else None
  {
    if input != [] {
      var init, last := input[..|input| - 1], input[|input| - 1];
      assert input == init + [last];
      InitWellFormed(input);
      RouteLast(lk, input, requested);
      RequestDataValues(lk, init, requested, k);
      RouteOneRequestData(lk, Route(lk, init, requested).value, last.0, last.1, k);
      GetSnoc(init, last, k);
      if k == last.0 {
        LastKeyFresh(input);
      }
    }
  }

  /** Dropping the last entry of a well-formed dict keeps it well-formed. */
  lemma InitWellFormed<V>(d: Dict<V>)
    requires d != [] && WellFormed(d)
    ensures WellFormed(d[..|d| - 1])
  {
    var init := d[..|d| - 1];
    forall a, b | 0 <= a < b < |init| ensures Keys(init)[a] != Keys(init)[b] {
      assert Keys(d)[a] != Keys(d)[b];
    }
  }

  /** The last key of a well-formed dict does not occur before it. */
  lemma LastKeyFresh<V>(d: Dict<V>)
    requires d != [] && WellFormed(d)
    ensures d[|d| - 1].0 !in Keys(d[..|d| - 1])
  {
    var init := d[..|d| - 1];
    forall a | 0 <= a < |init| ensures Keys(init)[a] != d[|d| - 1].0 {
      assert Keys(d)[a] != Keys(d)[|d| - 1];
    }
  }

  /**
   * Values in the join-key dict: when an entity name and its join key (or two
   * aliases of one key) are both given, the column read last wins.
   */
  lemma {:induction false} JoinKeyValuesLast(lk: Lookups, input: Dict<Column>, requested: set<string>, jk: string, i: nat)
    requires Route(lk, input, requested).Ok? && LastRoutedTo(lk, input, jk, i)
    ensures Get(Route(lk, input, requested).value.joinKeyValues, jk) == Some(input[i].1)
  {
    var init, last := input[..|input| - 1], input[|input| - 1];
    RouteLast(lk, input, requested);
    RouteOneJoinKey(lk, Route(lk, init, requested).value, last.0, last.1, jk);
    if i < |init| {
      assert LastRoutedTo(lk, init, jk, i) by {
        forall j | i < j < |init| ensures DestinationOf(lk, init[j].0) != Ok(ToJoinKey(jk)) {
          assert init[j] == input[j];
        }
      }
      JoinKeyValuesLast(lk, init, requested, jk, i);
    }
  }

  /** A join key no column is routed to is absent from the join-key dict. */
  lemma JoinKeyAbsent(lk: Lookups, input: Dict<Column>, requested: set<string>, jk: string)
    requires Route(lk, input, requested).Ok?
    requires forall i :: 0 <= i < |input| ==> DestinationOf(lk, input[i].0) != Ok(ToJoinKey(jk))
    ensures Get(Route(lk, input, requested).value.joinKeyValues, jk) == None
  {
    RouteOutcome(lk, input, requested);
    JoinKeysRoutedMembers(lk, input, jk);
  }

  /** The routed join keys are the join keys some column is routed to. */
  lemma {:induction false} JoinKeysRoutedMembers(lk: Lookups, input: Dict<Column>, jk: string)
    ensures jk in JoinKeysRouted(lk, input) <==> exists i :: 0 <= i < |input| && DestinationOf(lk, input[i].0) == Ok(ToJoinKey(jk))
  {
    if input != [] {
      var init := input[..|input| - 1];
      JoinKeysRoutedMembers(lk, init, jk);
      if exists i :: 0 <= i < |init| && DestinationOf(lk, init[i].0) == Ok(ToJoinKey(jk)) {
        var i :| 0 <= i < |init| && DestinationOf(lk, init[i].0) == Ok(ToJoinKey(jk));
        assert input[i] == init[i];
      }
      if exists i :: 0 <= i < |input| && DestinationOf(lk, input[i].0) == Ok(ToJoinKey(jk)) {
        var i :| 0 <= i < |input| && DestinationOf(lk, input[i].0) == Ok(ToJoinKey(jk));
        if i < |init| {
          assert input[i] == init[i];
        }
      }
    }
  }

  /** The request columns are exactly the needed ones. */
  lemma {:induction false} RequestNamesMembers(lk: Lookups, input: Dict<Column>, n: string)
    ensures n in RequestNames(lk, input) <==> lk.Needed(n) && exists i :: 0 <= i < |input| && input[i].0 == n
  {
    if input != [] {
      var init := input[..|input| - 1];
      RequestNamesMembers(lk, init, n);
      if exists i :: 0 <= i < |init| && init[i].0 == n {
        var i :| 0 <= i < |init| && init[i].0 == n;
        assert input[i] == init[i];
      }
      if exists i :: 0 <= i < |input| && input[i].0 == n {
        var i :| 0 <= i < |input| && input[i].0 == n;
        if i < |init| {
          assert input[i] == init[i];
        }
      }
    }
  }

  /**
   * Each column goes to exactly one place: a needed column to request data,
   * every other one to its join key, never both.
   */
  lemma ExactlyOneDestination(lk: Lookups, input: Dict<Column>, requested: set<string>, i: nat)
    requires Route(lk, input, requested).Ok? && i < |input|
    ensures var st := Route(lk, input, requested).value;
            var d := DestinationOf(lk, input[i].0);
            && d.Ok?
            && (input[i].0 in Keys(st.requestData) <==> lk.Needed(input[i].0))
            && (d.value.ToJoinKey? <==> !lk.Needed(input[i].0))
            && (d.value.ToJoinKey? ==> d.value.joinKey in Keys(st.joinKeyValues))
  {
    RouteOutcome(lk, input, requested);
    RequestNamesMembers(lk, input, input[i].0);
    if !lk.Needed(input[i].0) {
      JoinKeysRoutedMembers(lk, input, DestinationOf(lk, input[i].0).value.joinKey);
    }
  }

  // ---------------------------------------------------------------------
  // get_needed_request_data
  // ---------------------------------------------------------------------

  /** `get_needed_request_data`: the request fields of the grouped on-demand views, and the features of the grouped request views. */
  method GetNeededRequestData(onDemand: seq<(OnDemandFeatureView, set<string>)>, request: seq<(RequestFeatureView, set<string>)>)
    returns (neededRequestData: set<string>, neededRequestFvFeatures: set<string>)
    ensures forall n :: n in neededRequestData <==> exists i :: 0 <= i < |onDemand| && n in onDemand[i].0.requestSchema
    ensures forall n :: n in neededRequestFvFeatures <==> exists i :: 0 <= i < |request| && n in request[i].0.features
  {
    neededRequestData := {};
    for i := 0 to |onDemand|
      invariant forall n :: n in neededRequestData <==> exists a :: 0 <= a < i && n in onDemand[a].0.requestSchema
    {
      neededRequestData := neededRequestData + set n | n in onDemand[i].0.requestSchema;
    }
    neededRequestFvFeatures := {};
    for i := 0 to |request|
      invariant forall n :: n in neededRequestFvFeatures <==> exists a :: 0 <= a < i && n in request[a].0.features
    {
      var features := request[i].0.features;
      for f := 0 to |features|
        invariant forall n :: n in neededRequestFvFeatures <==>
                    (exists a :: 0 <= a < i && n in request[a].0.features) || n in features[..f]
      {
        neededRequestFvFeatures := neededRequestFvFeatures + {features[f]};
      }
      assert features[..|features|] == features;
    }
  }

  // ---------------------------------------------------------------------
  // ensure_request_data_values_exist
  // ---------------------------------------------------------------------

  /** The keys of a dict, as a set. */
  function KeySet<V>(d: Dict<V>): set<string> {
    set i | 0 <= i < |d| :: d[i].0
  }

  /**
   * `ensure_request_data_values_exist` as written: it compares the number of
   * needed names, counted once per set, with the number of supplied columns,
   * and on a mismatch reports the needed names that are not supplied.
   */
  function EnsureRequestDataAsWritten(neededRequestData: set<string>, neededRequestFvFeatures: set<string>, requestData: Dict<Column>): Result<()>
  {
    if |neededRequestData| + |neededRequestFvFeatures| != |KeySet(requestData)| then
      Err(RequestDataNotFound((neededRequestData + neededRequestFvFeatures) - KeySet(requestData)))
    else Ok(())
  }

  /** The completeness check as intended: fail exactly when some needed name is not supplied, naming every such name. */
  function EnsureRequestData(neededRequestData: set<string>, neededRequestFvFeatures: set<string>, requestData: Dict<Column>): Result<()>
  {
    var missing := (neededRequestData + neededRequestFvFeatures) - KeySet(requestData);
    if missing != {} then Err(RequestDataNotFound(missing)) else Ok(())
  }

  /** The intended check passes exactly when every needed name is a supplied column, and otherwise lists all the missing ones. */
  lemma EnsureRequestDataSpec(neededRequestData: set<string>, neededRequestFvFeatures: set<string>, requestData: Dict<Column>)
    ensures var r := EnsureRequestData(neededRequestData, neededRequestFvFeatures, requestData);
            && (r.Ok? <==> forall n :: n in neededRequestData || n in neededRequestFvFeatures ==> n in Keys(requestData))
            && (r.Err? ==> r.error.RequestDataNotFound? && r.error.missing != {} &&
                           forall n :: n in r.error.missing <==> (n in neededRequestData || n in neededRequestFvFeatures) && n !in Keys(requestData))
  {
    KeySetKeys(requestData);
    var missing := (neededRequestData + neededRequestFvFeatures) - KeySet(requestData);
    if missing != {} {
      var n :| n in missing;
      assert n !in Keys(requestData);
    } else {
      forall n | n in neededRequestData || n in neededRequestFvFeatures ensures n in Keys(requestData) {
        assert n !in missing;
      }
    }
  }

  lemma KeySetKeys<V>(d: Dict<V>)
    ensures forall n :: n in KeySet(d) <==> n in Keys(d)
  {
    forall n | n in Keys(d) ensures n in KeySet(d) {
      var i :| 0 <= i < |d| && Keys(d)[i] == n;
    }
  }

  lemma SubsetCard(a: set<string>, b: set<string>)
    requires a <= b
    ensures |a| <= |b|
    ensures a < b ==> |a| < |b|
  {
    assert b == a + (b - a);
    if a < b {
      var x :| x in b - a;
    }
  }

  /**
   * When the supplied columns are all needed ones (as routing guarantees),
   * the count check never lets a missing name through: whatever the intended
   * check rejects, the written one rejects too, naming the same names.
   */
  lemma AsWrittenCatchesMissing(neededRequestData: set<string>, neededRequestFvFeatures: set<string>, requestData: Dict<Column>)
    requires KeySet(requestData) <= neededRequestData + neededRequestFvFeatures
    ensures EnsureRequestData(neededRequestData, neededRequestFvFeatures, requestData).Err? ==>
              EnsureRequestDataAsWritten(neededRequestData, neededRequestFvFeatures, requestData) ==
              EnsureRequestData(neededRequestData, neededRequestFvFeatures, requestData)
  {
    var needed := neededRequestData + neededRequestFvFeatures;
    var keys := KeySet(requestData);
    if EnsureRequestData(neededRequestData, neededRequestFvFeatures, requestData).Err? {
      assert keys < needed;
      SubsetCard(keys, needed);
      UnionCard(neededRequestData, neededRequestFvFeatures);
    }
  }

  lemma UnionCard(a: set<string>, b: set<string>)
    ensures |a + b| <= |a| + |b|
    ensures a !! b ==> |a + b| == |a| + |b|
  {
    assert a + b == a + (b - a);
    SubsetCard(b - a, b);
    if a !! b {
      assert b - a == b;
    }
  }

  /** With disjoint needed sets and only needed columns supplied, the written check is the intended one. */
  lemma AsWrittenAgreesWhenDisjoint(neededRequestData: set<string>, neededRequestFvFeatures: set<string>, requestData: Dict<Column>)
    requires KeySet(requestData) <= neededRequestData + neededRequestFvFeatures
    requires neededRequestData !! neededRequestFvFeatures
    ensures EnsureRequestDataAsWritten(neededRequestData, neededRequestFvFeatures, requestData) ==
            EnsureRequestData(neededRequestData, neededRequestFvFeatures, requestData)
  {
    AsWrittenCatchesMissing(neededRequestData, neededRequestFvFeatures, requestData);
    UnionCard(neededRequestData, neededRequestFvFeatures);
    var needed := neededRequestData + neededRequestFvFeatures;
    var keys := KeySet(requestData);
    if keys == needed {
      assert (neededRequestData + neededRequestFvFeatures) - keys == {};
    }
  }

  /**
   * A field needed both by an on-demand view and as a request-view feature
   * is counted twice: supplying it once still fails, with nothing missing.
   */
  lemma OverlapRejected()
    ensures EnsureRequestDataAsWritten({"x"}, {"x"}, [("x", [])]) == Err(RequestDataNotFound({}))
    ensures EnsureRequestData({"x"}, {"x"}, [("x", [])]) == Ok(())
  {
    var rd: Dict<Column> := [("x", [])];
    assert KeySet(rd) == {"x"} by {
      assert rd[0].0 == "x";
    }
    assert ({"x"} + {"x"}) - KeySet(rd) == {};
    assert |{"x"}| + |{"x"}| == 2;
  }

  /** The request-data dict routing builds holds only needed columns. */
  lemma RoutedRequestDataNeeded(lk: Lookups, input: Dict<Column>, requested: set<string>)
    requires Route(lk, input, requested).Ok?
    ensures KeySet(Route(lk, input, requested).value.requestData) <= lk.neededRequestData + lk.neededRequestFvFeatures
  {
    var rd := Route(lk, input, requested).value.requestData;
    RouteOutcome(lk, input, requested);
    KeySetKeys(rd);
    forall n | n in KeySet(rd) ensures lk.Needed(n) {
      RequestNamesMembers(lk, input, n);
    }
  }

  // ---------------------------------------------------------------------
  // The entityless case
  // ---------------------------------------------------------------------

  /** Some requested feature view is keyed by the placeholder entity. */
  predicate Entityless(views: seq<FeatureView>) {
    exists i :: 0 <= i < |views| && DummyEntityName in views[i].entities
  }

  /**
   * After the echo columns are written: in the entityless case the
   * placeholder join key gets a column of `numRows` placeholder values.
   */
  function AddDummyEntity(views: seq<FeatureView>, joinKeyValues: Dict<Column>, numRows: nat): Dict<Column>
  {
    if Entityless(views) then Put(joinKeyValues, DummyEntityId, seq(numRows, _ => DummyEntityVal))
    else joinKeyValues
  }

  /** The placeholder column has one placeholder value per row; every other join key is untouched. */
  lemma AddDummyEntitySpec(views: seq<FeatureView>, joinKeyValues: Dict<Column>, numRows: nat)
    ensures var r := AddDummyEntity(views, joinKeyValues, numRows);
            && (Entityless(views) ==>
                  exists c :: Get(r, DummyEntityId) == Some(c) && |c| == numRows && forall j :: 0 <= j < numRows ==> c[j] == DummyEntityVal)
            && (!Entityless(views) ==> r == joinKeyValues)
            && (forall k :: k != DummyEntityId ==> Get(r, k) == Get(joinKeyValues, k))
            && (WellFormed(joinKeyValues) ==> WellFormed(r))
  {
    var c := seq(numRows, _ => DummyEntityVal);
    if Entityless(views) {
      assert Get(AddDummyEntity(views, joinKeyValues, numRows), DummyEntityId) == Some(c);
      if WellFormed(joinKeyValues) {
        PutWellFormed(joinKeyValues, DummyEntityId, c);
      }
    }
  }
}

=== FILE: scatter.dfy ===
/**
 * `apply_list_mapping`: scatter one value per unique entity key back to every
 * response row that carries that key.
 */
module Scatter {
  import opened Base
  import opened Indexing

  /**
   * What position `idx` of the output holds after the first `m` pairs of
   * `zip(lst, mapping)` are written: the value of the last list that names
   * `idx`, or nothing (Python's `None`) when no list does.
   */
  function Written<T>(lst: seq<T>, mapping: seq<seq<nat>>, m: nat, idx: nat): Option<T>
    requires m <= |lst| && m <= |mapping|
  {
    if m == 0 then None
    else if idx in mapping[m - 1] then Some(lst[m - 1])
    else Written(lst, mapping, m - 1, idx)
  }

  /**
   * `apply_list_mapping(lst, mapping)`: a list of `sum(len(l) for l in mapping)`
   * slots, `None` at first; for each pair of `zip(lst, mapping)` every slot the
   * index list names receives the value.  An index past the end raises
   * IndexError.
   */
  method ApplyListMapping<T>(lst: seq<T>, mapping: seq<seq<nat>>) returns (r: Result<seq<Option<T>>>)
    ensures r.Err? <==> exists i, k :: 0 <= i < Min(|lst|, |mapping|) && 0 <= k < |mapping[i]| && mapping[i][k] >= TotalSize(mapping)
    ensures r.Ok? ==> |r.value| == TotalSize(mapping)
    ensures r.Ok? ==> forall idx :: 0 <= idx < |r.value| ==> r.value[idx] == Written(lst, mapping, Min(|lst|, |mapping|), idx)
  {
    var total := TotalSize(mapping);
    var output := new Option<T>[total](_ => None);
    var m := Min(|lst|, |mapping|);
    for i := 0 to m
      invariant forall i', k :: 0 <= i' < i && 0 <= k < |mapping[i']| ==> mapping[i'][k] < total
      invariant forall idx :: 0 <= idx < total ==> output[idx] == Written(lst, mapping, i, idx)
    {
      var destinations := mapping[i];
      for k := 0 to |destinations|
        invariant forall k' :: 0 <= k' < k ==> destinations[k'] < total
        invariant forall idx :: 0 <= idx < total && idx in destinations[..k] ==> output[idx] == Some(lst[i])
        invariant forall idx :: 0 <= idx < total && idx !in destinations[..k] ==> output[idx] == Written(lst, mapping, i, idx)
      {
        if destinations[k] >= total {
          return Err(IndexOutOfRange(destinations[k]));
        }
        output[destinations[k]] := Some(lst[i]);
        assert destinations[..k + 1] == destinations[..k] + [destinations[k]];
      }
      assert destinations[..|destinations|] == destinations;
    }
    return Ok(output[..]);
  }

  /**
   * When the index lists partition `0..n-1` and are aligned with the values,
   * every row receives exactly the value of the one list that names it, and
   * no row is left `None`.
   */
  lemma {:induction false} WrittenUnderPartition<T>(lst: seq<T>, mapping: seq<seq<nat>>, n: nat)
    requires |lst| == |mapping| && Partitions(mapping, n)
    ensures TotalSize(mapping) == n
    ensures forall i, idx :: 0 <= i < |mapping| && idx in mapping[i] ==> idx < n && Written(lst, mapping, |mapping|, idx) == Some(lst[i])
    ensures forall idx :: 0 <= idx < n ==> Written(lst, mapping, |mapping|, idx).Some?
  {
    PartitionFacts(mapping, n);
    forall i, idx | 0 <= i < |mapping| && idx in mapping[i]
      ensures Written(lst, mapping, |mapping|, idx) == Some(lst[i])
    {
      WrittenIsLastWriter(lst, mapping, |mapping|, i, idx);
    }
    forall idx | 0 <= idx < n ensures Written(lst, mapping, |mapping|, idx).Some? {
      assert InSomeGroup(mapping, idx);
      var i :| 0 <= i < |mapping| && idx in mapping[i];
      WrittenIsLastWriter(lst, mapping, |mapping|, i, idx);
    }
  }

  lemma {:induction false} WrittenIsLastWriter<T>(lst: seq<T>, mapping: seq<seq<nat>>, m: nat, i: nat, idx: nat)
    requires m <= |lst| && m <= |mapping| && i < m && idx in mapping[i]
    requires forall j :: i < j < m ==> idx !in mapping[j]
    ensures Written(lst, mapping, m, idx) == Some(lst[i])
  {
    if i < m - 1 {
      WrittenIsLastWriter(lst, mapping, m - 1, i, idx);
    }
  }

  /** `apply_list_mapping` on a partition: no error, length `n`, every slot filled with its key's value. */
  method ScatterPartition<T>(lst: seq<T>, mapping: seq<seq<nat>>, ghost n: nat) returns (out: seq<T>)
    requires |lst| == |mapping| && Partitions(mapping, n)
    ensures |out| == n
    ensures forall i, idx :: 0 <= i < |mapping| && idx in mapping[i] ==> idx < n && out[idx] == lst[i]
  {
    WrittenUnderPartition(lst, mapping, n);
    PartitionFacts(mapping, n);
    forall i, k | 0 <= i < |mapping| && 0 <= k < |mapping[i]| ensures mapping[i][k] < TotalSize(mapping) {
      assert mapping[i][k] in mapping[i];
    }
    var r := ApplyListMapping(lst, mapping);
    if r.Err? {
      assert false;
    }
    var filled := r.value;
    out := seq(|filled|, idx requires 0 <= idx < |filled| => if filled[idx].Some? then filled[idx].value else lst[0]);
    forall i, idx | 0 <= i < |mapping| && idx in mapping[i] ensures out[idx] == lst[i] {
    }
  }
}

=== FILE: selection.dfy ===
/**
 * Keeping the entries of a list whose flag is set, and the positions they
 * come from: the specification of deleting entries from parallel lists.
 */
module Selection {
  import opened Base

  /** The entries of `s` whose flag in `keep` is set, in order. */
  function Select<T>(s: seq<T>, keep: seq<bool>): seq<T>
    requires |keep| == |s|
  {
    if s == [] then []
    else Select(s[..|s| - 1], keep[..|s| - 1]) + (if keep[|s| - 1] then [s[|s| - 1]] else [])
  }

  /** The positions whose flag is set, in ascending order. */
  function Positions(keep: seq<bool>): seq<nat>
  {
    if keep == [] then []
    else Positions(keep[..|keep| - 1]) + (if keep[|keep| - 1] then [|keep| - 1] else [])
  }

  /** `[False] * n` with the flags at `ps` cleared: the entries still kept once the positions `ps` are deleted. */
  function Mask(n: nat, ps: seq<nat>): (m: seq<bool>)
    ensures |m| == n
  {
    seq(n, i requires 0 <= i < n => i !in ps)
  }

  /** The positions are exactly the flagged ones, in ascending order. */
  lemma {:induction false} PositionsSpec(keep: seq<bool>)
    ensures StrictlyAscending(Positions(keep))
    ensures forall a :: 0 <= a < |Positions(keep)| ==> Positions(keep)[a] < |keep|
    ensures forall p: nat :: p in Positions(keep) <==> p < |keep| && keep[p]
  {
    if keep != [] {
      var n := |keep| - 1;
      PositionsSpec(keep[..n]);
      assert Positions(keep) == Positions(keep[..n]) + (if keep[n] then [n] else []);
      forall p: nat | p < n ensures keep[..n][p] == keep[p] { }
    }
  }

  /** The selected entries are the entries at the flagged positions: what survives keeps its relative order. */
  lemma {:induction false} SelectAtPositions<T>(s: seq<T>, keep: seq<bool>)
    requires |keep| == |s|
    ensures |Select(s, keep)| == |Positions(keep)|
    ensures forall a :: 0 <= a < |Positions(keep)| ==> Positions(keep)[a] < |s| && Select(s, keep)[a] == s[Positions(keep)[a]]
  {
    if s != [] {
      var n := |s| - 1;
      SelectAtPositions(s[..n], keep[..n]);
      PositionsSpec(keep[..n]);
      var ps, sel := Positions(keep[..n]), Select(s[..n], keep[..n]);
      assert Positions(keep) == ps + (if keep[n] then [n] else []);
      assert Select(s, keep) == sel + (if keep[n] then [s[n]] else []);
      forall a | 0 <= a < |ps| ensures sel[a] == s[ps[a]] {
        assert s[..n][ps[a]] == s[ps[a]];
      }
    }
  }

  /** Selecting from two lists laid end to end. */
  lemma {:induction false} SelectConcat<T>(a: seq<T>, ka: seq<bool>, b: seq<T>, kb: seq<bool>)
    requires |ka| == |a| && |kb| == |b|
    ensures Select(a + b, ka + kb) == Select(a, ka) + Select(b, kb)
  {
    if b != [] {
      var n := |b| - 1;
      assert (a + b)[..|a + b| - 1] == a + b[..n];
      assert (ka + kb)[..|a + b| - 1] == ka + kb[..n];
      SelectConcat(a, ka, b[..n], kb[..n]);
    } else {
      assert a + b == a;
      assert ka + kb == ka;
    }
  }

  /** With every flag set, nothing is dropped. */
  lemma {:induction false} SelectAll<T>(s: seq<T>, keep: seq<bool>)
    requires |keep| == |s| && forall i :: 0 <= i < |keep| ==> keep[i]
    ensures Select(s, keep) == s
  {
    if s != [] {
      var n := |s| - 1;
      SelectAll(s[..n], keep[..n]);
      assert s == s[..n] + [s[n]];
    }
  }

  /** Splitting a selection at position `p` when every flag before `p` is set. */
  lemma SelectSplit<T>(s: seq<T>, keep: seq<bool>, p: nat)
    requires |keep| == |s| && p < |s| && forall i :: 0 <= i < p ==> keep[i]
    ensures Select(s, keep) == s[..p] + (if keep[p] then [s[p]] else []) + Select(s[p + 1..], keep[p + 1..])
  {
    assert s == (s[..p] + [s[p]]) + s[p + 1..];
    assert keep == (keep[..p] + [keep[p]]) + keep[p + 1..];
    SelectConcat(s[..p] + [s[p]], keep[..p] + [keep[p]], s[p + 1..], keep[p + 1..]);
    SelectConcat(s[..p], keep[..p], [s[p]], [keep[p]]);
    SelectAll(s[..p], keep[..p]);
    assert Select([s[p]], [keep[p]]) == (if keep[p] then [s[p]] else []) by {
      assert [s[p]][..0] == [];
    }
  }

  /** The flags before `ps[j]` are set whether or not `ps[j]` itself is deleted; after it, the two masks agree. */
  lemma MaskAround(n: nat, ps: seq<nat>, j: nat)
    requires j < |ps| && StrictlyAscending(ps)
    ensures var p, m, m' := ps[j], Mask(n, ps[j + 1..]), Mask(n, ps[j..]);
            && (forall i :: 0 <= i <= p && i < n ==> m[i])
            && (forall i :: 0 <= i < p && i < n ==> m'[i])
            && (p < n ==> !m'[p])
            && (forall i :: p < i < n ==> m'[i] == m[i])
  {
    var p := ps[j];
    assert ps[j..] == [p] + ps[j + 1..];
    var m := Mask(n, ps[j + 1..]);
    forall i | 0 <= i <= p && i < n ensures m[i] {
      forall a | j + 1 <= a < |ps| ensures ps[a] != i { }
    }
  }

  /**
   * Deleting position `ps[j]` from what is left after deleting the later
   * positions `ps[j + 1..]` leaves what deleting all of `ps[j..]` leaves:
   * walking the positions backwards keeps every pending position valid.
   */
  lemma DeleteStep<T>(s: seq<T>, ps: seq<nat>, j: nat)
    requires j < |ps| && StrictlyAscending(ps) && forall a :: 0 <= a < |ps| ==> ps[a] < |s|
    ensures ps[j] < |Select(s, Mask(|s|, ps[j + 1..]))|
    ensures var cur := Select(s, Mask(|s|, ps[j + 1..]));
            cur[..ps[j]] + cur[ps[j] + 1..] == Select(s, Mask(|s|, ps[j..]))
  {
    var p := ps[j];
    var m, m' := Mask(|s|, ps[j + 1..]), Mask(|s|, ps[j..]);
    MaskAround(|s|, ps, j);
    SelectSplit(s, m, p);
    SelectSplit(s, m', p);
    assert m'[p + 1..] == m[p + 1..];
    var cur := Select(s, m);
    var rest := Select(s[p + 1..], m[p + 1..]);
    assert cur == s[..p] + [s[p]] + rest;
    assert cur[..p] == s[..p];
    assert cur[p + 1..] == rest;
  }
}

=== FILE: strings.dfy ===
/**
 * The Python string operations the retrieval path applies to feature
 * references and names: `split`, `endswith`, `replace`, `rpartition`,
 * `lower` and `strip`.
 */
module Strings {
  import opened Base

  /** `s.split(sep)` for a one-character separator. */
  function Split(s: string, sep: char): (parts: seq<string>)
    ensures |parts| >= 1
    ensures forall i :: 0 <= i < |parts| ==> sep !in parts[i]
  {
    if |s| == 0 then [""]
    else
      var rest := Split(s[1..], sep);
      if s[0] == sep then [""] + rest
      else [[s[0]] + rest[0]] + rest[1..]
  }

  /** `sep.join(parts)`. */
  function Join(parts: seq<string>, sep: char): string
    requires |parts| >= 1
  {
    if |parts| == 1 then parts[0] else parts[0] + [sep] + Join(parts[1..], sep)
  }

  /** Splitting then joining gives the string back. */
  lemma {:induction false} JoinSplit(s: string, sep: char)
    ensures Join(Split(s, sep), sep) == s
  {
    if |s| > 0 {
      JoinSplit(s[1..], sep);
      var rest := Split(s[1..], sep);
      if s[0] != sep {
        if |rest| > 1 {
          assert Join([[s[0]] + rest[0]] + rest[1..], sep)
              == [s[0]] + rest[0] + [sep] + Join(rest[1..], sep);
        }
      }
    }
  }

  /** A reference built as `view + ":" + feature` splits back into its two parts. */
  lemma {:induction false} SplitPair(view: string, feature: string, sep: char)
    requires sep !in view && sep !in feature
    ensures Split(view + [sep] + feature, sep) == [view, feature]
  {
    if |view| == 0 {
      assert view + [sep] + feature == [sep] + feature;
      SplitNoSep(feature, sep);
    } else {
      assert (view + [sep] + feature)[1..] == view[1..] + [sep] + feature;
      SplitPair(view[1..], feature, sep);
      assert [view[0]] + view[1..] == view;
    }
  }

  lemma {:induction false} SplitNoSep(s: string, sep: char)
    requires sep !in s
    ensures Split(s, sep) == [s]
  {
    if |s| > 0 {
      SplitNoSep(s[1..], sep);
      assert [s[0]] + s[1..] == s;
    }
  }

  /** `s.endswith(suffix)`. */
  predicate EndsWith(s: string, suffix: string) {
    |suffix| <= |s| && s[|s| - |suffix|..] == suffix
  }

  /** `s.replace(c, repl)` for a one-character pattern. */
  function ReplaceChar(s: string, c: char, repl: string): (r: string)
    ensures c !in repl ==> c !in r
  {
    if |s| == 0 then ""
    else (if s[0] == c then repl else [s[0]]) + ReplaceChar(s[1..], c, repl)
  }

  lemma {:induction false} ReplaceCharAbsent(s: string, c: char, repl: string)
    requires c !in s
    ensures ReplaceChar(s, c, repl) == s
  {
    if |s| > 0 {
      ReplaceCharAbsent(s[1..], c, repl);
      assert [s[0]] + s[1..] == s;
    }
  }

  /** Whether "__" starts at position `i` of `s`. */
  predicate DoubleUnderscoreAt(s: string, i: int) {
    0 <= i && i + 1 < |s| && s[i] == '_' && s[i + 1] == '_'
  }

  /** `s.rfind("__")` among the positions below `bound`: the last start of "__". */
  function LastDoubleUnderscore(s: string, bound: nat): (r: Option<nat>)
    requires bound <= |s|
    ensures r.Some? ==> r.value < bound && DoubleUnderscoreAt(s, r.value)
    ensures r.Some? ==> forall j :: r.value < j < bound ==> !DoubleUnderscoreAt(s, j)
    ensures r.None? ==> forall j :: 0 <= j < bound ==> !DoubleUnderscoreAt(s, j)
  {
    if bound == 0 then None
    else if DoubleUnderscoreAt(s, bound - 1) then Some(bound - 1)
    else LastDoubleUnderscore(s, bound - 1)
  }

  /** `s.rpartition("__")[-1]`: the text after the last "__", or all of `s`. */
  function AfterLastDoubleUnderscore(s: string): (r: string)
    ensures EndsWith(s, r)
  {
    match LastDoubleUnderscore(s, |s|)
    case None => s
    case Some(i) => s[i + 2..]
  }

  /** `c.lower()` for ASCII letters; other characters are unchanged. */
  function LowerChar(c: char): char {
    if 'A' <= c <= 'Z' then (c as int + 32) as char else c
  }

  /** `s.lower()`. */
  function Lower(s: string): (r: string)
    ensures |r| == |s|
    ensures forall i :: 0 <= i < |s| ==> r[i] == LowerChar(s[i])
  {
    seq(|s|, i requires 0 <= i < |s| => LowerChar(s[i]))
  }

  /**
   * What `lower()` means on ASCII: no upper-case letter is left, every other
   * character is kept, and lower-casing again changes nothing.
   */
  lemma LowerNormalises(s: string)
    ensures forall i :: 0 <= i < |s| ==> !('A' <= Lower(s)[i] <= 'Z')
    ensures forall i :: 0 <= i < |s| && !('A' <= s[i] <= 'Z') ==> Lower(s)[i] == s[i]
    ensures Lower(Lower(s)) == Lower(s)
  {
  }

  /**
   * The ASCII characters `str.strip()` removes: space, tab, line feed, carriage
   * return, vertical tab and form feed, and the separators U+001C..U+001F,
   * which Python also counts as whitespace.
   */
  predicate IsSpace(c: char) {
    c == ' ' || c == '\t' || c == '\n' || c == '\r' || c == '\U{000B}' || c == '\U{000C}'
    || ('\U{001C}' <= c <= '\U{001F}')
  }

  /** `not s.strip()`: the string is empty or only whitespace. */
  predicate IsBlank(s: string) {
    forall i :: 0 <= i < |s| ==> IsSpace(s[i])
  }
}

=== FILE: views.dfy ===
/**
 * The registry objects the retrieval path reads: feature views, on-demand
 * feature views, request feature views and their projections.  Only the
 * fields this path touches are kept.
 */
module Views {
  import opened Dicts

  /**
   * A `FeatureViewProjection`: the view's name, an optional alias (`""` for
   * none), the features it exposes and the aliases of its join keys
   * (canonical join key to the name the caller uses).
   */
  datatype Projection = Projection(name: string, nameAlias: string, features: seq<string>, joinKeyMap: Dict<string>)
  {
    /** `name_to_use()`: `name_alias or name`. */
    function NameToUse(): string {
      if nameAlias != "" then nameAlias else name
    }
  }

  /** A standard (materialised) feature view: the entities it is keyed by and its projection. */
  datatype FeatureView = FeatureView(name: string, entities: seq<string>, projection: Projection)

  /**
   * An on-demand feature view: its projection, the projections of the
   * feature views it reads (`source_feature_view_projections.values()`) and
   * the request fields it needs (`get_request_data_schema().keys()`).
   */
  datatype OnDemandFeatureView = OnDemandFeatureView(name: string, projection: Projection, sources: seq<Projection>, requestSchema: seq<string>)

  /** A (deprecated) request feature view: caller-supplied fields served as features. */
  datatype RequestFeatureView = RequestFeatureView(name: string, projection: Projection, features: seq<string>)
}
